=== FILE: README.md ===
# Guideline analyzer and athena-ui checks, modelled in Dafny

This project models three Node scripts that audit a front-end code base.

- `guideline-analyzer.js` walks the project tree and skips what the
  `.gitignore` patterns (plus a built-in default list) exclude. It runs ten
  rule groups over the files it reaches: React, styles, accessibility, code
  style, performance, security, state management, testing, translations and
  TypeScript. Each check appends one message to one of three lists, `passed`,
  `failed` or `warnings`. `main` prints the size of each list and their sum.
- `check-athena-styles-import.js` reads the `@simpplr/athena-ui` version from
  `package.json` and keeps only its digits and dots. When the major version is
  31 or more, some `.js`/`.ts`/`.jsx`/`.tsx` file outside `node_modules` and
  `dist` must contain `import '@simpplr/athena-ui/style';`. Otherwise the
  script exits with 1.
- `check-athena-ui-versions.js` has one status line per repository: a tick
  or a cross, coloured by major version. It collects the repositories that use
  athena-ui and counts repositories per version. It splits the results at
  major 31 and sorts them by version and then by name. The HTML report gives
  each version a coloured badge.

The model is pure: directory trees, files and `package.json` documents are
immutable values, and every script operation is a function over them. Three
things the scripts get from the outside become parameters:

- `Checks.Matchers` gives the results of the regular expressions that are not
  plain substring tests.
- `lt` is the `localeCompare` order, assumed to be a strict total order.
- `Analyzer.Settings` holds what the cursor-rules file supplies: the maximum
  line length and the performance targets.

Module layout follows the scripts:

- `IgnorePatterns` and `FileTree`: `parseGitignorePatterns`, `isIgnored`, `walkDir`.
- `Results`, `Checks` and `Tally`: the `results` object and the
  accumulators the groups keep.
- `Scanners`: the per-file scans (return spacing, long lines, barrel
  exports, translation documents).
- One module per rule group, `ReactRules` … `TypeScriptRules`.
- `Analyzer`: `main`.
- `StylesImport`: the styles-import script.
- `UiVersions`: the version report.
- `Manifest`, `Text` and `Sorting`: what the scripts share.

Where the scripts' documentation and their code disagree, the model follows
the code:

- **No `.gitignore`, no defaults.** When `.gitignore` is missing or cannot be
  read, the pattern list is empty, so not even `node_modules` or `dist` is
  skipped. The default patterns apply only when a `.gitignore` exists.
- **A failing entry cuts off its siblings.** One `try` wraps the whole
  `forEach` in `walkDir`. If `statSync` throws on one entry, the entries after
  it in that directory are never visited. A directory that cannot be listed
  contributes nothing, and its siblings are still visited.
- **A malformed `package.json` aborts the analyzer.** The state-management
  check calls `JSON.parse` outside any `try`, so the whole run aborts
  (`Analyzer.Analysis.Aborted`).
- **Not every check pushes exactly one entry.**
  - The performance targets are always pushed as a warning.
  - Large-asset warnings have no passed counterpart.
  - The state check pushes nothing when there is no `package.json`.
  - Every translation file that fails to read or scan adds one more warning.
- **Top-level translation folders are missed.** A file under a top-level
  `translations/` directory is not recognised as a translation file.
  `path.join('.', …)` drops the leading `./`, so the path never contains
  `/translations/`.

## Model

| member | source | states |
|---|---|---|
| IgnorePatterns.KeepPatternLinesMembers | guideline-analyzer.js:612-618 | a `.gitignore` line becomes a pattern exactly when it is some raw line, trimmed, that is neither empty nor starts with `#` |
| IgnorePatterns.ParsePatterns | guideline-analyzer.js:585-635 | a missing or unreadable `.gitignore` yields no patterns at all; otherwise one compiled pattern per default and per kept line |
| IgnorePatterns.ParsePatternsCompilesEachLine | guideline-analyzer.js:593-635 | with a readable `.gitignore`, the defaults come first, each compiled in its fixed order, then each kept line of the file, compiled, in file order |
| IgnorePatterns.Candidate | guideline-analyzer.js:639-644 | the string the patterns are tested on always starts with `/` and holds no backslash |
| IgnorePatterns.NoIgnoreFileIgnoresNothing | guideline-analyzer.js:586-589 | without a readable `.gitignore` no path is ignored, not even `node_modules` or `dist` |
| IgnorePatterns.AnyRunMatches | guideline-analyzer.js:623-625 | a `.*` followed by the rest matches exactly when some prefix without line terminators can be skipped and the rest matches after it |
| IgnorePatterns.LitsMatch | guideline-analyzer.js:622 | escaped pattern characters match only themselves: a literal run matches exactly when the path starts with it and the rest matches after it |
| IgnorePatterns.EndOrSubpathMatches | guideline-analyzer.js:626 | the appended `($|/.*)` accepts exactly the end of the path or a `/` and anything after it |
| IgnorePatterns.DirectorySuffixMatches | guideline-analyzer.js:624-626 | a trailing `/`, rewritten to `/?$`, accepts only the end of the path or a single final `/` |
| IgnorePatterns.NameMatchesWholeSegments | guideline-analyzer.js:620-629 | a plain name such as `dist` matches exactly when it fills one or more whole path segments somewhere in the path |
| IgnorePatterns.RootedPatternMatchesFromRoot | guideline-analyzer.js:620-629 | a pattern that starts with `/` matches exactly the paths that start with it and end there or continue with `/` |
| IgnorePatterns.DirectoryPatternMatchesOnlyTheDirectory | guideline-analyzer.js:620-629 | a pattern `name/` matches exactly the paths ending in `/name` or `/name/`, so files below that directory are not matched by it |
| IgnorePatterns.DistMatchesItself | guideline-analyzer.js:593-629 | the default `dist` pattern matches the path `/dist` |
| IgnorePatterns.DistMatchesNestedPaths | guideline-analyzer.js:593-629 | the default `dist` pattern matches a file below a nested `dist` directory |
| IgnorePatterns.DistRejectsSharedSubstrings | guideline-analyzer.js:593-629 | the default `dist` pattern does not match `/adist` or `/distx` |
| IgnorePatterns.DefaultsApplyWithIgnoreFile | guideline-analyzer.js:593-618 | whatever the `.gitignore` says, a path with a `dist` segment is ignored once the file exists |
| FileTree.WalkVisitsExactlyTheReachableFiles | guideline-analyzer.js:649-668 | the callback receives exactly the regular files reached through unignored directories. The walk never passes an unignored entry whose `statSync` throws: that entry stops the rest of its directory |
| FileTree.FailingEntry | guideline-analyzer.js:650-667 | nothing at or after an unignored entry whose `statSync` throws is reached in that directory |
| FileTree.ReachedPathsAreNotIgnored | guideline-analyzer.js:652-656 | no segment prefix of a visited file's path is ignored, so nothing below an ignored directory is visited |
| FileTree.UnlistableRootYieldsNothing | guideline-analyzer.js:650-667 | a root directory that cannot be listed yields no files and no exception |
| Results.RecordAppendsPerBucket | guideline-analyzer.js:674-678 | each pushed message lands at the end of its own list, in push order, and the other two lists keep what they had |
| Results.BucketsPartition | guideline-analyzer.js:674-678 | every entry goes to exactly one of the three lists |
| Results.RecordTotal | guideline-analyzer.js:674-678 | pushing `n` entries grows the three lists together by exactly `n` |
| Results.RecordConcat | guideline-analyzer.js:1490-1499 | running one group after another is the same as pushing their entries in one sequence |
| Results.MessageListed | guideline-analyzer.js:674-678 | every pushed message is found in the list of its bucket |
| Results.SummaryOfRecorded | guideline-analyzer.js:1505-1509 | starting from empty lists, the printed counts are the number of entries per bucket and the total is the number of entries pushed |
| Tally.SumPositiveIff | guideline-analyzer.js:704-709 | a running count is positive exactly when some visited file contributes to it |
| Tally.FilesWhere | guideline-analyzer.js:933-940 | the set of files a group fills holds each matching path once, and exactly the matching paths |
| Tally.MapSet | guideline-analyzer.js:735-739 | `map.set` adds its key, or keeps it, and loses no other key |
| Tally.MapSetEntries | guideline-analyzer.js:735-739 | `map.set` never duplicates a key, and every entry afterwards is the one just set or was there before |
| Tally.PerFile | guideline-analyzer.js:735-739 | the per-file map has exactly the visited paths with an entry as keys |
| Tally.PerFileKeysDistinct | guideline-analyzer.js:735-739 | no path has two entries in the per-file map |
| Tally.PerFileEntriesAreReal | guideline-analyzer.js:735-739 | every entry of the per-file map holds the value that some visited file with that path yielded |
| Tally.PerFileHolds | guideline-analyzer.js:735-739 | when no two visits share a path, each file that yields a value is in the map with exactly that value |
| Tally.PerFileEmptyIff | guideline-analyzer.js:895 | the per-file map is empty exactly when no visited file has an entry |
| Tally.Select | guideline-analyzer.js:1180-1184 | an array a group pushes to holds exactly the visited files that qualify, and no more than were visited |
| Checks.FileKindsNest | guideline-analyzer.js:820-833 | the extension tests nest: React sources and TypeScript files are scripts, React tests are React sources and tests, CSS modules are style sheets |
| Checks.IndicatorCountsFiles | guideline-analyzer.js:711-714 | a counter bumped at most once per file counts exactly the files that qualify |
| Checks.FileListCheck | guideline-analyzer.js:960-967 | a check with a file list trips into its bucket exactly when its condition holds; its message starts with the headline and ends with the files, one per line; otherwise it passes with the fixed message |
| Checks.ListCheck | guideline-analyzer.js:743-749 | a counting check trips exactly when some file contributes; its message starts with the total and ends with the contributing files; otherwise it passes with the fixed message |
| Checks.PresenceCheck | guideline-analyzer.js:766-772 | a presence check trips with the missing-feature message exactly when no file qualifies; otherwise it passes, reporting how many files do |
| Checks.CountLinesAreReal | guideline-analyzer.js:780-792 | each `  file (count unit)` detail line names a visited file with a positive count and that count; there is one line per map entry and no file has two |
| Checks.CountDetailsNameEachFile | guideline-analyzer.js:780-792 | when no two visits share a path, a message that embeds the details names every file with a positive count, with its own count |
| Checks.CountedKeys | guideline-analyzer.js:735-739 | the per-file count map has exactly the files with a positive count as keys |
| Text.TrimCutsWhitespaceEnds | guideline-analyzer.js:616 | `trim()` removes a whitespace prefix and a whitespace suffix and keeps the middle of the string as it is |
| Text.TrimIdempotent | guideline-analyzer.js:616 | trimming twice is trimming once |
| Text.Utf16Length | guideline-analyzer.js:1014-1018 | a string's `.length` counts UTF-16 code units: at least one and at most two per character |
| Text.Utf16LengthIsCharCountIff | guideline-analyzer.js:1014-1018 | `.length` equals the number of characters exactly when no character lies outside the Basic Multilingual Plane |
| Text.Utf16LengthConcat | guideline-analyzer.js:1014-1018 | the `.length` of a concatenation is the sum of the lengths |
| Text.Split | guideline-analyzer.js:1010 | `split('\n')` gives at least one piece, no piece contains the separator, and joining the pieces gives back the text |
| Text.SplitJoin | guideline-analyzer.js:1010 | splitting undoes joining when no piece holds the separator |
| Text.CountOccurrences | guideline-analyzer.js:1437 | the number of matches of a literal is positive exactly when the text contains it |
| Text.ReplaceChar | guideline-analyzer.js:641 | replacing backslashes keeps the length and changes exactly the backslashes |
| Text.NatToString | guideline-analyzer.js:1505-1509 | the printed decimal has no leading zero and reads back as the number |
| Manifest.DeclaredVersion | check-athena-styles-import.js:18-21 | the version is absent exactly when no section declares the package truthily; otherwise it is the value in the first section, in the order `dependencies`, `devDependencies`, `peerDependencies`, that does |
| Manifest.EarlierSectionWins | check-athena-styles-import.js:18-21 | a truthy `dependencies` entry is reported whatever the later sections say |
| Manifest.UsesReduxIff | guideline-analyzer.js:1292-1293 | Redux is detected when a Redux package is truthy in `devDependencies`, or absent there and truthy in `dependencies`; `peerDependencies` never count |
| Sorting.SortBy | check-athena-ui-versions.js:478-483 | a sorted copy is a permutation of the input, is ordered under any total preorder, and is the input itself when that is already ordered |
| Sorting.SortedCopyUnchangedIffSorted | guideline-analyzer.js:1349-1350 | comparing a key list with its sorted copy detects exactly whether the list is ordered |
| Sorting.NotAfterIsTotalPreorder | check-athena-ui-versions.js:478-483 | a comparator that is a strict weak order induces a total preorder of placements |
| Sorting.TotalIsWeak | guideline-analyzer.js:1349 | a total collation order is a strict weak order |
| Sorting.UnsortedIffInversion | guideline-analyzer.js:1349-1350 | a key list differs from its `localeCompare`-sorted copy exactly when some later key collates strictly before an earlier one |
| Scanners.ReturnSpacingIssues | guideline-analyzer.js:876-893 | the flagged 1-based line numbers are exactly the lines after the first whose trimmed text starts with `return` while the line above is not blank, in increasing order |
| Scanners.FlaggedIffMissingBlank | guideline-analyzer.js:885-889 | a file is flagged exactly when some line is such a `return` line |
| Scanners.LongLines | guideline-analyzer.js:1013-1022 | one entry per line whose `.length` in UTF-16 code units exceeds the limit, in line order, each with its 1-based number, that length and its trimmed text; no other line has an entry |
| Scanners.LongLineCountIsLineCount | guideline-analyzer.js:1013-1026 | the number of entries is the number of over-long lines |
| Scanners.BraceGroup | guideline-analyzer.js:1039-1040 | the text inside the leftmost `{...}` group with at least one character and no `}` inside, or nothing exactly when there is no such group anywhere |
| Scanners.NonBlankPieces | guideline-analyzer.js:1041-1046 | the comma-separated names kept are non-blank pieces, and every non-blank piece is kept |
| Scanners.NonBlankPiecesCounts | guideline-analyzer.js:1041-1046 | each non-blank piece is kept exactly as often as it occurs, and no blank piece is kept |
| Scanners.ClassifyExports | guideline-analyzer.js:1035-1049 | a file's re-exports include a wildcard exactly when some `export … from` statement contains `*` |
| Scanners.ClassifyExportsCountsNames | guideline-analyzer.js:1035-1049 | the identifier count is exactly the sum, over the statements without `*`, of the names in their brace group |
| Scanners.ClassifyExportsCountsEach | guideline-analyzer.js:1035-1049 | every non-wildcard statement's names are part of the identifier count |
| Scanners.OffendsIff | guideline-analyzer.js:1035-1054 | a file is flagged exactly when some statement contains `*` or the statements without `*` name more than one identifier between them |
| Scanners.WildcardOffends | guideline-analyzer.js:1051-1054 | a wildcard re-export always flags its file |
| Scanners.TwoNamedReexportsOffend | guideline-analyzer.js:1051-1054 | two non-wildcard re-exports of at least one name each flag the file |
| Scanners.SingleNamedReexportIsAllowed | guideline-analyzer.js:1028-1066 | a file whose only re-export is `export { name } from '...'` is not flagged |
| Scanners.ScanEnd | guideline-analyzer.js:1353-1360 | the scan of a translation's keys stops at the first value on which `includes` throws, and only there |
| Scanners.ScanError | guideline-analyzer.js:1361-1365 | a translation document reports an error exactly when some value makes `includes` throw, and the message is that of the first such value |
| Scanners.PluralKeysExact | guideline-analyzer.js:1353-1360 | the reported keys are exactly, in key order, the keys before the first throwing value whose value mentions `{{count}}` and which do not end in `_plural` |
| Scanners.PluralKeysNonEmptyIff | guideline-analyzer.js:1353-1360 | some key is reported exactly when some key before the first throwing value breaks the plural rule |
| Scanners.UnsortedIffKeyInversion | guideline-analyzer.js:1348-1352 | a translation file is reported unsorted exactly when some later key collates strictly before an earlier one |
| ReactRules.ClassComponentCheck | guideline-analyzer.js:743-749 | fails exactly when some React source declares a class component, and passes with the fixed message otherwise; the failure opens with the total number of class declarations and ends with the files that declare one, one per line |
| ReactRules.InlineStyleCheck | guideline-analyzer.js:750-757 | fails exactly when some React source has `style={{`; the failure opens with the number of such files and ends with those files, one per line |
| ReactRules.FcTypeCheck | guideline-analyzer.js:758-765 | fails exactly when some React source mentions `FC<` or `FunctionComponent<`; the failure opens with the number of such files and ends with those files, one per line |
| ReactRules.ErrorBoundaryCheck | guideline-analyzer.js:766-772 | fails exactly when no React source is an error boundary; otherwise passes with the number of files that are |
| ReactRules.LazyLoadCheck | guideline-analyzer.js:773-779 | fails exactly when no React source loads lazily; otherwise passes with the number of files that do |
| ReactRules.PropsCheck | guideline-analyzer.js:780-792 | warns exactly when some React source reads `props.x` directly; when no two visits share a path, the warning names every such file with its number of accesses |
| ReactRules.PropsCheckOpensWithTotal | guideline-analyzer.js:787-789 | the props warning opens with "Found" and the total number of direct accesses over all React sources |
| ReactRules.ConditionalCheck | guideline-analyzer.js:794-808 | warns exactly when the React sources hold more than 10 conditional renders in total; otherwise passes with the reasonable-conditionals message |
| ReactRules.ConditionalWarningNeedsAFile | guideline-analyzer.js:794-804 | a conditional-render warning needs at least one React source with conditional renders |
| ReactRules.ConditionalCheckMessage | guideline-analyzer.js:794-808 | the conditional-render warning opens with "Found" and the total number of conditional renders; when no two visits share a path, it names every file with conditionals and its count |
| ReactRules.ReactChecks | guideline-analyzer.js:741-808 | the group always pushes seven entries |
| ReactRules.WithoutReactSources | guideline-analyzer.js:696-699 | only `.tsx`/`.jsx` files count: without them the error-boundary and lazy-loading checks fail and the other five pass |
| StyleRules.CssModuleCheck | guideline-analyzer.js:843-847 | passes exactly when some file is a `.module.css` or `.module.scss` sheet, and fails with the fixed message otherwise |
| StyleRules.HardcodedColorCheck | guideline-analyzer.js:849-857 | fails exactly when some style sheet or React source holds a colour literal; the failure opens with the total number of literals and ends with the files that hold one, one per line |
| StyleRules.ImportantCheck | guideline-analyzer.js:859-874 | warns exactly when some style sheet declares `!important`; the warning opens with the total number of declarations; when no two visits share a path, the warning names every such sheet with its number of declarations |
| StyleRules.ReturnIssues | guideline-analyzer.js:876-893 | a file has an entry exactly when it is a script with a `return` line right below a non-blank line |
| StyleRules.ReturnSpacingCheck | guideline-analyzer.js:895-904 | warns exactly when some script has a `return` line right below a non-blank line, under the missing-blank-lines heading; the code-style group (lines 1107-1135) pushes the same entry again |
| StyleRules.ReturnSpacingCheckNamesEachFile | guideline-analyzer.js:876-904 | with distinct paths, the warning holds, for every offending script, its `Lines:` line listing the numbers of its offending `return` lines |
| StyleRules.StyleChecks | guideline-analyzer.js:811-905 | the group always pushes four entries |
| AccessibilityRules.TranslationFileCheck | guideline-analyzer.js:952-957 | passes exactly when some file's path contains `/translations/`, or some `.json`/`.yml` file mentions `translations` |
| AccessibilityRules.KeyboardCheck | guideline-analyzer.js:960-967 | warns exactly when fewer than 10 inspected React files handle a key event; the warning opens with "Found only" and the number of such files, and ends with those files |
| AccessibilityRules.AriaCheck | guideline-analyzer.js:969-976 | warns exactly when the inspected files hold fewer than 20 ARIA attributes in total; the warning opens with "Found only" and that total, and ends with the inspected files |
| AccessibilityRules.RoleCheck | guideline-analyzer.js:978-985 | warns exactly when the inspected files hold fewer than 20 `role` attributes in total; the warning opens with "Found only" and that total, and ends with the inspected files |
| AccessibilityRules.AccessibilityChecks | guideline-analyzer.js:907-997 | the group always pushes four entries |
| AccessibilityRules.NoInspectedFilesWarns | guideline-analyzer.js:928-931 | a project without inspected React files warns on all three counts |
| AccessibilityRules.TopLevelTranslationsMissed | guideline-analyzer.js:1341-1344 | a path `translations/f` with one separator never contains `/translations/`, so neither this test nor the same test in the accessibility group (line 921) counts a top-level translations directory |
| CodeStyleRules.LongLineCountPositiveIff | guideline-analyzer.js:1005-1026 | a file has counted lines exactly when it is a script with a line longer than the limit |
| CodeStyleRules.LongLineCheck | guideline-analyzer.js:1072-1086 | warns exactly when some script has an over-long line, reporting the total number of such lines and the limit |
| CodeStyleRules.LongLineCheckNamesEachFile | guideline-analyzer.js:1072-1086 | when no two visits share a path, the warning names every script with over-long lines, with its number of such lines |
| CodeStyleRules.LongLineWarnsIff | guideline-analyzer.js:1072-1086 | the warning is raised exactly when some script has a line longer than the configured maximum |
| CodeStyleRules.BarrelCheck | guideline-analyzer.js:1088-1096 | fails exactly when some script re-exports everything or more than one name, reporting the number of such files |
| CodeStyleRules.BarrelCheckNamesEachFile | guideline-analyzer.js:1088-1096 | the failure names every flagged script in a `  - file (exports …)` line with what it re-exports |
| CodeStyleRules.BarrelFailsIff | guideline-analyzer.js:1028-1096 | the check fails exactly when some script has an `export … from` statement with `*`, or statements without `*` that name more than one identifier between them |
| CodeStyleRules.WildcardReexportFails | guideline-analyzer.js:1028-1096 | one `export * from` in one script fails the barrel check |
| CodeStyleRules.DefaultExportCheck | guideline-analyzer.js:1098-1105 | fails exactly when some script has a default export, reporting the number of such files |
| CodeStyleRules.CodeStyleChecks | guideline-analyzer.js:999-1135 | the group always pushes four entries |
| PerformanceRules.MetricsMessage | guideline-analyzer.js:1143-1147 | the targets warning opens with the FCP target as configured |
| PerformanceRules.RoundingIsUnique | guideline-analyzer.js:1169-1177 | at most one integer is the quotient rounded half up |
| PerformanceRules.FixedReadsBack | guideline-analyzer.js:1169-1177 | the digits `toFixed` prints after the point are the remainder below the power of ten, and all printed digits read back as the scaled number |
| PerformanceRules.FormatSizeRounds | guideline-analyzer.js:1169-1177 | from 1 MiB on, the size is printed in megabytes with two decimals, rounded; below that it is printed in kilobytes with one decimal, rounded |
| PerformanceRules.AssetWarning | guideline-analyzer.js:1187-1201 | an asset type warns once exactly when it has assets, naming their number, and the warning has a line for each of those assets |
| PerformanceRules.AssetWarnings | guideline-analyzer.js:1165-1201 | one warning for large images and one for large scripts, each present exactly when such a file exists; the first warning lists every large image and the last every large script; fonts and styles never warn |
| PerformanceRules.MemoCheck | guideline-analyzer.js:1203-1207 | warns exactly when no React source calls `useMemo(`, else passes with the number of files that do |
| PerformanceRules.CallbackCheck | guideline-analyzer.js:1209-1213 | warns exactly when no React source calls `useCallback(`, else passes with the number of files that do |
| PerformanceRules.QueryCheck | guideline-analyzer.js:1215-1219 | warns exactly when no React source uses React Query, else passes with the number of files that do |
| PerformanceRules.PerformanceChecks | guideline-analyzer.js:1138-1220 | the group pushes the targets warning first, then exactly the asset warnings, then the three hook checks |
| SecurityRules.TypeImportCheck | guideline-analyzer.js:1262-1266 | warns exactly when no script uses `import type` |
| SecurityRules.SensitiveLogCheck | guideline-analyzer.js:1267-1276 | fails exactly when some script calls `console.log(` and mentions a password, token or secret |
| SecurityRules.InlineCountPositiveIff | guideline-analyzer.js:1244-1256 | a file counts exactly when it is a page with an inline script block or event handler |
| SecurityRules.InlineScriptCheck | guideline-analyzer.js:1277-1286 | warns exactly when some page has an inline script, reporting their total |
| SecurityRules.SecurityChecks | guideline-analyzer.js:1223-1287 | the group always pushes three entries |
| StateRules.StateChecks | guideline-analyzer.js:1289-1299 | a malformed `package.json` aborts the run; a missing one adds nothing; otherwise one entry, failed exactly when Redux is used |
| StateRules.StateFailsIff | guideline-analyzer.js:1292-1293 | the check fails exactly when a Redux package is truthy in the merged dependencies, development entries overriding runtime ones |
| TestingRules.DocumentAssertionCheck | guideline-analyzer.js:1316-1323 | warns exactly when some test uses `.toBeInTheDocument()`, listing exactly those files |
| TestingRules.TranslationKeyCheck | guideline-analyzer.js:1324-1331 | warns exactly when some test asserts against a `t(...)` call, listing exactly those files |
| TestingRules.WithoutTestsPasses | guideline-analyzer.js:1303-1310 | only test files are read: without them both checks pass |
| TranslationRules.ErrorWarnings | guideline-analyzer.js:1361-1365 | the read-error warnings are all warnings, and there are none exactly when every translation file parses and scans |
| TranslationRules.ErrorWarningsNameFailingFiles | guideline-analyzer.js:1345-1365 | there is one warning per translation file whose parse or scan threw, in walk order; the k-th warning is the read-error prefix, the k-th failing file's path, a newline and its error text |
| TranslationRules.UnsortedCheck | guideline-analyzer.js:1376-1382 | warns exactly when some translation file has its keys out of order |
| TranslationRules.UnsortedFileIff | guideline-analyzer.js:1341-1352 | a file is listed as unsorted exactly when it is a translation file that parses and has a later key collating before an earlier one |
| TranslationRules.PluralCheck | guideline-analyzer.js:1383-1393 | warns exactly when some translation file reports a plural key; when no two visits share a path, the warning has the line of every such file with its keys |
| TranslationRules.PluralEntryIff | guideline-analyzer.js:1341-1360 | a translation file reports keys exactly when it parses and a key before the first throwing value breaks the plural rule |
| TranslationRules.ConcatenationCheck | guideline-analyzer.js:1394-1400 | warns exactly when some React source builds a template literal around a `t(...)` call |
| TranslationRules.TranslationChecks | guideline-analyzer.js:1335-1400 | the group pushes exactly the read-error warnings first, then the three checks |
| TranslationRules.UnparsableFileOnlyWarns | guideline-analyzer.js:1345-1365 | a translation file that is not valid JSON adds exactly one error warning and nothing else |
| TypeScriptRules.AnyCheck | guideline-analyzer.js:1445-1452 | fails exactly when some TypeScript file mentions `: any` |
| TypeScriptRules.EnumCheck | guideline-analyzer.js:1454-1461 | fails exactly when some TypeScript file declares an enum |
| TypeScriptRules.DefaultExportCheck | guideline-analyzer.js:1463-1470 | fails exactly when some TypeScript file contains `export default` |
| TypeScriptRules.BarrelCheck | guideline-analyzer.js:1472-1479 | fails exactly when some `index.ts`/`index.tsx` re-exports with `export * from`; the failure opens with the number of such statements and ends with those index files, one per line |
| TypeScriptRules.TypeScriptChecks | guideline-analyzer.js:1403-1480 | the group always pushes four entries |
| Analyzer.RunGroupsShape | guideline-analyzer.js:1490-1499 | every group pushes its fixed number of entries, the state group's entries pass through, and the performance group opens with the targets warning |
| Analyzer.FlattenShape | guideline-analyzer.js:1490-1499 | the targets warning is entry 19 of the run, and a run has at least 35 entries besides the state group's |
| Analyzer.Analyze | guideline-analyzer.js:1486-1516 | a run aborts exactly when `package.json` does not parse |
| Analyzer.SummaryCountsEveryEntry | guideline-analyzer.js:1505-1509 | a finished run's total is the sum of the three counts, and it counts at least 35 entries |
| Analyzer.TargetsAlwaysWarned | guideline-analyzer.js:1143-1147 | every finished run lists the performance targets among its warnings |
| StylesImport.Normalize | check-athena-styles-import.js:35 | the normalised version holds only digits and dots, is no longer than the input, and leaves a version made only of digits and dots unchanged |
| StylesImport.NormalizeIdempotent | check-athena-styles-import.js:35 | normalising twice is normalising once |
| StylesImport.NormalizeKeepsExactlyVersionChars | check-athena-styles-import.js:35 | normalisation keeps every digit and dot as often as it occurs, and nothing else |
| StylesImport.MajorPiece | check-athena-styles-import.js:41 | the major piece is the text before the first dot, all of it when there is none |
| StylesImport.GateReadsMajor | check-athena-styles-import.js:40-43 | for a version `m.rest`, the check applies exactly when `m` is at least 31 |
| StylesImport.GateReadsWholeVersion | check-athena-styles-import.js:40-43 | a version without a dot applies the check exactly when its number is at least 31 |
| StylesImport.EmptyMajorIsBelow31 | check-athena-styles-import.js:40-43 | an empty version or one starting with a dot reads as major 0, so no import is required |
| StylesImport.FoundIsSound | check-athena-styles-import.js:46-75 | a reported hit is real: some source file outside `node_modules` and `dist` holds the import |
| StylesImport.SearchExact | check-athena-styles-import.js:46-75 | on a tree where no listing or `statSync` fails, the search does not throw and finds the import exactly when such a file holds it |
| StylesImport.ExitFailsIff | check-athena-styles-import.js:78-100 | with a readable `package.json` the script exits 1 exactly when the normalised version is non-empty, its major is at least 31 and the search does not find the import; it otherwise exits 0 |
| StylesImport.ExitOnSoundTree | check-athena-styles-import.js:78-100 | on a tree the search walks without failing, the script fails exactly when the gate is open and no source file holds the import |
| StylesImport.NoDependencyPasses | check-athena-styles-import.js:29-32 | a project that does not depend on athena-ui passes |
| UiVersions.CheckVersion | check-athena-ui-versions.js:357-386 | a reported version is never empty; the check rejects, with the failure's own message, exactly when fetching or parsing failed with a message that does not contain `404`; any failure whose message contains `404`, like a missing `package.json`, yields no version |
| UiVersions.CheckVersionIsFirstDeclared | check-athena-ui-versions.js:374-379 | a parsed manifest yields no version exactly when no section declares athena-ui; otherwise it yields the value of the first section that does |
| UiVersions.Major | check-athena-ui-versions.js:424-425 | a version without digits has major 0 |
| UiVersions.MajorReadsFirstRun | check-athena-ui-versions.js:424-425 | a range prefix without digits is skipped and the major is read up to the first non-digit, so `^31.2.0` has major 31 |
| UiVersions.IndicatorFor | check-athena-ui-versions.js:416-433 | a repository without a version gets a red cross; one with a version gets a tick, green exactly when its major is at least 31 |
| UiVersions.Badge | check-athena-ui-versions.js:600-604 | a badge is green exactly from major 31, yellow exactly for majors 1 to 30, and red exactly for major 0 |
| UiVersions.IndicatorAgreesWithBadge | check-athena-ui-versions.js:416-433 | the console and the report agree on every version with a non-zero major; a version with major 0 is a yellow tick but a red badge |
| UiVersions.CollectMembers | check-athena-ui-versions.js:439-447 | the results are exactly the repositories whose check gave a version, with that version, name and URL |
| UiVersions.CollectFollowsVersioned | check-athena-ui-versions.js:439-447 | there is one result per repository whose check gave a version, in repository order; the k-th result carries the name, version and URL of the k-th such repository |
| UiVersions.WithoutAthena | check-athena-ui-versions.js:625-626 | the repositories listed without athena-ui are exactly those no result is named after |
| UiVersions.ReportSplitsRepos | check-athena-ui-versions.js:625-626 | with distinct names, a repository is listed without athena-ui exactly when its check gave no version |
| UiVersions.Bump | check-athena-ui-versions.js:446 | bumping a version adds one to its count, leaves every other count as it is, and adds one to the total |
| UiVersions.BumpKeys | check-athena-ui-versions.js:446 | bumping adds the version to the keys if new and keeps them distinct |
| UiVersions.VersionCountsExact | check-athena-ui-versions.js:439-447 | each version maps to the number of results carrying it; the keys are distinct and are exactly the versions that occur; the counts add up to the number of results |
| UiVersions.DistributionAscending | check-athena-ui-versions.js:492-496 | the distribution lists each occurring version once, with its number of results, in strictly increasing collation order |
| UiVersions.SplitCoversResults | check-athena-ui-versions.js:499-511 | every result is counted on exactly one side of major 31 |
| UiVersions.ByVersionThenNameIsWeak | check-athena-ui-versions.js:478-483 | ordering by version and then name is a strict weak order when the collation is total |
| UiVersions.SortResults | check-athena-ui-versions.js:478-483 | sorting keeps exactly the same results |
| UiVersions.SortedByVersionThenName | check-athena-ui-versions.js:478-483 | after sorting, versions never decrease and names never decrease within one version |
| UiVersions.SummaryCoversSortedResults | check-athena-ui-versions.js:499-514 | the split counts of the sorted results add up to the number of results |

## Left out

- Report output is left out: the HTML report, writing it, and opening it in a browser (guideline-analyzer.js:7-511). It only formats the three lists the model computes.
- `readAndParseCursorRules` (guideline-analyzer.js:519-579) is not modelled. Its result, the line-length limit and the metric targets, is the `Analyzer.Settings` parameter.
- File-system and JSON I/O are values, not calls:
  - a file's contents and size are fields of the tree;
  - `.gitignore` is `IgnorePatterns.IgnoreFile`;
  - `package.json` is `Manifest.ManifestFile`;
  - a translation file's `JSON.parse` and `Object.keys` come from the `Matchers` parameter as a parsed key list.
- General regular-expression semantics are left out.
  - Substring tests and the suffix tests on paths are modelled exactly.
  - The ignore-pattern language is modelled exactly, with its own matcher.
  - The other expressions come from `Checks.Matchers`. These are class components, colour literals, ARIA and role attributes, props access, conditional renders, `export … from`, enums, inline scripts and `t(...)` template literals.
- `localeCompare` is a parameter `lt`, assumed to be a strict total order; locale-specific collation is not modelled.
- Symbolic links and directory cycles are not modelled; the tree is finite and acyclic.
- A failed `readFileSync` in the rule groups is left out: every file the walk hands over is a readable value. In the script such a failure (a file without read permission, say) throws inside the walk's `try`, like a failing `statSync`, and cuts off the remaining entries of that directory. Read errors of translation files are modelled, as part of the parse result.
- Dependency values that are not strings are left out: a falsy value is the empty string.
- `Number(...)` on the major piece in the styles-import script is modelled for digit strings only. That is all `Normalize` leaves.
- The ui-versions script's GitHub client is left out: `makeGitHubRequest`, pagination, batches of ten, `Promise.all`, the delay between batches, base64 decoding, console colours and the JSON file. A repository's fetched `package.json` is the `UiVersions.RepoData` field.
- The ui-versions result order is repository order. Inside a batch of ten the script pushes results in the order the requests resolve, which is not deterministic.
- The key order of `versionCounts` under `Object.entries` (integer-like keys first) is left out. `UiVersions.DistributionAscending` shows that the printed order does not depend on it.
- `toFixed` is modelled exactly on the exact quotient for the sizes involved, which are below 10^21 bytes.
- PerformanceRules.MetricsMessage: the contract fixes only the opening of the targets message, up to the FCP target. The remaining targets follow the same interpolation.
- SecurityRules.InlineScriptCheck: the failure message is stated by its leading total. The per-page lines are `SecurityRules.InlineDetails`.
- Paths are assumed distinct across one walk. A real file system never gives two entries the same relative path, and the tree value does not rule it out. The claims that a message names every file with its own count are stated under this assumption (`Tally.DistinctPaths`), because `map.set` on a repeated path keeps the first position and the last value.
- The character-count limit uses UTF-16 code units as `.length` does (`Text.Utf16Length`). A `char` above U+FFFF counts as two, and lone surrogates are not modelled, because a Dafny `char` is a Unicode scalar value.

=== FILE: accessibility_rules.dfy ===
/** `checkAccessibilityRules`: translation files, keyboard handlers, ARIA
    and role attributes. */
module AccessibilityRules {
  import opened Text
  import opened FileTree
  import opened Tally
  import opened Results
  import opened Checks

  // The messages this group pushes.
  const NoTranslationFiles := "No translation files found. All text should be in translation files."
  const TranslationFilesPresent := "Translation files are present."
  const FewKeyboardControls := " instances of keyboard navigation controls (e.g., tabIndex). Ensure app is navigable via keyboard."
  const EnoughKeyboardControls := "Sufficient keyboard navigation controls found."
  const FewAriaAttributes := " ARIA attributes. Ensure components are accessible."
  const EnoughAriaAttributes := "Sufficient ARIA attributes found."
  const FewRoleAttributes := " role attributes. Ensure semantic roles are used."
  const EnoughRoleAttributes := "Sufficient role attributes found."

  /** A path under a `translations` directory, or a `.json`/`.yml` file
      whose contents mention `translations`. The path is relative and has
      no leading `./`, so only a `translations` directory below the top
      level is recognised by its path. */
  predicate IsTranslationFile(v: Visit) {
    Contains(Path(v), "/translations/") ||
    ((EndsWith(Path(v), ".json") || EndsWith(Path(v), ".yml")) && Contains(v.content, "translations"))
  }

  /** The React sources the other three checks inspect: tests excluded. */
  predicate Inspected(v: Visit) {
    IsReactSource(Path(v)) && !IsReactTest(Path(v))
  }

  predicate HandlesKeys(v: Visit) {
    Inspected(v) &&
    (Contains(v.content, "onKeyDown") || Contains(v.content, "onKeyPress") || Contains(v.content, "onKeyUp"))
  }

  function AriaCount(m: Matchers, v: Visit): nat {
    if Inspected(v) then m.ariaAttributes(v.content) else 0
  }

  function AriaAttributes(m: Matchers): Visit -> nat {
    v => AriaCount(m, v)
  }

  function RoleCount(m: Matchers, v: Visit): nat {
    if Inspected(v) then m.roleAttributes(v.content) else 0
  }

  function RoleAttributes(m: Matchers): Visit -> nat {
    v => RoleCount(m, v)
  }

  /** Passes when some file is a translation file. */
  function TranslationFileCheck(vs: seq<Visit>): (o: Outcome)
    ensures o.bucket == Passed <==> exists i :: 0 <= i < |vs| && IsTranslationFile(vs[i])
    ensures o.bucket == Passed ==> o.message == TranslationFilesPresent
    ensures o.bucket != Passed ==>
              o == Outcome(Failed, NoTranslationFiles)
  {
    SumPositiveIff(vs, Indicator(IsTranslationFile));
    Check(Sum(vs, Indicator(IsTranslationFile)) == 0, Failed,
          NoTranslationFiles, TranslationFilesPresent)
  }

  /** Warns when fewer than 10 inspected files handle a key event; the
      warning lists the files that do. */
  function KeyboardCheck(vs: seq<Visit>): (o: Outcome)
    ensures o.bucket == Warned <==> |Select(vs, HandlesKeys)| < 10
    ensures o.bucket != Warned ==> o == Outcome(Passed, EnoughKeyboardControls)
    ensures o.bucket == Warned ==>
              StartsWith(o.message, "Found only " + Num(|Select(vs, HandlesKeys)|) + FewKeyboardControls) &&
              EndsWith(o.message, "\n" + Lines(FilesWhere(vs, HandlesKeys)))
  {
    var count := Sum(vs, Indicator(HandlesKeys));
    IndicatorCountsFiles(vs, HandlesKeys);
    FileListCheck(count < 10, Warned,
                  "Found only " + Num(count) + FewKeyboardControls,
                  FilesWhere(vs, HandlesKeys), EnoughKeyboardControls)
  }

  /** Warns when the inspected files hold fewer than 20 ARIA attributes in
      total; the warning lists every inspected file, with attributes or
      without. */
  function AriaCheck(m: Matchers, vs: seq<Visit>): (o: Outcome)
    ensures o.bucket == Warned <==> Sum(vs, AriaAttributes(m)) < 20
    ensures o.bucket != Warned ==> o == Outcome(Passed, EnoughAriaAttributes)
    ensures o.bucket == Warned ==>
              StartsWith(o.message, "Found only " + Num(Sum(vs, AriaAttributes(m))) + FewAriaAttributes) &&
              EndsWith(o.message, "\n" + Lines(FilesWhere(vs, Inspected)))
  {
    var count := Sum(vs, AriaAttributes(m));
    FileListCheck(count < 20, Warned, "Found only " + Num(count) + FewAriaAttributes,
                  FilesWhere(vs, Inspected), EnoughAriaAttributes)
  }

  /** Warns when the inspected files hold fewer than 20 `role` attributes
      in total; the warning lists every inspected file. */
  function RoleCheck(m: Matchers, vs: seq<Visit>): (o: Outcome)
    ensures o.bucket == Warned <==> Sum(vs, RoleAttributes(m)) < 20
    ensures o.bucket != Warned ==> o == Outcome(Passed, EnoughRoleAttributes)
    ensures o.bucket == Warned ==>
              StartsWith(o.message, "Found only " + Num(Sum(vs, RoleAttributes(m))) + FewRoleAttributes) &&
              EndsWith(o.message, "\n" + Lines(FilesWhere(vs, Inspected)))
  {
    var count := Sum(vs, RoleAttributes(m));
    FileListCheck(count < 20, Warned, "Found only " + Num(count) + FewRoleAttributes,
                  FilesWhere(vs, Inspected), EnoughRoleAttributes)
  }

  /** The entries in push order. */
  function AccessibilityChecks(m: Matchers, vs: seq<Visit>): (os: seq<Outcome>)
    ensures |os| == 4
  {
    [TranslationFileCheck(vs), KeyboardCheck(vs), AriaCheck(m, vs), RoleCheck(m, vs)]
  }

  /** A project without inspected files warns on all three counts. */
  lemma NoInspectedFilesWarns(m: Matchers, vs: seq<Visit>)
    requires forall i :: 0 <= i < |vs| ==> !Inspected(vs[i])
    ensures KeyboardCheck(vs).bucket == Warned
    ensures AriaCheck(m, vs).bucket == Warned
    ensures RoleCheck(m, vs).bucket == Warned
  {
    SumPositiveIff(vs, AriaAttributes(m));
    SumPositiveIff(vs, RoleAttributes(m));
    SumPositiveIff(vs, Indicator(HandlesKeys));
    IndicatorCountsFiles(vs, HandlesKeys);
  }

  /** A path with a single separator has no `/translations/` in it: a file
      directly inside a top-level `translations` directory is not recognised
      by its path. */
  lemma {:induction false} TopLevelTranslationsMissed(f: string)
    requires '/' !in f
    ensures !Contains("translations/" + f, "/translations/")
  {
    var dir, p := "translations", "/translations/";
    var s := dir + "/" + f;
    assert s == "translations/" + f;
    assert '/' !in dir;
    forall k | 0 <= k < |s| && k != 12
      ensures s[k] != '/'
    {
      if k < 12 {
        assert s[k] == dir[k] && dir[k] in dir;
      } else {
        assert s[k] == f[k - 13] && f[k - 13] in f;
      }
    }
    forall i | 0 <= i <= |s| - |p|
      ensures !OccursAt(s, p, i)
    {
      if i != 12 {
        assert s[i..i + |p|][0] == s[i] != p[0];
      } else {
        assert s[i..i + |p|][13] == s[25] != p[13];
      }
    }
  }
}

=== FILE: analyzer.dfy ===
/** `main` of `guideline-analyzer.js`: the ten rule groups in their fixed
    order over one walk of the project, and the summary of the three
    result lists. */
module Analyzer {
  import opened Wrappers
  import opened FileTree
  import opened Results
  import opened Checks
  import IgnorePatterns
  import Manifest
  import ReactRules
  import StyleRules
  import AccessibilityRules
  import CodeStyleRules
  import PerformanceRules
  import SecurityRules
  import StateRules
  import TestingRules
  import TranslationRules
  import TypeScriptRules

  /** What `readAndParseCursorRules` supplies: the line-length limit and the
      performance targets. */
  datatype Settings = Settings(maxLineLength: nat, metrics: PerformanceRules.Metrics)

  /** A run either finishes with its results or stops on an exception
      nothing catches. */
  datatype Analysis = Aborted | Completed(results: ResultSet)

  /** The entries each group pushes, in group order. */
  datatype Groups = Groups(
    react: seq<Outcome>, style: seq<Outcome>, accessibility: seq<Outcome>, codeStyle: seq<Outcome>,
    performance: seq<Outcome>, security: seq<Outcome>, state: seq<Outcome>, testing: seq<Outcome>,
    translation: seq<Outcome>, typeScript: seq<Outcome>)

  /** The groups' entries, in the order `main` calls them. */
  function Flatten(g: Groups): seq<Outcome> {
    g.react + g.style + g.accessibility + g.codeStyle + g.performance + g.security + g.state + g.testing +
    g.translation + g.typeScript
  }

  /** The number of entries each group always pushes. */
  predicate WellShaped(g: Groups) {
    && |g.react| == 7 && |g.style| == 4 && |g.accessibility| == 4 && |g.codeStyle| == 4
    && |g.performance| >= 4 && |g.security| == 3 && |g.testing| == 2 && |g.translation| >= 3
    && |g.typeScript| == 4
  }

  /** The performance group's first entry is the targets warning. */
  predicate OpensWithTargets(g: Groups, metrics: PerformanceRules.Metrics) {
    |g.performance| > 0 && g.performance[0] == Outcome(Warned, PerformanceRules.MetricsMessage(metrics))
  }

  /** Every group over the same walk; `state` is the state group's entries. */
  function RunGroups(m: Matchers, lt: (string, string) -> bool, settings: Settings, vs: seq<Visit>,
                     state: seq<Outcome>): Groups
  {
    Groups(ReactRules.ReactChecks(m, vs), StyleRules.StyleChecks(m, vs), AccessibilityRules.AccessibilityChecks(m, vs),
           CodeStyleRules.CodeStyleChecks(m, settings.maxLineLength, vs),
           PerformanceRules.PerformanceChecks(settings.metrics, vs), SecurityRules.SecurityChecks(m, vs), state,
           TestingRules.TestingChecks(m, vs), TranslationRules.TranslationChecks(m, lt, vs),
           TypeScriptRules.TypeScriptChecks(m, vs))
  }

  /** Each group pushes its fixed number of entries, the state group's
      entries are passed through, and the performance group opens with the
      targets warning. Only the groups' contracts are needed here. */
  lemma RunGroupsShape(m: Matchers, lt: (string, string) -> bool, settings: Settings, vs: seq<Visit>,
                       state: seq<Outcome>)
    ensures var g := RunGroups(m, lt, settings, vs, state);
            WellShaped(g) && g.state == state && OpensWithTargets(g, settings.metrics)
  {
    hide ReactRules.ReactChecks, StyleRules.StyleChecks, AccessibilityRules.AccessibilityChecks,
      CodeStyleRules.CodeStyleChecks, PerformanceRules.PerformanceChecks, SecurityRules.SecurityChecks,
      TestingRules.TestingChecks, TranslationRules.TranslationChecks, TypeScriptRules.TypeScriptChecks,
      PerformanceRules.MetricsMessage, PerformanceRules.MemoCheck, PerformanceRules.CallbackCheck,
      PerformanceRules.QueryCheck, TranslationRules.UnsortedCheck, TranslationRules.PluralCheck,
      TranslationRules.ConcatenationCheck;
  }

  /** The performance group's first entry is entry 19 of the run, after the
      nineteen entries of the first four groups, and a run has at least
      35 entries besides the state group's. */
  lemma FlattenShape(g: Groups)
    requires WellShaped(g)
    ensures |Flatten(g)| >= 35 + |g.state|
    ensures Flatten(g)[19] == g.performance[0]
  {
    var front := g.react + g.style + g.accessibility + g.codeStyle;
    assert |front| == 19;
    var rest := g.security + g.state + g.testing + g.translation + g.typeScript;
    assert Flatten(g) == front + g.performance + (g.security + g.state + g.testing + g.translation + g.typeScript);
    assert (front + g.performance + rest)[19] == g.performance[0];
  }

  /** One run of the analyzer: the walk under the ignore patterns of the
      ignore file, then every group, unless `package.json` does not parse. */
  function Analyze(m: Matchers, lt: (string, string) -> bool, settings: Settings,
                   ignoreFile: IgnorePatterns.IgnoreFile, root: Listing, manifest: Manifest.ManifestFile): (a: Analysis)
    ensures a.Aborted? <==> manifest.Malformed?
  {
    hide RunGroups;
    var vs := Walk(IgnorePatterns.ParsePatterns(ignoreFile), root);
    match StateRules.StateChecks(manifest)
    case None => Aborted
    case Some(state) => Completed(Record(Empty, Flatten(RunGroups(m, lt, settings, vs, state))))
  }

  lemma RunCounts(m: Matchers, lt: (string, string) -> bool, settings: Settings, vs: seq<Visit>, state: seq<Outcome>)
    ensures var s := Summarize(Record(Empty, Flatten(RunGroups(m, lt, settings, vs, state))));
            s.total == s.passed + s.failed + s.warnings && s.total >= 35
  {
    hide RunGroups;
    RunGroupsShape(m, lt, settings, vs, state);
    var g := RunGroups(m, lt, settings, vs, state);
    FlattenShape(g);
    SummaryOfRecorded(Flatten(g));
  }

  lemma RunWarnsTargets(m: Matchers, lt: (string, string) -> bool, settings: Settings, vs: seq<Visit>, state: seq<Outcome>)
    ensures PerformanceRules.MetricsMessage(settings.metrics) in
              Record(Empty, Flatten(RunGroups(m, lt, settings, vs, state))).warnings
  {
    hide RunGroups, PerformanceRules.MetricsMessage;
    RunGroupsShape(m, lt, settings, vs, state);
    var g := RunGroups(m, lt, settings, vs, state);
    FlattenShape(g);
    RecordAppendsPerBucket(Empty, Flatten(g));
    MessageListed(Flatten(g), 19);
  }

  /** The summary counts every entry once, in the bucket it was pushed to,
      and a finished run has at least 35 entries. */
  lemma SummaryCountsEveryEntry(m: Matchers, lt: (string, string) -> bool, settings: Settings,
                                ignoreFile: IgnorePatterns.IgnoreFile, root: Listing, manifest: Manifest.ManifestFile)
    requires !manifest.Malformed?
    ensures match Analyze(m, lt, settings, ignoreFile, root, manifest)
            case Completed(r) => var s := Summarize(r); s.total == s.passed + s.failed + s.warnings && s.total >= 35
            case Aborted => false
  {
    hide RunGroups, StateRules.StateChecks, Walk, IgnorePatterns.ParsePatterns;
    var vs := Walk(IgnorePatterns.ParsePatterns(ignoreFile), root);
    RunCounts(m, lt, settings, vs, StateRules.StateChecks(manifest).value);
  }

  /** Every finished run warns with the performance targets. */
  lemma TargetsAlwaysWarned(m: Matchers, lt: (string, string) -> bool, settings: Settings,
                            ignoreFile: IgnorePatterns.IgnoreFile, root: Listing, manifest: Manifest.ManifestFile)
    requires !manifest.Malformed?
    ensures match Analyze(m, lt, settings, ignoreFile, root, manifest)
            case Completed(r) => PerformanceRules.MetricsMessage(settings.metrics) in r.warnings
            case Aborted => false
  {
    hide RunGroups, StateRules.StateChecks, Walk, IgnorePatterns.ParsePatterns, PerformanceRules.MetricsMessage;
    var vs := Walk(IgnorePatterns.ParsePatterns(ignoreFile), root);
    RunWarnsTargets(m, lt, settings, vs, StateRules.StateChecks(manifest).value);
  }
}

=== FILE: checks.dfy ===
/** What the rule groups of `guideline-analyzer.js` share: the regular
    expressions they evaluate on file contents, the file kinds they select
    by path, and the shapes their checks take (a file list on a hit, a
    missing-feature message, per-file counts). */
module Checks {
  import opened Text
  import opened Wrappers
  import opened FileTree
  import opened Tally
  import opened Results
  import Scanners

  /** The regular expressions that are not plain substring searches, as
      what they yield on a file's contents: the number of global matches
      (`(content.match(re) || []).length`), the list of matches, or whether
      a non-global `match` succeeds. `parseJson` is `JSON.parse` followed by
      `Object.keys` on a translation file. */
  datatype Matchers = Matchers(
    classComponents: string -> nat,         // /class\s+\w+\s+extends\s+(React\.)?Component/g
    conditionals: string -> nat,            // /\{.*\?.*:.*\}|\{.*&&.*\}/g
    propAccesses: string -> nat,            // /(?<!this\.)props\.([a-zA-Z0-9_]+)/g
    colors: string -> nat,                  // /#[0-9a-f]{3,6}|rgb\(|rgba\(/gi
    ariaAttributes: string -> nat,          // /aria-[a-z]+/g
    roleAttributes: string -> nat,          // /role=["'][a-z]+["']/g
    exportFroms: string -> seq<string>,     // /export\s+.*\s+from\s+['"].*['"]/g
    defaultExport: string -> bool,          // /export\s+default\s+/
    scriptBlocks: string -> seq<string>,    // /<script\b[^>]*>([\s\S]*?)<\/script>/g
    eventHandlers: string -> seq<string>,   // /\bon[a-z]+\s*=\s*["'].*?["']/g
    translationKeyAssertion: string -> bool,  // /expect\(.*t\(.*\).*\)/
    concatenations: string -> nat,          // /`.*t\(.*\).*`/g
    enumDeclaration: string -> bool,        // /enum\s+\w+/
    parseJson: string -> Scanners.TranslationDoc)

  // ----- File kinds, by the end of the relative path -----

  /** `/\.(tsx|jsx)$/` */
  predicate IsReactSource(p: string) {
    EndsWith(p, ".tsx") || EndsWith(p, ".jsx")
  }

  /** `/\.(ts|tsx|js|jsx)$/` */
  predicate IsScript(p: string) {
    EndsWith(p, ".ts") || EndsWith(p, ".tsx") || EndsWith(p, ".js") || EndsWith(p, ".jsx")
  }

  /** `/\.tsx?$/` */
  predicate IsTypeScript(p: string) {
    EndsWith(p, ".ts") || EndsWith(p, ".tsx")
  }

  /** `/\.(css|scss)$/` */
  predicate IsStyleSheet(p: string) {
    EndsWith(p, ".css") || EndsWith(p, ".scss")
  }

  /** `/\.module\.(css|scss)$/` */
  predicate IsCssModule(p: string) {
    EndsWith(p, ".module.css") || EndsWith(p, ".module.scss")
  }

  /** `/\.(test|spec)\.(tsx|jsx)$/` */
  predicate IsReactTest(p: string) {
    EndsWith(p, ".test.tsx") || EndsWith(p, ".test.jsx") || EndsWith(p, ".spec.tsx") || EndsWith(p, ".spec.jsx")
  }

  /** `/\.(test|spec)\.(tsx|jsx|ts|js)$/` */
  predicate IsTest(p: string) {
    IsReactTest(p) ||
    EndsWith(p, ".test.ts") || EndsWith(p, ".test.js") || EndsWith(p, ".spec.ts") || EndsWith(p, ".spec.js")
  }

  /** `/\.(png|jpg|jpeg|gif|svg|webp|ico)$/` */
  predicate IsImage(p: string) {
    EndsWith(p, ".png") || EndsWith(p, ".jpg") || EndsWith(p, ".jpeg") || EndsWith(p, ".gif") ||
    EndsWith(p, ".svg") || EndsWith(p, ".webp") || EndsWith(p, ".ico")
  }

  /** `/\.(html|ejs)$/` */
  predicate IsMarkup(p: string) {
    EndsWith(p, ".html") || EndsWith(p, ".ejs")
  }

  /** Every React source is a script, and every script test is a test. */
  lemma FileKindsNest(p: string)
    ensures IsReactSource(p) ==> IsScript(p)
    ensures IsTypeScript(p) ==> IsScript(p)
    ensures IsReactTest(p) ==> IsReactSource(p) && IsTest(p)
    ensures IsCssModule(p) ==> IsStyleSheet(p)
  {
    ModuleSheetIsSheet(p);
    ReactTestIsReactSource(p);
  }

  lemma ModuleSheetIsSheet(p: string)
    ensures IsCssModule(p) ==> IsStyleSheet(p)
  {
    hide IsReactSource, IsScript, IsTypeScript, IsReactTest, IsTest;
    if EndsWith(p, ".module.css") {
      assert p[|p| - 4..] == p[|p| - 11..][7..];
    }
    if EndsWith(p, ".module.scss") {
      assert p[|p| - 5..] == p[|p| - 12..][7..];
    }
  }

  lemma ReactTestIsReactSource(p: string)
    ensures IsReactTest(p) ==> IsReactSource(p)
  {
    hide IsScript, IsTypeScript, IsTest, IsCssModule, IsStyleSheet;
    if EndsWith(p, ".test.tsx") || EndsWith(p, ".spec.tsx") {
      assert p[|p| - 4..] == p[|p| - 9..][5..];
    }
    if EndsWith(p, ".test.jsx") || EndsWith(p, ".spec.jsx") {
      assert p[|p| - 4..] == p[|p| - 9..][5..];
    }
  }

  // ----- Message pieces -----

  /** `${n}` for a count. */
  function Num(n: nat): string {
    NatToString(n)
  }

  /** `[...files].join('\n')`. */
  function Lines(files: seq<string>): string {
    Join(files, "\n")
  }

  lemma EndsWithSuffix(a: string, b: string)
    ensures EndsWith(a + b, b)
  {
    assert (a + b)[|a + b| - |b|..] == b;
  }

  /** The file contributes to a count. */
  function Contributes(count: Visit -> nat): Visit -> bool {
    v => count(v) > 0
  }

  /** One per file that satisfies `hit`: the counters a group bumps with
      `count += 1`. */
  function Indicator(hit: Visit -> bool): Visit -> nat {
    v => if hit(v) then 1 else 0
  }

  /** A counter bumped once per matching file counts the matching files. */
  lemma {:induction false} IndicatorCountsFiles(vs: seq<Visit>, hit: Visit -> bool)
    ensures Sum(vs, Indicator(hit)) == |Select(vs, hit)|
    decreases |vs|
  {
    if |vs| > 0 {
      IndicatorCountsFiles(vs[1..], hit);
      SumConcat([vs[0]], vs[1..], Indicator(hit));
      assert [vs[0]] + vs[1..] == vs;
      assert [vs[0]][..0] == [];
    }
  }

  // ----- Check shapes -----

  /** A check whose tripped message is a headline followed by a list of
      files, one per line. */
  function FileListCheck(trips: bool, bucket: Bucket, headline: string, files: seq<string>, ok: string): (o: Outcome)
    requires bucket != Passed
    ensures o.bucket == bucket <==> trips
    ensures !trips ==> o == Outcome(Passed, ok)
    ensures trips ==> StartsWith(o.message, headline) && EndsWith(o.message, "\n" + Lines(files))
  {
    var tail := "\n" + Lines(files);
    EndsWithSuffix(headline, tail);
    assert (headline + tail)[..|headline|] == headline;
    Check(trips, bucket, headline + tail, ok)
  }

  /** A check that trips when some file contributes to `count`: one entry in
      `bucket` with the total and the list of contributing files, or the
      `ok` message in `passed`. */
  function ListCheck(vs: seq<Visit>, count: Visit -> nat, bucket: Bucket, before: string, after: string, ok: string): (o: Outcome)
    requires bucket != Passed
    ensures o.bucket == bucket <==> exists i :: 0 <= i < |vs| && count(vs[i]) > 0
    ensures o.bucket != bucket ==> o == Outcome(Passed, ok)
    ensures o.bucket == bucket ==>
              StartsWith(o.message, before + Num(Sum(vs, count))) &&
              EndsWith(o.message, "\n" + Lines(FilesWhere(vs, Contributes(count))))
  {
    SumPositiveIff(vs, count);
    var total := Sum(vs, count);
    var head := before + Num(total);
    assert (head + after)[..|head|] == head;
    FileListCheck(total > 0, bucket, head + after, FilesWhere(vs, Contributes(count)), ok)
  }

  /** A check that trips when no file satisfies `hit`: the `missing`
      message in `bucket`, or, in `passed`, the number of files that do. */
  function PresenceCheck(vs: seq<Visit>, hit: Visit -> bool, bucket: Bucket, missing: string, before: string, after: string): (o: Outcome)
    requires bucket != Passed
    ensures o.bucket == bucket <==> forall i :: 0 <= i < |vs| ==> !hit(vs[i])
    ensures o.bucket == bucket ==> o.message == missing
    ensures o.bucket != bucket ==> o == Outcome(Passed, before + Num(|Select(vs, hit)|) + after)
  {
    SumPositiveIff(vs, Indicator(hit));
    IndicatorCountsFiles(vs, hit);
    var total := Sum(vs, Indicator(hit));
    Check(total == 0, bucket, missing, before + Num(total) + after)
  }

  /** `map.set(relativePath, count)` for the files with a positive count. */
  function Counted(count: Visit -> nat): Visit -> Option<nat> {
    v => if count(v) > 0 then Some(count(v)) else None
  }

  /** `  ${file} (${count} ${unit})`: the detail line of one file. */
  function DetailLine(file: string, n: nat, unit: string): string {
    "  " + file + " (" + Num(n) + " " + unit + ")"
  }

  /** The detail lines of a per-file count map, in map order. */
  function CountLines(m: seq<(string, nat)>, unit: string): seq<string> {
    seq(|m|, k requires 0 <= k < |m| => DetailLine(m[k].0, m[k].1, unit))
  }

  /** The details of a per-file count: one line per file with a positive
      count. */
  function CountDetails(vs: seq<Visit>, count: Visit -> nat, unit: string): string {
    Lines(CountLines(PerFile(vs, Counted(count)), unit))
  }

  /** Each detail line names a visited file with a positive count, together
      with that count, and no file has two lines. */
  lemma CountLinesAreReal(vs: seq<Visit>, count: Visit -> nat, unit: string)
    ensures var ls := CountLines(PerFile(vs, Counted(count)), unit);
            forall k :: 0 <= k < |ls| ==>
              exists i :: 0 <= i < |vs| && count(vs[i]) > 0 && ls[k] == DetailLine(Path(vs[i]), count(vs[i]), unit)
    ensures var m := PerFile(vs, Counted(count));
            |CountLines(m, unit)| == |m| && DistinctKeys(m)
  {
    PerFileKeysDistinct(vs, Counted(count));
    PerFileEntriesAreReal(vs, Counted(count));
    var m := PerFile(vs, Counted(count));
    forall k | 0 <= k < |m|
      ensures exists i :: 0 <= i < |vs| && count(vs[i]) > 0 && CountLines(m, unit)[k] == DetailLine(Path(vs[i]), count(vs[i]), unit)
    {
      var i :| 0 <= i < |vs| && Path(vs[i]) == m[k].0 && Counted(count)(vs[i]) == Some(m[k].1);
      assert count(vs[i]) > 0 && count(vs[i]) == m[k].1;
    }
  }

  /** When no two visits share a path, a message that embeds the details
      names every file with a positive count, with its count. */
  lemma CountDetailsNameEachFile(vs: seq<Visit>, count: Visit -> nat, unit: string, head: string, tail: string)
    ensures DistinctPaths(vs) ==>
              forall i :: 0 <= i < |vs| && count(vs[i]) > 0 ==>
                Contains(head + CountDetails(vs, count, unit) + tail, DetailLine(Path(vs[i]), count(vs[i]), unit))
  {
    var m := PerFile(vs, Counted(count));
    var ls := CountLines(m, unit);
    forall i | DistinctPaths(vs) && 0 <= i < |vs| && count(vs[i]) > 0
      ensures Contains(head + CountDetails(vs, count, unit) + tail, DetailLine(Path(vs[i]), count(vs[i]), unit))
    {
      PerFileHolds(vs, Counted(count), i);
      var k :| 0 <= k < |m| && m[k] == (Path(vs[i]), count(vs[i]));
      assert ls[k] == DetailLine(Path(vs[i]), count(vs[i]), unit);
      JoinContains(ls, "\n", k);
      ContainsWithin(head, Lines(ls), tail, ls[k]);
    }
  }

  /** The per-file count map has exactly the files with a positive count as
      its keys. */
  lemma CountedKeys(vs: seq<Visit>, count: Visit -> nat)
    ensures forall p :: p in KeysOf(PerFile(vs, Counted(count))) <==>
              exists i :: 0 <= i < |vs| && count(vs[i]) > 0 && Path(vs[i]) == p
  {
    var m := PerFile(vs, Counted(count));
    forall p ensures p in KeysOf(m) <==> exists i :: 0 <= i < |vs| && count(vs[i]) > 0 && Path(vs[i]) == p {
      if exists i :: 0 <= i < |vs| && count(vs[i]) > 0 && Path(vs[i]) == p {
        var i :| 0 <= i < |vs| && count(vs[i]) > 0 && Path(vs[i]) == p;
        assert Counted(count)(vs[i]).Some?;
      }
    }
  }
}

=== FILE: code_style_rules.dfy ===
/** `checkCodeStyleRules`: over-long lines, barrel re-exports, default
    exports, and the blank line before `return` (the same check as the
    style group's). */
module CodeStyleRules {
  import opened Text
  import opened FileTree
  import opened Tally
  import opened Results
  import opened Checks
  import Scanners
  import StyleRules

  // The messages this group pushes.
  const LineLengthsOk := "Line lengths are within limits."
  const LinesExceeding := " lines exceeding "
  const BreakLinesAdvice := "\n\nConsider breaking these lines down."
  const NoInvalidBarrels := "No invalid barrel exports found."
  const MultiExportBarrels := " files with multiple barrel exports."
  const SingleExportsOnly := " Only single exports are allowed from a barrel file.\n"
  const NoDefaultExports := "No default exports found."
  const DefaultExportsFound := " default exports. Always use named exports as per guidelines."

  // ----- Line length -----

  /** The number of lines of a script longer than `max`. */
  function LongLineCount(max: nat, v: Visit): nat {
    if IsScript(Path(v)) then |Scanners.LongLines(v.content, max)| else 0
  }

  function LongLineCounts(max: nat): Visit -> nat {
    v => LongLineCount(max, v)
  }

  /** A file has counted lines exactly when it is a script with a line
      longer than `max`. */
  lemma LongLineCountPositiveIff(max: nat, v: Visit)
    ensures LongLineCount(max, v) > 0 <==>
              IsScript(Path(v)) && exists n :: Scanners.IsLong(Split(v.content, '\n'), max, n)
  {
    var r := Scanners.LongLines(v.content, max);
    if IsScript(Path(v)) && |r| > 0 {
      assert Scanners.IsLong(Split(v.content, '\n'), max, r[0].lineNumber);
    }
  }

  /** Warns when some script has a line longer than `max`: the total number
      of such lines, then `  ${file} (${k} lines)` per file. */
  function LongLineCheck(max: nat, vs: seq<Visit>): (o: Outcome)
    ensures o.bucket == Warned <==> exists i :: 0 <= i < |vs| && LongLineCount(max, vs[i]) > 0
    ensures o.bucket != Warned ==> o == Outcome(Passed, LineLengthsOk)
    ensures o.bucket == Warned ==>
              StartsWith(o.message, "Found " + Num(Sum(vs, LongLineCounts(max))) + LinesExceeding + Num(max) + " chars.")
  {
    hide CountDetails, Num, Scanners.LongLines, LongLineCount, Path, IsScript;
    var total := Sum(vs, LongLineCounts(max));
    SumPositiveIff(vs, LongLineCounts(max));
    var head := "Found " + Num(total) + LinesExceeding + Num(max) + " chars.";
    var rest := "\n\nFiles:\n" + CountDetails(vs, LongLineCounts(max), "lines") + BreakLinesAdvice;
    assert (head + rest)[..|head|] == head;
    Check(total > 0, Warned, head + rest, LineLengthsOk)
  }

  /** When no two visits share a path, the warning names every script with
      over-long lines, with the number of such lines. */
  lemma LongLineCheckNamesEachFile(max: nat, vs: seq<Visit>)
    ensures LongLineCheck(max, vs).bucket == Warned && DistinctPaths(vs) ==>
              forall i :: 0 <= i < |vs| && LongLineCount(max, vs[i]) > 0 ==>
                Contains(LongLineCheck(max, vs).message, DetailLine(Path(vs[i]), LongLineCount(max, vs[i]), "lines"))
  {
    hide CountDetails, Num, Scanners.LongLines, LongLineCount, DetailLine, Contains, Path, IsScript;
    var total := Sum(vs, LongLineCounts(max));
    var head := "Found " + Num(total) + LinesExceeding + Num(max) + " chars.";
    CountDetailsNameEachFile(vs, LongLineCounts(max), "lines", head + "\n\nFiles:\n", BreakLinesAdvice);
    if LongLineCheck(max, vs).bucket == Warned {
      assert LongLineCheck(max, vs).message == head + "\n\nFiles:\n" + CountDetails(vs, LongLineCounts(max), "lines") + BreakLinesAdvice;
    }
  }

  /** The warning is raised exactly when some script has a line longer than
      `max`. */
  lemma LongLineWarnsIff(max: nat, vs: seq<Visit>)
    ensures LongLineCheck(max, vs).bucket == Warned <==>
              exists i, n :: 0 <= i < |vs| && IsScript(Path(vs[i])) && Scanners.IsLong(Split(vs[i].content, '\n'), max, n)
  {
    if LongLineCheck(max, vs).bucket == Warned {
      var i :| 0 <= i < |vs| && LongLineCount(max, vs[i]) > 0;
      LongLineCountPositiveIff(max, vs[i]);
      var n :| Scanners.IsLong(Split(vs[i].content, '\n'), max, n);
      assert IsScript(Path(vs[i])) && Scanners.IsLong(Split(vs[i].content, '\n'), max, n);
    }
    if exists i, n :: 0 <= i < |vs| && IsScript(Path(vs[i])) && Scanners.IsLong(Split(vs[i].content, '\n'), max, n) {
      var i, n :| 0 <= i < |vs| && IsScript(Path(vs[i])) && Scanners.IsLong(Split(vs[i].content, '\n'), max, n);
      LongLineCountPositiveIff(max, vs[i]);
    }
  }

  // ----- Barrel re-exports -----

  /** What the `export ... from '...'` statements of a file re-export. */
  function Reexports(m: Matchers, v: Visit): Scanners.BarrelExports {
    Scanners.ClassifyExports(m.exportFroms(v.content))
  }

  /** A script that re-exports everything or more than one name. */
  predicate ExportsBarrel(m: Matchers, v: Visit) {
    IsScript(Path(v)) && Scanners.Offends(Reexports(m, v))
  }

  function Barrels(m: Matchers): Visit -> bool {
    v => ExportsBarrel(m, v)
  }

  /** `  - ${file} (exports ${details})`: the line of one flagged file. */
  function BarrelLine(m: Matchers, v: Visit): string {
    "  - " + Path(v) + " (exports " + Scanners.ExportDetails(Reexports(m, v)) + ")"
  }

  /** The lines of the flagged files, in visit order. */
  function BarrelLines(m: Matchers, ws: seq<Visit>): seq<string> {
    seq(|ws|, k requires 0 <= k < |ws| => BarrelLine(m, ws[k]))
  }

  /** A message that embeds the list names every flagged file. */
  lemma BarrelLinesNameEachFile(m: Matchers, vs: seq<Visit>, head: string)
    ensures forall i :: 0 <= i < |vs| && ExportsBarrel(m, vs[i]) ==>
              Contains(head + Lines(BarrelLines(m, Select(vs, Barrels(m)))) + "", BarrelLine(m, vs[i]))
  {
    var flagged := Select(vs, Barrels(m));
    var ls := BarrelLines(m, flagged);
    forall i | 0 <= i < |vs| && ExportsBarrel(m, vs[i])
      ensures Contains(head + Lines(ls) + "", BarrelLine(m, vs[i]))
    {
      assert vs[i] in flagged;
      var k :| 0 <= k < |flagged| && flagged[k] == vs[i];
      assert ls[k] == BarrelLine(m, vs[i]);
      JoinContains(ls, "\n", k);
      ContainsWithin(head, Lines(ls), "", ls[k]);
    }
  }

  /** Fails when some script is a barrel with more than a single named
      re-export; the count is the number of such files. */
  function BarrelCheck(m: Matchers, vs: seq<Visit>): (o: Outcome)
    ensures o.bucket == Failed <==> exists i :: 0 <= i < |vs| && ExportsBarrel(m, vs[i])
    ensures o.bucket != Failed ==> o == Outcome(Passed, NoInvalidBarrels)
    ensures o.bucket == Failed ==>
              StartsWith(o.message, "Found " + Num(|Select(vs, Barrels(m))|) + MultiExportBarrels)
  {
    hide BarrelLine, BarrelLines, Lines, Num, Reexports, Scanners.Offends, IsScript, Path, ExportsBarrel, Select;
    var flagged := Select(vs, Barrels(m));
    SumPositiveIff(vs, Indicator(Barrels(m)));
    IndicatorCountsFiles(vs, Barrels(m));
    var head := "Found " + Num(|flagged|) + MultiExportBarrels;
    var rest := SingleExportsOnly + Lines(BarrelLines(m, flagged));
    assert (head + rest)[..|head|] == head;
    Check(|flagged| > 0, Failed, head + rest, NoInvalidBarrels)
  }

  /** The failure names every flagged script, with what it re-exports. */
  lemma BarrelCheckNamesEachFile(m: Matchers, vs: seq<Visit>)
    ensures BarrelCheck(m, vs).bucket == Failed ==>
              forall i :: 0 <= i < |vs| && ExportsBarrel(m, vs[i]) ==> Contains(BarrelCheck(m, vs).message, BarrelLine(m, vs[i]))
  {
    hide BarrelLine, BarrelLines, Lines, Num, Reexports, Scanners.Offends, IsScript, Path, ExportsBarrel, Contains, Select;
    var flagged := Select(vs, Barrels(m));
    var head := "Found " + Num(|flagged|) + MultiExportBarrels;
    BarrelLinesNameEachFile(m, vs, head + SingleExportsOnly);
    if BarrelCheck(m, vs).bucket == Failed {
      assert BarrelCheck(m, vs).message == head + SingleExportsOnly + Lines(BarrelLines(m, flagged)) + "";
    }
  }

  /** The re-export statements of a script flag it exactly when one of them
      contains `*` or the others name more than one identifier between
      them. */
  predicate FlaggedStatements(ms: seq<string>) {
    (exists k :: 0 <= k < |ms| && '*' in ms[k]) || Scanners.NamedIdentifiers(ms) > 1
  }

  /** The check fails exactly when some script's statements are flagged. */
  lemma BarrelFailsIff(m: Matchers, vs: seq<Visit>)
    ensures BarrelCheck(m, vs).bucket == Failed <==>
              exists i :: 0 <= i < |vs| && IsScript(Path(vs[i])) && FlaggedStatements(m.exportFroms(vs[i].content))
  {
    hide BarrelCheck;
    forall i | 0 <= i < |vs|
      ensures ExportsBarrel(m, vs[i]) <==> IsScript(Path(vs[i])) && FlaggedStatements(m.exportFroms(vs[i].content))
    {
      Scanners.OffendsIff(m.exportFroms(vs[i].content));
    }
  }

  /** One wildcard re-export in one script fails the check. */
  lemma WildcardReexportFails(m: Matchers, vs: seq<Visit>, i: nat, k: nat)
    requires i < |vs| && IsScript(Path(vs[i]))
    requires k < |m.exportFroms(vs[i].content)| && '*' in m.exportFroms(vs[i].content)[k]
    ensures BarrelCheck(m, vs).bucket == Failed
  {
    Scanners.WildcardOffends(m.exportFroms(vs[i].content), k);
  }

  // ----- Default exports -----

  predicate ExportsDefault(m: Matchers, v: Visit) {
    IsScript(Path(v)) && m.defaultExport(v.content)
  }

  function DefaultExports(m: Matchers): Visit -> bool {
    v => ExportsDefault(m, v)
  }

  /** Fails when some script has a default export; the count is the number
      of such files. */
  function DefaultExportCheck(m: Matchers, vs: seq<Visit>): (o: Outcome)
    ensures o.bucket == Failed <==> exists i :: 0 <= i < |vs| && ExportsDefault(m, vs[i])
    ensures o.bucket != Failed ==> o == Outcome(Passed, NoDefaultExports)
    ensures o.bucket == Failed ==>
              o.message == "Found " + Num(|Select(vs, DefaultExports(m))|) +
                           DefaultExportsFound
  {
    var count := |Select(vs, DefaultExports(m))|;
    SumPositiveIff(vs, Indicator(DefaultExports(m)));
    IndicatorCountsFiles(vs, DefaultExports(m));
    Check(count > 0, Failed, "Found " + Num(count) + DefaultExportsFound, NoDefaultExports)
  }

  /** The entries in push order. */
  function CodeStyleChecks(m: Matchers, max: nat, vs: seq<Visit>): (os: seq<Outcome>)
    ensures |os| == 4
  {
    [LongLineCheck(max, vs), BarrelCheck(m, vs), DefaultExportCheck(m, vs), StyleRules.ReturnSpacingCheck(vs)]
  }
}

=== FILE: file_tree.dfy ===
/** The project tree as the analyzer sees it, and `walkDir`: a depth-first
    walk in directory-listing order that skips ignored entries, descends
    into directories, and hands every regular file to the rule callback. */
module FileTree {
  import opened Text
  import IgnorePatterns

  /** One directory entry, classified as `fs.statSync` would classify it. */
  datatype Node =
    | File(name: string, content: string, size: nat)  // a regular file
    | Dir(name: string, listing: Listing)              // a directory
    | Special(name: string)                            // neither: socket, device, ...
    | Unstatable(name: string)                         // `statSync` throws (dangling link, race)

  /** What `fs.readdirSync` yields for a directory. */
  datatype Listing = Listed(entries: seq<Node>) | Unlistable

  /** One callback invocation: the entry indices followed from the root, the
      path segments, and the file's contents and size. */
  datatype Visit = Visit(route: seq<nat>, names: seq<string>, content: string, size: nat)

  /** The relative path of an entry, as `path.relative(cwd, path.join('.', ...))`. */
  function RelPath(names: seq<string>): string {
    Join(names, "/")
  }

  function Path(v: Visit): string {
    RelPath(v.names)
  }

  /** The entry's base name (`path.basename`). */
  function BaseName(v: Visit): string {
    if |v.names| == 0 then "" else v.names[|v.names| - 1]
  }

  predicate Ignored(ps: seq<seq<IgnorePatterns.Token>>, names: seq<string>) {
    IgnorePatterns.IsIgnored(ps, RelPath(names))
  }

  /** `walkDir(dir, callback)` for the directory at `names`, reached by
      `route`; a listing that fails contributes nothing. */
  function WalkListing(ps: seq<seq<IgnorePatterns.Token>>, names: seq<string>, route: seq<nat>, l: Listing): seq<Visit>
    decreases l
  {
    match l
    case Unlistable => []
    case Listed(es) => WalkEntries(ps, names, route, es, 0)
  }

  /** The `forEach` over the entries from position `k` on. An entry whose
      `statSync` throws ends the loop: the exception leaves the `forEach`
      and is swallowed by the enclosing `try`, so the remaining siblings are
      never handled. */
  function WalkEntries(ps: seq<seq<IgnorePatterns.Token>>, names: seq<string>, route: seq<nat>, es: seq<Node>, k: nat): seq<Visit>
    decreases es, |es| - k
  {
    if k >= |es| then []
    else
      var here := names + [es[k].name];
      if Ignored(ps, here) then WalkEntries(ps, names, route, es, k + 1)
      else match es[k]
        case Unstatable(_) => []
        case Special(_) => WalkEntries(ps, names, route, es, k + 1)
        case File(_, content, size) => [Visit(route + [k], here, content, size)] + WalkEntries(ps, names, route, es, k + 1)
        case Dir(_, l) => WalkListing(ps, here, route + [k], l) + WalkEntries(ps, names, route, es, k + 1)
  }

  /** `walkDir('.', callback)`: the files the callback receives, in order. */
  function Walk(ps: seq<seq<IgnorePatterns.Token>>, root: Listing): seq<Visit>
  {
    WalkListing(ps, [], [], root)
  }

  // ----- The files a walk reaches, defined without the walk -----

  /** No entry before position `k` is an unignored entry whose `statSync` throws. */
  predicate Unblocked(ps: seq<seq<IgnorePatterns.Token>>, names: seq<string>, es: seq<Node>, k: int) {
    forall j :: 0 <= j < k && j < |es| ==> !(es[j].Unstatable? && !Ignored(ps, names + [es[j].name]))
  }

  /** Following the entry indices `r` from the entries `es` of the directory
      at `names` leads, through unignored listable directories and past no
      failing sibling, to an unignored regular file with the path and
      contents recorded in `v`. */
  ghost predicate Reaches(ps: seq<seq<IgnorePatterns.Token>>, names: seq<string>, es: seq<Node>, r: seq<nat>, v: Visit)
    decreases |r|
  {
    && |r| > 0
    && r[0] < |es|
    && Unblocked(ps, names, es, r[0])
    && var e := es[r[0]];
       var here := names + [e.name];
       && !Ignored(ps, here)
       && if |r| == 1 then e.File? && v.names == here && v.content == e.content && v.size == e.size
          else e.Dir? && e.listing.Listed? && Reaches(ps, here, e.listing.entries, r[1..], v)
  }

  /** `v.route` extends `route` and its next index is at least `k`. */
  predicate Below(v: Visit, route: seq<nat>, k: nat) {
    |v.route| > |route| && v.route[..|route|] == route && v.route[|route|] >= k
  }

  lemma {:induction false} WalkListingExact(ps: seq<seq<IgnorePatterns.Token>>, names: seq<string>, route: seq<nat>, l: Listing, v: Visit)
    ensures v in WalkListing(ps, names, route, l) <==>
            l.Listed? && Below(v, route, 0) && Reaches(ps, names, l.entries, v.route[|route|..], v)
    decreases l
  {
    if l.Listed? {
      WalkEntriesExact(ps, names, route, l.entries, 0, v);
    }
  }

  lemma {:induction false} WalkEntriesExact(ps: seq<seq<IgnorePatterns.Token>>, names: seq<string>, route: seq<nat>, es: seq<Node>, k: nat, v: Visit)
    requires Unblocked(ps, names, es, k)
    ensures v in WalkEntries(ps, names, route, es, k) <==>
            Below(v, route, k) && Reaches(ps, names, es, v.route[|route|..], v)
    decreases es, |es| - k
  {
    if k < |es| {
      var here := names + [es[k].name];
      if Ignored(ps, here) || es[k].Special? {
        WalkEntriesExact(ps, names, route, es, k + 1, v);
        SkippedEntry(ps, names, route, es, k, v);
      } else if es[k].Unstatable? {
        FailingEntry(ps, names, route, es, k, v);
      } else if es[k].File? {
        WalkEntriesExact(ps, names, route, es, k + 1, v);
        FileEntry(ps, names, route, es, k, v);
      } else {
        WalkEntriesExact(ps, names, route, es, k + 1, v);
        WalkListingExact(ps, here, route + [k], es[k].listing, v);
        DirEntry(ps, names, route, es, k, v);
      }
    }
  }

  lemma SkippedEntry(ps: seq<seq<IgnorePatterns.Token>>, names: seq<string>, route: seq<nat>, es: seq<Node>, k: nat, v: Visit)
    requires k < |es|
    requires Ignored(ps, names + [es[k].name]) || es[k].Special?
    ensures Unblocked(ps, names, es, k) ==> Unblocked(ps, names, es, k + 1)
    ensures Below(v, route, k) && Reaches(ps, names, es, v.route[|route|..], v) <==>
            Below(v, route, k + 1) && Reaches(ps, names, es, v.route[|route|..], v)
  {
    if Below(v, route, k) && v.route[|route|] == k {
      assert v.route[|route|..][0] == k;
    }
  }

  lemma FailingEntry(ps: seq<seq<IgnorePatterns.Token>>, names: seq<string>, route: seq<nat>, es: seq<Node>, k: nat, v: Visit)
    requires k < |es|
    requires !Ignored(ps, names + [es[k].name]) && es[k].Unstatable?
    ensures !(Below(v, route, k) && Reaches(ps, names, es, v.route[|route|..], v))
  {
  }

  lemma FileEntry(ps: seq<seq<IgnorePatterns.Token>>, names: seq<string>, route: seq<nat>, es: seq<Node>, k: nat, v: Visit)
    requires k < |es|
    requires Unblocked(ps, names, es, k)
    requires !Ignored(ps, names + [es[k].name]) && es[k].File?
    ensures Unblocked(ps, names, es, k + 1)
    ensures Below(v, route, k) && Reaches(ps, names, es, v.route[|route|..], v) <==>
            v == Visit(route + [k], names + [es[k].name], es[k].content, es[k].size) ||
            (Below(v, route, k + 1) && Reaches(ps, names, es, v.route[|route|..], v))
  {
    if v == Visit(route + [k], names + [es[k].name], es[k].content, es[k].size) {
      assert v.route[..|route|] == route;
      assert v.route[|route|..] == [k];
    }
    if Below(v, route, k) && Reaches(ps, names, es, v.route[|route|..], v) && v.route[|route|] == k {
      var r := v.route[|route|..];
      assert r[0] == k;
      assert |r| == 1;
      assert v.route == v.route[..|route|] + r;
    }
  }

  lemma DirEntry(ps: seq<seq<IgnorePatterns.Token>>, names: seq<string>, route: seq<nat>, es: seq<Node>, k: nat, v: Visit)
    requires k < |es|
    requires Unblocked(ps, names, es, k)
    requires !Ignored(ps, names + [es[k].name]) && es[k].Dir?
    ensures Unblocked(ps, names, es, k + 1)
    ensures Below(v, route, k) && Reaches(ps, names, es, v.route[|route|..], v) <==>
            (es[k].listing.Listed? && Below(v, route + [k], 0) &&
             Reaches(ps, names + [es[k].name], es[k].listing.entries, v.route[|route + [k]|..], v)) ||
            (Below(v, route, k + 1) && Reaches(ps, names, es, v.route[|route|..], v))
  {
    if Below(v, route + [k], 0) {
      var r := v.route[|route|..];
      assert v.route[..|route|] == v.route[..|route| + 1][..|route|];
      assert v.route[|route|] == k;
      assert r[1..] == v.route[|route| + 1..];
    }
    if Below(v, route, k) && Reaches(ps, names, es, v.route[|route|..], v) && v.route[|route|] == k {
      var r := v.route[|route|..];
      assert r[0] == k;
      assert |r| > 1;
      assert v.route[..|route| + 1] == route + [k];
      assert r[1..] == v.route[|route| + 1..];
    }
  }

  /** The callback receives exactly the regular files reached through
      unignored entries: listings that fail contribute nothing, ignored
      entries are neither visited nor descended, and a failing `statSync`
      cuts off only the siblings after it. */
  lemma WalkVisitsExactlyTheReachableFiles(ps: seq<seq<IgnorePatterns.Token>>, es: seq<Node>, v: Visit)
    ensures v in Walk(ps, Listed(es)) <==> Reaches(ps, [], es, v.route, v)
  {
    WalkListingExact(ps, [], [], Listed(es), v);
    assert v.route[..0] == [] && v.route[0..] == v.route;
  }

  /** Every segment prefix of a reached file's path is unignored: nothing
      under an ignored directory is ever visited. */
  lemma {:induction false} ReachedPathsAreNotIgnored(ps: seq<seq<IgnorePatterns.Token>>, names: seq<string>, es: seq<Node>, r: seq<nat>, v: Visit)
    requires Reaches(ps, names, es, r, v)
    ensures |v.names| == |names| + |r| && v.names[..|names|] == names
    ensures forall i :: |names| < i <= |v.names| ==> !Ignored(ps, v.names[..i])
    decreases |r|
  {
    var e := es[r[0]];
    var here := names + [e.name];
    if |r| > 1 {
      ReachedPathsAreNotIgnored(ps, here, e.listing.entries, r[1..], v);
      assert v.names[..|names|] == v.names[..|here|][..|names|];
      assert v.names[..|here|] == here;
    } else {
      assert v.names[..|here|] == here;
    }
    forall i | |names| < i <= |v.names| ensures !Ignored(ps, v.names[..i]) {
      if i == |here| {
        assert v.names[..i] == here;
      }
    }
  }

  /** An unlistable root yields no files at all. */
  lemma UnlistableRootYieldsNothing(ps: seq<seq<IgnorePatterns.Token>>)
    ensures Walk(ps, Unlistable) == []
  {
  }
}

=== FILE: ignore_patterns.dfy ===
/** The ignore filter of the guideline analyzer (`parseGitignorePatterns` and
    `isIgnored`). Each pattern line is turned into a regular expression by
    five textual rewrites; the regular expressions that can arise are those
    of a tiny language, modelled here as a sequence of tokens with a
    matcher for it. */
module IgnorePatterns {
  import opened Text

  /** One piece of a compiled ignore pattern. */
  datatype Token =
    | Lit(c: char)    // one character matched literally (regex metacharacters are escaped)
    | AnyRun          // `.*`: any run of characters other than line terminators
    | OptSlashEnd     // `/?$`: an optional `/` and then the end of the path
    | EndOrSubpath    // `($|/.*)`: the end of the path, or a `/` and anything after it

  /** The built-in exclusions, added in front of the `.gitignore` lines. */
  const DefaultPatterns: seq<string> := [
    "node_modules", "dist", ".DS_Store", "coverage", "test/_coverage",
    "test/.DS_Store", "yarn-error.log", "!/package-lock.json", ".idea",
    ".vscode", "jscpd-report", "webpack/coverage", "libs/*/coverage",
    "scripts", "accessibility-report.html", "pa11y-reports"
  ]

  /** What reading `.gitignore` in the working directory yields. */
  datatype IgnoreFile = Absent | Unreadable | Present(content: string)

  /** A trimmed line that is kept as a pattern: not blank, not a comment. */
  predicate IsPatternLine(l: string) {
    l != [] && l[0] != '#'
  }

  /** Trimmed lines that are neither blank nor comments, in file order. */
  function KeepPatternLines(raw: seq<string>): (lines: seq<string>)
    ensures forall i :: 0 <= i < |lines| ==> IsPatternLine(lines[i]) && Trim(lines[i]) == lines[i]
  {
    if |raw| == 0 then []
    else
      var l := Trim(raw[0]);
      var rest := KeepPatternLines(raw[1..]);
      TrimIdempotent(raw[0]);
      if IsPatternLine(l) then [l] + rest else rest
  }

  /** The kept lines are exactly the trimmed raw lines that are patterns. */
  lemma {:induction false} KeepPatternLinesMembers(raw: seq<string>, l: string)
    ensures l in KeepPatternLines(raw) <==> exists i :: 0 <= i < |raw| && l == Trim(raw[i]) && IsPatternLine(l)
    decreases |raw|
  {
    hide Trim, IsPatternLine;
    if |raw| > 0 {
      KeepPatternLinesMembers(raw[1..], l);
      if l in KeepPatternLines(raw) && l != Trim(raw[0]) {
        var i :| 0 <= i < |raw[1..]| && l == Trim(raw[1..][i]) && IsPatternLine(l);
        assert raw[i + 1] == raw[1..][i];
      }
      forall i | 1 <= i < |raw| && l == Trim(raw[i]) && IsPatternLine(l) ensures l in KeepPatternLines(raw) {
        assert raw[1..][i - 1] == raw[i];
      }
    }
  }

  /** The `.gitignore` content split into pattern lines. */
  function PatternLines(content: string): seq<string>
  {
    KeepPatternLines(Split(content, '\n'))
  }

  /** The literal tokens for the characters of `w`. */
  function Lits(w: string): (ts: seq<Token>)
    ensures |ts| == |w|
    ensures forall i :: 0 <= i < |w| ==> ts[i] == Lit(w[i])
  {
    seq(|w|, i requires 0 <= i < |w| => Lit(w[i]))
  }

  /** Rewrites 1 to 3: every character other than `*` becomes literal
      (escaping), each `*` becomes `.*`, and a final `/` becomes `/?$`. */
  function BodyTokens(p: string): (ts: seq<Token>)
    ensures |ts| == |p|
  {
    seq(|p|, i requires 0 <= i < |p| =>
      if p[i] == '*' then AnyRun
      else if p[i] == '/' && i == |p| - 1 then OptSlashEnd
      else Lit(p[i]))
  }

  // Rewrites 4 and 5: a pattern not starting with `/` may match at any
  // depth (`.*/` in front), and a non-empty pattern matches the path itself
  // or anything below it (`($|/.*)` behind). Only the empty pattern, whose
  // rewritten text ends in `/`, gets no suffix.
  function Compile(p: string): seq<Token>
  {
    var anchor := if |p| > 0 && p[0] == '/' then [] else [AnyRun, Lit('/')];
    anchor + BodyTokens(p) + (if |p| == 0 then [] else [EndOrSubpath])
  }

  /** `regex.test(s)` for the compiled `^`-anchored expression `ts`: some
      prefix of `s` matches `ts`. */
  predicate Matches(ts: seq<Token>, s: string)
    decreases |s|, |ts|
  {
    if |ts| == 0 then true
    else match ts[0]
      case Lit(c) => |s| > 0 && s[0] == c && Matches(ts[1..], s[1..])
      case AnyRun => Matches(ts[1..], s) || (|s| > 0 && !IsLineTerminator(s[0]) && Matches(ts, s[1..]))
      case OptSlashEnd => (|s| == 0 && Matches(ts[1..], s)) || (s == ['/'] && Matches(ts[1..], []))
      case EndOrSubpath => (|s| == 0 && Matches(ts[1..], s)) || (|s| > 0 && s[0] == '/' && Matches([AnyRun] + ts[1..], s[1..]))
  }

  /** The compiled pattern list: empty when `.gitignore` is missing or
      cannot be read, otherwise the defaults followed by the file's lines. */
  function ParsePatterns(f: IgnoreFile): (ps: seq<seq<Token>>)
    ensures !f.Present? ==> ps == []
    ensures f.Present? ==> |ps| == |DefaultPatterns| + |PatternLines(f.content)|
  {
    match f
    case Absent => []
    case Unreadable => []
    case Present(content) => CompileAll(DefaultPatterns + PatternLines(content))
  }

  /** `lines.map(compile)`. */
  function CompileAll(lines: seq<string>): (ps: seq<seq<Token>>)
    ensures |ps| == |lines|
    ensures forall i :: 0 <= i < |lines| ==> ps[i] == Compile(lines[i])
  {
    seq(|lines|, i requires 0 <= i < |lines| => Compile(lines[i]))
  }

  /** A readable `.gitignore` yields the compiled defaults first, then each
      of its own pattern lines compiled, in file order. */
  lemma ParsePatternsCompilesEachLine(content: string)
    ensures forall i :: 0 <= i < |DefaultPatterns| ==> ParsePatterns(Present(content))[i] == Compile(DefaultPatterns[i])
    ensures forall i :: 0 <= i < |PatternLines(content)| ==>
              ParsePatterns(Present(content))[|DefaultPatterns| + i] == Compile(PatternLines(content)[i])
  {
    hide Compile, PatternLines, CompileAll;
    var user := PatternLines(content);
    var lines := DefaultPatterns + user;
    assert ParsePatterns(Present(content)) == CompileAll(lines);
    assert forall i :: 0 <= i < |user| ==> lines[|DefaultPatterns| + i] == user[i];
  }

  /** The string the expressions are tested on: the relative path with
      backslashes turned into `/`, and a `/` in front. */
  function Candidate(relPath: string): (c: string)
    ensures |c| > 0 && c[0] == '/'
    ensures '\\' !in c
  {
    var n := ReplaceChar(relPath, '\\', '/');
    assert '\\' !in n by {
      forall i | 0 <= i < |n| ensures n[i] != '\\' { }
    }
    if StartsWith(n, "/") then n else "/" + n
  }

  /** `isIgnored(filePath)`: some compiled pattern matches the candidate. */
  predicate IsIgnored(ps: seq<seq<Token>>, relPath: string) {
    exists i :: 0 <= i < |ps| && Matches(ps[i], Candidate(relPath))
  }

  /** Without a readable `.gitignore` nothing is ignored, not even the
      default exclusions. */
  lemma NoIgnoreFileIgnoresNothing(f: IgnoreFile, relPath: string)
    requires !f.Present?
    ensures !IsIgnored(ParsePatterns(f), relPath)
  {
  }

  // ----- Matching facts for each token -----

  /** The first `k` characters of `s` contain no line terminator and `rest`
      matches what follows them. */
  predicate SkipThen(rest: seq<Token>, s: string, k: int) {
    0 <= k <= |s| && NoLineTerminator(s[..k]) && Matches(rest, s[k..])
  }

  lemma SkipThenShift(rest: seq<Token>, s: string, k: int)
    requires 1 <= k <= |s|
    ensures SkipThen(rest, s, k) <==> !IsLineTerminator(s[0]) && SkipThen(rest, s[1..], k - 1)
  {
    assert s[..k] == [s[0]] + s[1..][..k - 1];
    assert s[1..][k - 1..] == s[k..];
  }

  /** `.*` followed by `rest` matches exactly when some line-terminator-free
      prefix of `s` can be skipped before `rest` matches. */
  lemma {:induction false} AnyRunMatches(rest: seq<Token>, s: string)
    ensures Matches([AnyRun] + rest, s) <==> exists k :: 0 <= k <= |s| && SkipThen(rest, s, k)
    decreases |s|
  {
    var t := [AnyRun] + rest;
    assert t[0] == AnyRun && t[1..] == rest;
    assert s[..0] == [] && s[0..] == s;
    assert SkipThen(rest, s, 0) == Matches(rest, s);
    if |s| == 0 {
      assert Matches(t, s) == Matches(rest, s);
    } else {
      assert Matches(t, s) == (Matches(rest, s) || (!IsLineTerminator(s[0]) && Matches(t, s[1..])));
      AnyRunMatches(rest, s[1..]);
      if !Matches(rest, s) && !IsLineTerminator(s[0]) && Matches(t, s[1..]) {
        var k :| 0 <= k <= |s[1..]| && SkipThen(rest, s[1..], k);
        SkipThenShift(rest, s, k + 1);
      }
      if exists k :: 0 <= k <= |s| && SkipThen(rest, s, k) {
        var k :| 0 <= k <= |s| && SkipThen(rest, s, k);
        if k > 0 {
          SkipThenShift(rest, s, k);
          assert SkipThen(rest, s[1..], k - 1);
        }
      }
    }
  }

  /** Literal tokens followed by `rest` match exactly when `s` starts with
      the literal text and `rest` matches what follows it. */
  lemma {:induction false} LitsMatch(w: string, rest: seq<Token>, s: string)
    ensures Matches(Lits(w) + rest, s) <==> StartsWith(s, w) && Matches(rest, s[|w|..])
    decreases |w|
  {
    if |w| == 0 {
      assert Lits(w) + rest == rest;
      assert s[0..] == s;
    } else {
      var t := Lits(w) + rest;
      assert t[0] == Lit(w[0]);
      assert t[1..] == Lits(w[1..]) + rest;
      if |s| > 0 {
        LitsMatch(w[1..], rest, s[1..]);
        if |w| <= |s| {
          assert s[1..][|w| - 1..] == s[|w|..];
          assert s[..|w|] == [s[0]] + s[1..][..|w| - 1];
          assert w == [w[0]] + w[1..];
        }
      }
    }
  }

  /** The `($|/.*)` suffix: the path ends here or continues with `/`. */
  lemma EndOrSubpathMatches(s: string)
    ensures Matches([EndOrSubpath], s) <==> |s| == 0 || s[0] == '/'
  {
    if |s| > 0 && s[0] == '/' {
      assert [EndOrSubpath][1..] == [];
      assert [AnyRun] + [] == [AnyRun];
      assert [AnyRun][1..] == [];
      assert Matches([AnyRun], s[1..]);
    }
  }

  /** The `/?$` of a directory pattern, with the `($|/.*)` behind it: only
      the end of the path, or a single trailing `/`. */
  lemma DirectorySuffixMatches(s: string)
    ensures Matches([OptSlashEnd, EndOrSubpath], s) <==> |s| == 0 || s == "/"
  {
    assert [OptSlashEnd, EndOrSubpath][1..] == [EndOrSubpath];
    EndOrSubpathMatches([]);
  }

  // ----- What a compiled pattern matches -----

  /** A name pattern: non-empty, no `*`, neither starting nor ending in `/`. */
  predicate PlainName(p: string) {
    |p| > 0 && p[0] != '/' && p[|p| - 1] != '/' && '*' !in p
  }

  /** `p` occupies whole path segments of `s` right after the `/` at `k`. */
  predicate SegmentsAt(s: string, p: string, k: int) {
    && 0 <= k
    && k + 1 + |p| <= |s|
    && s[k] == '/'
    && s[k + 1..k + 1 + |p|] == p
    && (k + 1 + |p| == |s| || s[k + 1 + |p|] == '/')
  }

  lemma PlainBody(p: string)
    requires |p| > 0 && p[|p| - 1] != '/' && '*' !in p
    ensures BodyTokens(p) == Lits(p)
  {
    forall i | 0 <= i < |p| ensures BodyTokens(p)[i] == Lits(p)[i] {
      assert p[i] in p;
    }
  }

  lemma SegmentStep(p: string, s: string, k: int)
    requires PlainName(p)
    requires NoLineTerminator(s)
    requires 0 <= k <= |s|
    ensures SkipThen(Lits("/" + p) + [EndOrSubpath], s, k) <==> SegmentsAt(s, p, k)
  {
    var w := "/" + p;
    assert NoLineTerminator(s[..k]) by {
      assert forall i :: 0 <= i < k ==> s[..k][i] == s[i];
    }
    LitsMatch(w, [EndOrSubpath], s[k..]);
    if StartsWith(s[k..], w) {
      EndOrSubpathMatches(s[k..][|w|..]);
      assert s[k..][..|w|] == s[k..k + 1 + |p|];
      assert s[k + 1..k + 1 + |p|] == w[1..];
      assert s[k..][|w|..] == s[k + 1 + |p|..];
    }
    if SegmentsAt(s, p, k) {
      assert s[k..][..|w|] == [s[k]] + s[k + 1..k + 1 + |p|];
      EndOrSubpathMatches(s[k..][|w|..]);
      assert s[k..][|w|..] == s[k + 1 + |p|..];
    }
  }

  /** Matching is path-segment aware: a name pattern such as `dist` matches
      a path exactly when the name fills one or more whole segments of it,
      at any depth, and never a segment that merely contains the name.
      Metacharacters in the name are matched literally. */
  lemma NameMatchesWholeSegments(p: string, s: string)
    requires PlainName(p)
    requires NoLineTerminator(s)
    ensures Matches(Compile(p), s) <==> exists k :: 0 <= k < |s| && SegmentsAt(s, p, k)
  {
    PlainBody(p);
    var rest := Lits("/" + p) + [EndOrSubpath];
    assert Compile(p) == [AnyRun] + rest;
    AnyRunMatches(rest, s);
    if Matches(Compile(p), s) {
      var k :| 0 <= k <= |s| && SkipThen(rest, s, k);
      SegmentStep(p, s, k);
    }
    if exists k :: 0 <= k < |s| && SegmentsAt(s, p, k) {
      var k :| 0 <= k < |s| && SegmentsAt(s, p, k);
      SegmentStep(p, s, k);
    }
  }

  /** A pattern with a leading `/` is anchored at the project root. */
  lemma RootedPatternMatchesFromRoot(p: string, s: string)
    requires |p| >= 2 && p[0] == '/' && p[|p| - 1] != '/' && '*' !in p
    ensures Matches(Compile(p), s) <==> StartsWith(s, p) && (|s| == |p| || s[|p|] == '/')
  {
    PlainBody(p);
    var after := [EndOrSubpath];
    assert Compile(p) == Lits(p) + after;
    LitsMatch(p, after, s);
    if StartsWith(s, p) {
      EndOrSubpathMatches(s[|p|..]);
    }
  }

  /** A directory pattern compiles to `.*`, the literal `/name`, then the
      `/?` and `($|/.*)` suffixes. */
  lemma DirectoryCompiles(w: string)
    requires PlainName(w)
    ensures Compile(w + "/") == [AnyRun] + (Lits("/" + w) + [OptSlashEnd, EndOrSubpath])
  {
    var p := w + "/";
    PlainBody(w);
    assert BodyTokens(p) == Lits(w) + [OptSlashEnd] by {
      forall i | 0 <= i < |w| ensures BodyTokens(p)[i] == Lit(w[i]) {
        assert p[i] == w[i];
        assert w[i] in w;
      }
    }
  }

  /** After the skipped prefix, the rest of the path must be exactly `v`,
      optionally followed by one `/`. */
  lemma DirectoryTail(v: string, t: string)
    ensures Matches(Lits(v) + [OptSlashEnd, EndOrSubpath], t) <==> (t == v || t == v + "/")
  {
    LitsMatch(v, [OptSlashEnd, EndOrSubpath], t);
    if StartsWith(t, v) {
      DirectorySuffixMatches(t[|v|..]);
      assert t == t[..|v|] + t[|v|..];
    }
    if t == v + "/" {
      assert t[..|v|] == v;
    }
  }

  /** A pattern with a trailing `/` (rewritten to `/?$`) matches the
      directory itself but, unlike a name pattern, no path below it. */
  lemma DirectoryPatternMatchesOnlyTheDirectory(w: string, s: string)
    requires PlainName(w)
    requires NoLineTerminator(s)
    ensures Matches(Compile(w + "/"), s) <==> EndsWith(s, "/" + w) || EndsWith(s, "/" + w + "/")
  {
    var v := "/" + w;
    var rest := Lits(v) + [OptSlashEnd, EndOrSubpath];
    DirectoryCompiles(w);
    AnyRunMatches(rest, s);
    forall k | 0 <= k <= |s| ensures SkipThen(rest, s, k) <==> (s[k..] == v || s[k..] == v + "/") {
      DirectoryTail(v, s[k..]);
      assert forall i :: 0 <= i < k ==> s[..k][i] == s[i];
    }
    if EndsWith(s, v) {
      assert SkipThen(rest, s, |s| - |v|);
    } else if EndsWith(s, v + "/") {
      assert SkipThen(rest, s, |s| - |v + "/"|);
    }
    if Matches(Compile(w + "/"), s) {
      var k :| 0 <= k <= |s| && SkipThen(rest, s, k);
      assert |s[k..]| == |s| - k;
    }
  }

  // ----- The `dist` examples -----

  lemma DistMatchesItself()
    ensures Matches(Compile("dist"), "/dist")
  {
    hide Compile;
    NameMatchesWholeSegments("dist", "/dist");
    assert SegmentsAt("/dist", "dist", 0);
  }

  lemma DistMatchesNestedPaths()
    ensures Matches(Compile("dist"), "/a/b/dist/c.js")
  {
    hide Compile;
    NameMatchesWholeSegments("dist", "/a/b/dist/c.js");
    assert SegmentsAt("/a/b/dist/c.js", "dist", 4);
  }

  lemma DistRejectsSharedSubstrings()
    ensures !Matches(Compile("dist"), "/adist")
    ensures !Matches(Compile("dist"), "/distx")
  {
    NameMatchesWholeSegments("dist", "/adist");
    forall k | 0 <= k < 6 ensures !SegmentsAt("/adist", "dist", k) {
      if k == 0 {
        assert "/adist"[1..5] != "dist" by { assert "/adist"[1..5][0] == 'a'; }
      }
    }
    NameMatchesWholeSegments("dist", "/distx");
    forall k | 0 <= k < 6 ensures !SegmentsAt("/distx", "dist", k) {
    }
  }

  /** With a `.gitignore` present, whatever it says, the default `dist`
      entry ignores every path with a `dist` segment. */
  lemma DefaultsApplyWithIgnoreFile(content: string, relPath: string, k: nat)
    requires NoLineTerminator(Candidate(relPath))
    requires k < |Candidate(relPath)| && SegmentsAt(Candidate(relPath), "dist", k)
    ensures IsIgnored(ParsePatterns(Present(content)), relPath)
  {
    hide ParsePatterns, Compile;
    var ps := ParsePatterns(Present(content));
    var c := Candidate(relPath);
    ParsePatternsCompilesEachLine(content);
    assert ps[1] == Compile("dist");
    NameMatchesWholeSegments("dist", c);
    assert Matches(ps[1], c);
  }
}

=== FILE: manifest.dfy ===
/** `package.json` as the three scripts read it: the `dependencies`,
    `devDependencies` and `peerDependencies` sections, the first-truthy
    version lookup the two athena scripts share, and the merged lookup the
    analyzer's state-management check uses. */
module Manifest {
  import opened Wrappers

  /** The three dependency sections, from package name to version range. A
      missing section is an empty map; a falsy value is the empty string. */
  datatype PackageJson = PackageJson(
    dependencies: map<string, string>,
    devDependencies: map<string, string>,
    peerDependencies: map<string, string>)

  /** The `package.json` file: missing, not parsing to an object, or parsed.
      `Malformed` covers invalid JSON and JSON whose top level is `null`,
      which throws at the first `.dependencies` access. */
  datatype ManifestFile = NoManifest | Malformed | Present(pkg: PackageJson)

  /** `section?.[name]` is truthy. */
  predicate Declares(section: map<string, string>, name: string) {
    name in section && section[name] != ""
  }

  /** The sections in lookup order. */
  function Sections(pkg: PackageJson): seq<map<string, string>> {
    [pkg.dependencies, pkg.devDependencies, pkg.peerDependencies]
  }

  /** Section `i` is the first one that declares `name` truthily. */
  predicate FirstDeclaring(pkg: PackageJson, name: string, i: int) {
    && 0 <= i < 3
    && Declares(Sections(pkg)[i], name)
    && forall j :: 0 <= j < i ==> !Declares(Sections(pkg)[j], name)
  }

  /** `pkg.dependencies?.[name] || pkg.devDependencies?.[name] ||
      pkg.peerDependencies?.[name]`, with a falsy result as `None`: the
      value in the first section that declares the package truthily. */
  function DeclaredVersion(pkg: PackageJson, name: string): (r: Option<string>)
    ensures r.None? <==> forall i :: 0 <= i < 3 ==> !Declares(Sections(pkg)[i], name)
    ensures r.Some? ==> exists i :: FirstDeclaring(pkg, name, i) && r.value == Sections(pkg)[i][name]
    ensures r.Some? ==> r.value != ""
  {
    if Declares(pkg.dependencies, name) then
      assert FirstDeclaring(pkg, name, 0);
      Some(pkg.dependencies[name])
    else if Declares(pkg.devDependencies, name) then
      assert FirstDeclaring(pkg, name, 1);
      Some(pkg.devDependencies[name])
    else if Declares(pkg.peerDependencies, name) then
      assert FirstDeclaring(pkg, name, 2);
      Some(pkg.peerDependencies[name])
    else
      assert forall i :: 0 <= i < 3 ==> !Declares(Sections(pkg)[i], name) by {
        assert Sections(pkg)[0] == pkg.dependencies;
        assert Sections(pkg)[1] == pkg.devDependencies;
        assert Sections(pkg)[2] == pkg.peerDependencies;
      }
      None
  }

  /** A truthy `dependencies` entry is reported whatever the later
      sections say. */
  lemma EarlierSectionWins(pkg: PackageJson, name: string)
    requires Declares(pkg.dependencies, name)
    ensures DeclaredVersion(pkg, name) == Some(pkg.dependencies[name])
  {
    var r := DeclaredVersion(pkg, name);
    var i :| FirstDeclaring(pkg, name, i) && r.value == Sections(pkg)[i][name];
    assert Sections(pkg)[0] == pkg.dependencies;
  }

  /** `{ ...pkg.dependencies, ...pkg.devDependencies }`: a development entry
      overrides a runtime entry for the same package. */
  function Merged(pkg: PackageJson): map<string, string> {
    pkg.dependencies + pkg.devDependencies
  }

  /** `dependencies['react-redux'] || dependencies['@reduxjs/toolkit']` on
      the merged sections. */
  predicate UsesRedux(pkg: PackageJson) {
    Declares(Merged(pkg), "react-redux") || Declares(Merged(pkg), "@reduxjs/toolkit")
  }

  /** Redux is detected when one of its packages has a truthy version in
      `devDependencies`, or is absent there and truthy in `dependencies`;
      `peerDependencies` never count. */
  lemma UsesReduxIff(pkg: PackageJson)
    ensures UsesRedux(pkg) <==>
            exists name :: name in ["react-redux", "@reduxjs/toolkit"] &&
              (if name in pkg.devDependencies then pkg.devDependencies[name] != ""
               else Declares(pkg.dependencies, name))
  {
    var m := Merged(pkg);
    forall name | name in ["react-redux", "@reduxjs/toolkit"]
      ensures Declares(m, name) <==>
              (if name in pkg.devDependencies then pkg.devDependencies[name] != ""
               else Declares(pkg.dependencies, name))
    {
    }
  }
}

=== FILE: performance_rules.dfy ===
/** `checkPerformanceRules`: the configured metric targets, large assets,
    and the use of `useMemo`, `useCallback` and React Query. */
module PerformanceRules {
  import opened Text
  import opened FileTree
  import opened Tally
  import opened Results
  import opened Checks

  // The messages this group pushes.
  const NoMemo := "No useMemo optimizations found."
  const MemosFound := " useMemo optimizations."
  const NoCallback := "No useCallback optimizations found."
  const CallbacksFound := " useCallback optimizations."
  const NoQuery := "No React Query usage found."
  const QueriesFound := " React Query usages."
  const LargeAssetsHeading := " assets (>100KB):\n"

  /** `settings.performance.metrics`, as the rules file states them. */
  datatype Metrics = Metrics(fcp: string, lcp: string, ttfb: string, inp: string, cls: string)

  /** The warning every run begins the group with. */
  function MetricsMessage(mt: Metrics): (r: string)
    ensures StartsWith(r, "Performance targets:\n- FCP: " + mt.fcp + "s, LCP: ")
  {
    var head := "Performance targets:\n- FCP: " + mt.fcp + "s, LCP: ";
    var rest := mt.lcp + "s, TTFB: " + mt.ttfb + "s, INP: " + mt.inp + "ms, CLS: " + mt.cls;
    assert (head + rest)[..|head|] == head;
    head + rest
  }

  // ----- Sizes as `toFixed` prints them -----

  /** Files above this many bytes are large assets (`100 * 1024`). */
  const LargeAssetBytes: nat := 100 * 1024

  /** Bytes in a megabyte (`1024 * 1024`). */
  const Mebi: nat := 1024 * 1024

  function Pow10(d: nat): (p: nat)
    ensures p >= 1
  {
    if d == 0 then 1 else 10 * Pow10(d - 1)
  }

  /** `n` is `a / b` rounded to the nearest integer, halves upwards: the
      integer `toFixed` picks ("if there are two such n, pick the larger"). */
  predicate RoundsTo(a: nat, b: nat, n: nat) {
    b > 0 && 2 * n * b <= 2 * a + b < 2 * n * b + 2 * b
  }

  lemma LessByFactor(x: int, y: int, c: int)
    requires c > 0 && x * c < y * c
    ensures x < y
  {
  }

  /** At most one integer is the rounded quotient. */
  lemma RoundingIsUnique(a: nat, b: nat, n: nat, n': nat)
    requires RoundsTo(a, b, n) && RoundsTo(a, b, n')
    ensures n == n'
  {
    assert 2 * n * b + 2 * b == (n + 1) * (2 * b) && 2 * n' * b == n' * (2 * b);
    assert 2 * n' * b + 2 * b == (n' + 1) * (2 * b) && 2 * n * b == n * (2 * b);
    LessByFactor(n', n + 1, 2 * b);
    LessByFactor(n, n' + 1, 2 * b);
  }

  /** `x` with its last `d` decimal digits dropped. */
  function Shifted(x: nat, d: nat): nat {
    if d == 0 then x else Shifted(x / 10, d - 1)
  }

  /** A digit string is below the power of ten of its length. */
  lemma {:induction false} ParseDecimalBelow(s: string)
    requires AllDigits(s)
    ensures ParseDecimal(s) < Pow10(|s|)
    decreases |s|
  {
    if |s| > 0 {
      assert AllDigits(s[..|s| - 1]);
      ParseDecimalBelow(s[..|s| - 1]);
    }
  }

  /** The last `d` decimal digits of `x`, zero-padded. */
  function FractionDigits(x: nat, d: nat): (r: string)
    ensures |r| == d && AllDigits(r)
  {
    if d == 0 then "" else FractionDigits(x / 10, d - 1) + [DigitChar(x % 10)]
  }

  /** The digits `FractionDigits` keeps and the ones `Shifted` drops make
      up `x` again. */
  lemma {:induction false} FractionDigitsSplit(x: nat, d: nat)
    ensures Pow10(d) * Shifted(x, d) + ParseDecimal(FractionDigits(x, d)) == x
    decreases d
  {
    if d > 0 {
      var hi, r := FractionDigits(x / 10, d - 1), FractionDigits(x, d);
      assert r[..|r| - 1] == hi;
      FractionDigitsSplit(x / 10, d - 1);
      DigitStep(Pow10(d - 1), Shifted(x / 10, d - 1), ParseDecimal(hi), x);
      assert Pow10(d) * Shifted(x, d) + ParseDecimal(r) == x;
    }
  }

  /** Putting back the last decimal digit: if `p * s` and `h` make up
      `x / 10`, then `10 * p * s` and `10 * h + x % 10` make up `x`. */
  lemma DigitStep(p: nat, s: nat, h: nat, x: nat)
    requires p * s + h == x / 10
    ensures (10 * p) * s + (10 * h + x % 10) == x
  {
    MulByTen(s, p);
  }

  /** `(n / 10^d).toFixed(d)`: the integer part, a point, and `d` digits. */
  function Fixed(n: nat, d: nat): (r: string)
    ensures |r| >= d + 2 && r[|r| - d - 1] == '.'
  {
    NatToString(Shifted(n, d)) + "." + FractionDigits(n, d)
  }

  /** The digits after the point are the remainder below `10^d`, and the
      digits around the point read back as `n`. */
  lemma FixedReadsBack(n: nat, d: nat)
    ensures ParseDecimal(FractionDigits(n, d)) < Pow10(d)
    ensures ParseDecimal(NatToString(Shifted(n, d)) + FractionDigits(n, d)) == n
  {
    var hi, lo := NatToString(Shifted(n, d)), FractionDigits(n, d);
    ParseDecimalBelow(lo);
    FractionDigitsSplit(n, d);
    ParseDecimalConcat(hi, lo);
    MulCommutes(ParseDecimal(hi), Pow10(d));
  }

  lemma MulCommutes(x: nat, y: nat)
    ensures x * y == y * x
  {
  }

  lemma MulByTen(x: nat, y: nat)
    ensures x * (10 * y) == 10 * (x * y)
  {
  }

  lemma {:induction false} ParseDecimalConcat(a: string, b: string)
    requires AllDigits(a) && AllDigits(b)
    ensures AllDigits(a + b)
    ensures ParseDecimal(a + b) == ParseDecimal(a) * Pow10(|b|) + ParseDecimal(b)
    decreases |b|
  {
    if |b| == 0 {
      assert a + b == a;
    } else {
      var b' := b[..|b| - 1];
      assert AllDigits(b');
      ParseDecimalConcat(a, b');
      var ab := a + b;
      assert ab == (a + b') + [b[|b| - 1]];
      assert ab[..|ab| - 1] == a + b';
      MulByTen(ParseDecimal(a), Pow10(|b'|));
    }
  }

  /** `formattedSize`: megabytes with two decimals from 1 MB on, kilobytes
      with one decimal below. */
  function FormatSize(size: nat): string {
    if size >= Mebi then Fixed((2 * (size * 100) + Mebi) / (2 * Mebi), 2) + "MB"
    else Fixed((2 * (size * 10) + 1024) / (2 * 1024), 1) + "KB"
  }

  /** The printed size is the byte count in megabytes (from 1 MB on) or in
      kilobytes, rounded to two or one decimals as `toFixed` rounds. */
  lemma FormatSizeRounds(size: nat)
    ensures size >= Mebi ==> exists n :: FormatSize(size) == Fixed(n, 2) + "MB" && RoundsTo(size * 100, Mebi, n)
    ensures size < Mebi ==> exists n :: FormatSize(size) == Fixed(n, 1) + "KB" && RoundsTo(size * 10, 1024, n)
  {
    if size >= Mebi {
      var n := (2 * (size * 100) + Mebi) / (2 * Mebi);
      assert FormatSize(size) == Fixed(n, 2) + "MB" && RoundsTo(size * 100, Mebi, n);
    } else {
      var n := (2 * (size * 10) + 1024) / (2 * 1024);
      assert FormatSize(size) == Fixed(n, 1) + "KB" && RoundsTo(size * 10, 1024, n);
    }
  }

  // ----- Large assets -----

  predicate LargeImage(v: Visit) {
    v.size > LargeAssetBytes && IsImage(Path(v))
  }

  /** A large script that is not also named like an image (the `else if`). */
  predicate LargeScript(v: Visit) {
    v.size > LargeAssetBytes && !IsImage(Path(v)) && IsScript(Path(v))
  }

  /** `  - ${path} (${formattedSize})` */
  function AssetLine(v: Visit): string {
    "  - " + Path(v) + " (" + FormatSize(v.size) + ")"
  }

  /** One line per asset, in walk order. */
  function AssetLines(ws: seq<Visit>): (r: seq<string>)
    ensures |r| == |ws|
    ensures forall k :: 0 <= k < |ws| ==> r[k] == AssetLine(ws[k])
  {
    if |ws| == 0 then [] else [AssetLine(ws[0])] + AssetLines(ws[1..])
  }

  /** The warning for one asset type, present only when it has assets. */
  function AssetWarning(kind: string, ws: seq<Visit>): (os: seq<Outcome>)
    ensures |os| == (if |ws| > 0 then 1 else 0)
    ensures AllIn(os, Warned)
    ensures |ws| > 0 ==> os[0].bucket == Warned &&
                         StartsWith(os[0].message, "Found " + Num(|ws|) + " large " + kind + LargeAssetsHeading)
    ensures |ws| > 0 ==> forall k :: 0 <= k < |ws| ==> Contains(os[0].message, AssetLine(ws[k]))
  {
    if |ws| == 0 then []
    else
      var head := "Found " + Num(|ws|) + " large " + kind + LargeAssetsHeading;
      assert (head + Lines(AssetLines(ws)))[..|head|] == head;
      assert forall k :: 0 <= k < |ws| ==> Contains(head + Lines(AssetLines(ws)), AssetLine(ws[k])) by {
        forall k | 0 <= k < |ws| ensures Contains(head + Lines(AssetLines(ws)), AssetLine(ws[k])) {
          JoinContains(AssetLines(ws), "\n", k);
          ContainsWithin(head, Lines(AssetLines(ws)), "", AssetLine(ws[k]));
          assert head + Lines(AssetLines(ws)) + "" == head + Lines(AssetLines(ws));
        }
      }
      [Outcome(Warned, head + Lines(AssetLines(ws)))]
  }

  /** Each selected asset has its line in its kind's warning. */
  lemma AssetLinesIn(vs: seq<Visit>, keep: Visit -> bool, kind: string)
    ensures forall i :: 0 <= i < |vs| && keep(vs[i]) ==>
              |AssetWarning(kind, Select(vs, keep))| == 1 &&
              Contains(AssetWarning(kind, Select(vs, keep))[0].message, AssetLine(vs[i]))
  {
    hide AssetWarning, AssetLine;
    var sel := Select(vs, keep);
    forall i | 0 <= i < |vs| && keep(vs[i])
      ensures |AssetWarning(kind, sel)| == 1 && Contains(AssetWarning(kind, sel)[0].message, AssetLine(vs[i]))
    {
      assert vs[i] in sel;
      var k :| 0 <= k < |sel| && sel[k] == vs[i];
    }
  }

  /** The warnings of `assetsByType` in key order (`images`, `fonts`,
      `scripts`, `styles`); the walk fills only images and scripts, so the
      font and style lists stay empty and never warn. */
  function AssetWarnings(vs: seq<Visit>): (os: seq<Outcome>)
    ensures |os| == (if exists i :: 0 <= i < |vs| && LargeImage(vs[i]) then 1 else 0) +
                    (if exists i :: 0 <= i < |vs| && LargeScript(vs[i]) then 1 else 0)
    ensures AllIn(os, Warned)
    ensures forall i :: 0 <= i < |vs| && LargeImage(vs[i]) ==> Contains(os[0].message, AssetLine(vs[i]))
    ensures forall i :: 0 <= i < |vs| && LargeScript(vs[i]) ==> Contains(os[|os| - 1].message, AssetLine(vs[i]))
  {
    hide AssetWarning, AssetLine, LargeImage, LargeScript;
    var images, scripts := AssetWarning("images", Select(vs, LargeImage)), AssetWarning("scripts", Select(vs, LargeScript));
    assert |images| == (if exists i :: 0 <= i < |vs| && LargeImage(vs[i]) then 1 else 0) by {
      SelectEmptyIff(vs, LargeImage);
    }
    assert |scripts| == (if exists i :: 0 <= i < |vs| && LargeScript(vs[i]) then 1 else 0) by {
      SelectEmptyIff(vs, LargeScript);
    }
    AllInConcat(images, scripts, Warned);
    AssetLinesIn(vs, LargeImage, "images");
    AssetLinesIn(vs, LargeScript, "scripts");
    images + scripts
  }

  // ----- Hooks and React Query -----

  predicate UsesMemo(v: Visit) {
    IsReactSource(Path(v)) && Contains(v.content, "useMemo(")
  }

  predicate UsesCallback(v: Visit) {
    IsReactSource(Path(v)) && Contains(v.content, "useCallback(")
  }

  predicate UsesQuery(v: Visit) {
    IsReactSource(Path(v)) && (Contains(v.content, "useQuery(") || Contains(v.content, "useMutation("))
  }

  /** Warns when no React source calls `useMemo(`; passes with the number
      of files that do. */
  function MemoCheck(vs: seq<Visit>): (o: Outcome)
    ensures o.bucket == Warned <==> forall i :: 0 <= i < |vs| ==> !UsesMemo(vs[i])
    ensures o.bucket == Warned ==> o.message == NoMemo
    ensures o.bucket != Warned ==> o == Outcome(Passed, "Found " + Num(|Select(vs, UsesMemo)|) + MemosFound)
  {
    PresenceCheck(vs, UsesMemo, Warned, NoMemo, "Found ", MemosFound)
  }

  function CallbackCheck(vs: seq<Visit>): (o: Outcome)
    ensures o.bucket == Warned <==> forall i :: 0 <= i < |vs| ==> !UsesCallback(vs[i])
    ensures o.bucket == Warned ==> o.message == NoCallback
    ensures o.bucket != Warned ==>
              o == Outcome(Passed, "Found " + Num(|Select(vs, UsesCallback)|) + CallbacksFound)
  {
    PresenceCheck(vs, UsesCallback, Warned, NoCallback, "Found ", CallbacksFound)
  }

  function QueryCheck(vs: seq<Visit>): (o: Outcome)
    ensures o.bucket == Warned <==> forall i :: 0 <= i < |vs| ==> !UsesQuery(vs[i])
    ensures o.bucket == Warned ==> o.message == NoQuery
    ensures o.bucket != Warned ==> o == Outcome(Passed, "Found " + Num(|Select(vs, UsesQuery)|) + QueriesFound)
  {
    PresenceCheck(vs, UsesQuery, Warned, NoQuery, "Found ", QueriesFound)
  }

  /** The entries in push order: the targets first, then the asset
      warnings, then the three usage checks. */
  function PerformanceChecks(mt: Metrics, vs: seq<Visit>): (os: seq<Outcome>)
    ensures 4 <= |os| <= 6
    ensures os[0] == Outcome(Warned, MetricsMessage(mt))
    ensures os[|os| - 3..] == [MemoCheck(vs), CallbackCheck(vs), QueryCheck(vs)]
    ensures os[1..|os| - 3] == AssetWarnings(vs)
  {
    [Outcome(Warned, MetricsMessage(mt))] + AssetWarnings(vs) + [MemoCheck(vs), CallbackCheck(vs), QueryCheck(vs)]
  }
}

=== FILE: react_rules.dfy ===
/** `checkReactRules`: seven entries about the `.tsx`/`.jsx` files. */
module ReactRules {
  import opened Text
  import opened FileTree
  import opened Tally
  import opened Results
  import opened Checks

  // The messages this group pushes.
  const NoClassComponents := "No class components found."
  const ClassComponentsFound := " class components found. Use functions."
  const NoInlineStyles := "No inline styles found."
  const InlineStylesFound := " inline style instances found. Use modules."
  const NoFcTypes := "No FC/FunctionComponent usage found."
  const FcTypesFound := " uses of FC/FunctionComponent type found. Avoid them."
  const NoErrorBoundaries := "No error boundaries found. Use them for graceful error handling."
  const ErrorBoundariesFound := " error boundaries found."
  const NoLazyLoading := "No lazy loading found. Use it for conditional components."
  const LazyLoadsFound := " lazy-loaded components found."
  const DirectPropsFound := " instances of direct props access. Consider destructuring.\n"
  const PropsDestructured := "Props seem to be destructured correctly."
  const ConditionalsFound := " conditional renders. Consider extracting complex conditions into components.\n"
  const ReasonableConditionals := "Reasonable use of conditional rendering."

  /** Matches of the class-component expression in a React source. */
  function ClassCount(m: Matchers, v: Visit): nat {
    if IsReactSource(Path(v)) then m.classComponents(v.content) else 0
  }

  function ClassComponents(m: Matchers): Visit -> nat {
    v => ClassCount(m, v)
  }

  predicate UsesInlineStyle(v: Visit) {
    IsReactSource(Path(v)) && Contains(v.content, "style={{")
  }

  predicate UsesFcType(v: Visit) {
    IsReactSource(Path(v)) && (Contains(v.content, "FC<") || Contains(v.content, "FunctionComponent<"))
  }

  predicate HasErrorBoundary(v: Visit) {
    IsReactSource(Path(v)) &&
    (Contains(v.content, "componentDidCatch") || Contains(v.content, "static getDerivedStateFromError"))
  }

  predicate LazyLoads(v: Visit) {
    IsReactSource(Path(v)) && (Contains(v.content, "React.lazy") || Contains(v.content, "lazy(() =>"))
  }

  function PropCount(m: Matchers, v: Visit): nat {
    if IsReactSource(Path(v)) then m.propAccesses(v.content) else 0
  }

  function PropAccesses(m: Matchers): Visit -> nat {
    v => PropCount(m, v)
  }

  function ConditionalCount(m: Matchers, v: Visit): nat {
    if IsReactSource(Path(v)) then m.conditionals(v.content) else 0
  }

  function Conditionals(m: Matchers): Visit -> nat {
    v => ConditionalCount(m, v)
  }

  /** Fails when some React source declares a class component: the number
      of declarations over all files, then those files. */
  function ClassComponentCheck(m: Matchers, vs: seq<Visit>): (o: Outcome)
    ensures o.bucket == Failed <==> exists i :: 0 <= i < |vs| && ClassCount(m, vs[i]) > 0
    ensures o.bucket != Failed ==> o == Outcome(Passed, NoClassComponents)
    ensures o.bucket == Failed ==>
              StartsWith(o.message, Num(Sum(vs, ClassComponents(m))) + ClassComponentsFound) &&
              EndsWith(o.message, "\n" + Lines(FilesWhere(vs, DeclaresClass(m))))
  {
    hide Num, Lines, FilesWhere, StartsWith, EndsWith, ClassCount;
    var o := ListCheck(vs, ClassComponents(m), Failed, "", ClassComponentsFound, NoClassComponents);
    FilesWhereAgree(vs, Contributes(ClassComponents(m)), DeclaresClass(m));
    assert o.bucket == Failed ==> StartsWith(o.message, Num(Sum(vs, ClassComponents(m))) + ClassComponentsFound) by {
      assert "" + Num(Sum(vs, ClassComponents(m))) == Num(Sum(vs, ClassComponents(m)));
    }
    o
  }

  /** A React source with at least one class-component declaration. */
  function DeclaresClass(m: Matchers): Visit -> bool {
    v => ClassCount(m, v) > 0
  }

  /** Fails when some React source has `style={{`: the number of such
      files, then those files. */
  function InlineStyleCheck(vs: seq<Visit>): (o: Outcome)
    ensures o.bucket == Failed <==> exists i :: 0 <= i < |vs| && UsesInlineStyle(vs[i])
    ensures o.bucket != Failed ==> o == Outcome(Passed, NoInlineStyles)
    ensures o.bucket == Failed ==>
              StartsWith(o.message, Num(|Select(vs, UsesInlineStyle)|) + InlineStylesFound) &&
              EndsWith(o.message, "\n" + Lines(FilesWhere(vs, UsesInlineStyle)))
  {
    hide UsesInlineStyle, Num, Lines, FilesWhere, StartsWith, EndsWith;
    IndicatorCountsFiles(vs, UsesInlineStyle);
    FilesWhereAgree(vs, Contributes(Indicator(UsesInlineStyle)), UsesInlineStyle);
    assert "" + Num(|Select(vs, UsesInlineStyle)|) == Num(|Select(vs, UsesInlineStyle)|);
    ListCheck(vs, Indicator(UsesInlineStyle), Failed, "", InlineStylesFound, NoInlineStyles)
  }

  /** Fails when some React source mentions `FC<` or `FunctionComponent<`:
      the number of such files, then those files. */
  function FcTypeCheck(vs: seq<Visit>): (o: Outcome)
    ensures o.bucket == Failed <==> exists i :: 0 <= i < |vs| && UsesFcType(vs[i])
    ensures o.bucket != Failed ==> o == Outcome(Passed, NoFcTypes)
    ensures o.bucket == Failed ==>
              StartsWith(o.message, Num(|Select(vs, UsesFcType)|) + FcTypesFound) &&
              EndsWith(o.message, "\n" + Lines(FilesWhere(vs, UsesFcType)))
  {
    hide UsesFcType, Num, Lines, FilesWhere, StartsWith, EndsWith;
    IndicatorCountsFiles(vs, UsesFcType);
    FilesWhereAgree(vs, Contributes(Indicator(UsesFcType)), UsesFcType);
    assert "" + Num(|Select(vs, UsesFcType)|) == Num(|Select(vs, UsesFcType)|);
    ListCheck(vs, Indicator(UsesFcType), Failed, "", FcTypesFound, NoFcTypes)
  }

  /** Fails when no React source is an error boundary. */
  function ErrorBoundaryCheck(vs: seq<Visit>): (o: Outcome)
    ensures o.bucket == Failed <==> forall i :: 0 <= i < |vs| ==> !HasErrorBoundary(vs[i])
    ensures o.bucket != Failed ==> o.bucket == Passed
    ensures o.bucket != Failed ==> o.message == Num(|Select(vs, HasErrorBoundary)|) + ErrorBoundariesFound
  {
    var o := PresenceCheck(vs, HasErrorBoundary, Failed,
                           NoErrorBoundaries,
                           "", ErrorBoundariesFound);
    assert "" + Num(|Select(vs, HasErrorBoundary)|) == Num(|Select(vs, HasErrorBoundary)|);
    o
  }

  /** Fails when no React source loads a component lazily. */
  function LazyLoadCheck(vs: seq<Visit>): (o: Outcome)
    ensures o.bucket == Failed <==> forall i :: 0 <= i < |vs| ==> !LazyLoads(vs[i])
    ensures o.bucket != Failed ==> o.bucket == Passed
    ensures o.bucket != Failed ==> o.message == Num(|Select(vs, LazyLoads)|) + LazyLoadsFound
  {
    var o := PresenceCheck(vs, LazyLoads, Failed, NoLazyLoading,
                           "", LazyLoadsFound);
    assert "" + Num(|Select(vs, LazyLoads)|) == Num(|Select(vs, LazyLoads)|);
    o
  }

  /** Warns when some React source reads `props.x` directly (not through
      `this.props`), with a per-file count. */
  function PropsCheck(m: Matchers, vs: seq<Visit>): (o: Outcome)
    ensures o.bucket == Warned <==> exists i :: 0 <= i < |vs| && PropCount(m, vs[i]) > 0
    ensures o.bucket != Warned ==> o == Outcome(Passed, PropsDestructured)
    ensures o.bucket == Warned && DistinctPaths(vs) ==>
              forall i :: 0 <= i < |vs| && PropCount(m, vs[i]) > 0 ==>
                Contains(o.message, DetailLine(Path(vs[i]), PropCount(m, vs[i]), "instances"))
  {
    var total := Sum(vs, PropAccesses(m));
    SumPositiveIff(vs, PropAccesses(m));
    var head := "Found " + Num(total) + DirectPropsFound;
    CountDetailsNameEachFile(vs, PropAccesses(m), "instances", head, "");
    assert head + CountDetails(vs, PropAccesses(m), "instances") + "" == head + CountDetails(vs, PropAccesses(m), "instances");
    Check(total > 0, Warned, head + CountDetails(vs, PropAccesses(m), "instances"), PropsDestructured)
  }

  /** The props warning opens with the total number of direct accesses. */
  lemma PropsCheckOpensWithTotal(m: Matchers, vs: seq<Visit>)
    ensures PropsCheck(m, vs).bucket == Warned ==>
              StartsWith(PropsCheck(m, vs).message, "Found " + Num(Sum(vs, PropAccesses(m))) + DirectPropsFound)
  {
  }

  /** Warns when the React sources hold more than 10 conditional renders
      in total; a file with fewer than 11 alone cannot trip it. */
  function ConditionalCheck(m: Matchers, vs: seq<Visit>): (o: Outcome)
    ensures o.bucket == Warned <==> Sum(vs, Conditionals(m)) > 10
    ensures o.bucket != Warned ==> o == Outcome(Passed, ReasonableConditionals)
  {
    var total := Sum(vs, Conditionals(m));
    var head := "Found " + Num(total) + ConditionalsFound;
    Check(total > 10, Warned, head + CountDetails(vs, Conditionals(m), "conditionals"), ReasonableConditionals)
  }

  /** A warning needs at least one React source with conditionals. */
  lemma ConditionalWarningNeedsAFile(m: Matchers, vs: seq<Visit>)
    ensures ConditionalCheck(m, vs).bucket == Warned ==> exists i :: 0 <= i < |vs| && ConditionalCount(m, vs[i]) > 0
  {
    SumPositiveIff(vs, Conditionals(m));
  }

  /** The conditional-render warning opens with the total number of
      conditional renders and, when no two visits share a path, names every
      file that has conditionals, with its count. */
  lemma ConditionalCheckMessage(m: Matchers, vs: seq<Visit>)
    ensures ConditionalCheck(m, vs).bucket == Warned ==>
              StartsWith(ConditionalCheck(m, vs).message, "Found " + Num(Sum(vs, Conditionals(m))) + ConditionalsFound)
    ensures ConditionalCheck(m, vs).bucket == Warned && DistinctPaths(vs) ==>
              forall i :: 0 <= i < |vs| && ConditionalCount(m, vs[i]) > 0 ==>
                Contains(ConditionalCheck(m, vs).message, DetailLine(Path(vs[i]), ConditionalCount(m, vs[i]), "conditionals"))
  {
    var head := "Found " + Num(Sum(vs, Conditionals(m))) + ConditionalsFound;
    CountDetailsNameEachFile(vs, Conditionals(m), "conditionals", head, "");
    hide CountDetails, Num, ConditionalCount, DetailLine, Contains, Path;
    if ConditionalCheck(m, vs).bucket == Warned {
      assert ConditionalCheck(m, vs).message == head + CountDetails(vs, Conditionals(m), "conditionals") + "";
    }
  }

  /** The entries in push order. */
  function ReactChecks(m: Matchers, vs: seq<Visit>): (os: seq<Outcome>)
    ensures |os| == 7
  {
    [ ClassComponentCheck(m, vs), InlineStyleCheck(vs), FcTypeCheck(vs), ErrorBoundaryCheck(vs),
      LazyLoadCheck(vs), PropsCheck(m, vs), ConditionalCheck(m, vs) ]
  }

  /** Only `.tsx` and `.jsx` files count: a project without them fails the
      error-boundary and lazy-loading checks and passes the other five. */
  lemma WithoutReactSources(m: Matchers, vs: seq<Visit>)
    requires forall i :: 0 <= i < |vs| ==> !IsReactSource(Path(vs[i]))
    ensures ClassComponentCheck(m, vs).bucket == Passed
    ensures InlineStyleCheck(vs).bucket == Passed
    ensures FcTypeCheck(vs).bucket == Passed
    ensures ErrorBoundaryCheck(vs).bucket == Failed
    ensures LazyLoadCheck(vs).bucket == Failed
    ensures PropsCheck(m, vs).bucket == Passed
    ensures ConditionalCheck(m, vs).bucket == Passed
  {
    ConditionalWarningNeedsAFile(m, vs);
  }
}

=== FILE: results.dfy ===
/** The analyzer's `results` object: three append-only lists of messages,
    one per bucket, filled by the rule groups in turn, and the console
    summary `main` prints from them. */
module Results {

  datatype Bucket = Passed | Failed | Warned

  /** One entry a check appends: the bucket it goes to and its message. */
  datatype Outcome = Outcome(bucket: Bucket, message: string)

  datatype ResultSet = ResultSet(passed: seq<string>, failed: seq<string>, warnings: seq<string>)

  /** Every entry of `os` goes to bucket `b`. */
  predicate AllIn(os: seq<Outcome>, b: Bucket) {
    forall k :: 0 <= k < |os| ==> os[k].bucket == b
  }

  /** Entries that all go to one bucket still do after appending more such
      entries. */
  lemma AllInConcat(a: seq<Outcome>, c: seq<Outcome>, b: Bucket)
    requires AllIn(a, b) && AllIn(c, b)
    ensures AllIn(a + c, b)
  {
  }

  /** `{ passed: [], failed: [], warnings: [] }`. */
  const Empty := ResultSet([], [], [])

  /** A binary or threshold check: one entry, in `bucket` when the check
      trips and in `passed` otherwise. */
  function Check(trips: bool, bucket: Bucket, tripped: string, ok: string): Outcome
  {
    if trips then Outcome(bucket, tripped) else Outcome(Passed, ok)
  }

  /** The number of entries in all three lists. */
  function Total(rs: ResultSet): nat {
    |rs.passed| + |rs.failed| + |rs.warnings|
  }

  /** `results[bucket].push(message)`. */
  function Push(rs: ResultSet, o: Outcome): ResultSet
  {
    match o.bucket
    case Passed => rs.(passed := rs.passed + [o.message])
    case Failed => rs.(failed := rs.failed + [o.message])
    case Warned => rs.(warnings := rs.warnings + [o.message])
  }

  /** Pushing the entries `os` one after the other. */
  function Record(rs: ResultSet, os: seq<Outcome>): ResultSet
    decreases |os|
  {
    if |os| == 0 then rs else Record(Push(rs, os[0]), os[1..])
  }

  /** The messages of the entries of `os` that go to bucket `b`, in order. */
  function MessagesIn(os: seq<Outcome>, b: Bucket): seq<string>
  {
    if |os| == 0 then []
    else (if os[0].bucket == b then [os[0].message] else []) + MessagesIn(os[1..], b)
  }

  function CountIn(os: seq<Outcome>, b: Bucket): nat {
    |MessagesIn(os, b)|
  }

  /** Every entry lands at the end of its own bucket's list, in the order it
      was pushed, and the other two lists keep what they had. */
  lemma {:induction false} RecordAppendsPerBucket(rs: ResultSet, os: seq<Outcome>)
    ensures Record(rs, os).passed == rs.passed + MessagesIn(os, Passed)
    ensures Record(rs, os).failed == rs.failed + MessagesIn(os, Failed)
    ensures Record(rs, os).warnings == rs.warnings + MessagesIn(os, Warned)
    decreases |os|
  {
    if |os| > 0 {
      RecordAppendsPerBucket(Push(rs, os[0]), os[1..]);
    }
  }

  /** Each entry is in exactly one bucket. */
  lemma {:induction false} BucketsPartition(os: seq<Outcome>)
    ensures CountIn(os, Passed) + CountIn(os, Failed) + CountIn(os, Warned) == |os|
    decreases |os|
  {
    if |os| > 0 {
      BucketsPartition(os[1..]);
    }
  }

  /** Recording `n` entries grows the total by exactly `n`. */
  lemma RecordTotal(rs: ResultSet, os: seq<Outcome>)
    ensures Total(Record(rs, os)) == Total(rs) + |os|
  {
    RecordAppendsPerBucket(rs, os);
    BucketsPartition(os);
  }

  /** Recording two batches one after the other is recording their concatenation. */
  lemma {:induction false} RecordConcat(rs: ResultSet, a: seq<Outcome>, b: seq<Outcome>)
    ensures Record(rs, a + b) == Record(Record(rs, a), b)
    decreases |a|
  {
    if |a| == 0 {
      assert a + b == b;
    } else {
      assert (a + b)[1..] == a[1..] + b;
      RecordConcat(Push(rs, a[0]), a[1..], b);
    }
  }

  /** Splitting the entries splits each bucket's messages the same way. */
  lemma {:induction false} MessagesInConcat(a: seq<Outcome>, b: seq<Outcome>, bk: Bucket)
    ensures MessagesIn(a + b, bk) == MessagesIn(a, bk) + MessagesIn(b, bk)
    decreases |a|
  {
    if |a| == 0 {
      assert a + b == b;
    } else {
      assert (a + b)[1..] == a[1..] + b;
      MessagesInConcat(a[1..], b, bk);
    }
  }

  /** Every entry's message is among its bucket's messages. */
  lemma MessageListed(os: seq<Outcome>, k: nat)
    requires k < |os|
    ensures os[k].message in MessagesIn(os, os[k].bucket)
  {
    assert os == os[..k] + [os[k]] + os[k + 1..];
    MessagesInConcat(os[..k] + [os[k]], os[k + 1..], os[k].bucket);
    MessagesInConcat(os[..k], [os[k]], os[k].bucket);
  }

  /** The four numbers of the console summary. */
  datatype Summary = Summary(total: nat, passed: nat, failed: nat, warnings: nat)

  /** The summary `main` prints: the size of each list and their sum. */
  function Summarize(rs: ResultSet): Summary
  {
    var p := |rs.passed|;
    var f := |rs.failed|;
    var w := |rs.warnings|;
    Summary(p + f + w, p, f, w)
  }

  /** Starting from empty lists, the summary counts are the number of
      entries per bucket, and the total is the number of entries pushed. */
  lemma SummaryOfRecorded(os: seq<Outcome>)
    ensures Summarize(Record(Empty, os)) ==
            Summary(|os|, CountIn(os, Passed), CountIn(os, Failed), CountIn(os, Warned))
  {
    RecordAppendsPerBucket(Empty, os);
    BucketsPartition(os);
  }
}

=== FILE: scanners.dfy ===
/** The per-file scanners the rule groups apply to a file's text: blank
    lines before `return`, over-long lines, the barrel-export
    classification of `export ... from` statements, and the checks on a
    translation file's keys. */
module Scanners {
  import opened Text
  import opened Wrappers
  import Sorting

  // ----- Blank line before `return` -----

  /** Line `i` (0-based) starts, once trimmed, with `return` while the line
      above it is not blank. The first line never qualifies. */
  predicate MissingBlankBeforeReturn(lines: seq<string>, i: int) {
    && 1 <= i < |lines|
    && StartsWith(Trim(lines[i]), "return")
    && Trim(lines[i - 1]) != ""
  }

  /** The positions `n` with `k <= n < stop` at which `p` holds, in
      increasing order: the indices a `forEach` over positions pushes. */
  function Positions(p: nat -> bool, k: nat, stop: nat): (r: seq<nat>)
    ensures forall n :: n in r <==> k <= n < stop && p(n)
    ensures forall a, b :: 0 <= a < b < |r| ==> r[a] < r[b]
    ensures forall a :: 0 <= a < |r| ==> k <= r[a] < stop
    decreases stop - k
  {
    if k >= stop then []
    else
      var rest := Positions(p, k + 1, stop);
      var head := if p(k) then [k] else [];
      assert forall n :: n in head + rest <==> n in head || n in rest;
      head + rest
  }

  /** Line `n` (1-based) is a `return` right below a non-blank line. */
  predicate ReturnIssueAt(lines: seq<string>, n: nat) {
    n >= 1 && MissingBlankBeforeReturn(lines, n - 1)
  }

  function ReturnIssuesFrom(lines: seq<string>, i: nat): (r: seq<nat>)
    requires i >= 1
    ensures forall n :: n in r <==> i + 1 <= n <= |lines| && MissingBlankBeforeReturn(lines, n - 1)
    ensures forall a, b :: 0 <= a < b < |r| ==> r[a] < r[b]
    ensures forall a :: 0 <= a < |r| ==> r[a] > i
  {
    Positions((n: nat) => ReturnIssueAt(lines, n), i + 1, |lines| + 1)
  }

  /** The 1-based numbers of the lines of `content` (split on `\n`) that
      start with `return` right below a non-blank line: exactly those
      lines, in increasing order, never line 1. */
  function ReturnSpacingIssues(content: string): (r: seq<nat>)
    ensures forall n :: n in r <==> n >= 2 && MissingBlankBeforeReturn(Split(content, '\n'), n - 1)
    ensures forall a, b :: 0 <= a < b < |r| ==> r[a] < r[b]
    ensures 1 !in r
  {
    ReturnIssuesFrom(Split(content, '\n'), 1)
  }

  lemma IssuesNonEmptyIff(lines: seq<string>)
    ensures |ReturnIssuesFrom(lines, 1)| > 0 <==> exists i :: MissingBlankBeforeReturn(lines, i)
  {
    hide Trim, StartsWith, Positions;
    var r := ReturnIssuesFrom(lines, 1);
    if |r| > 0 {
      assert r[0] in r;
      assert MissingBlankBeforeReturn(lines, r[0] - 1);
    } else {
      forall i ensures !MissingBlankBeforeReturn(lines, i) {
        assert i + 1 !in r;
      }
    }
  }

  /** A file is flagged exactly when some line is a `return` right below
      a non-blank line. */
  lemma FlaggedIffMissingBlank(content: string)
    ensures |ReturnSpacingIssues(content)| > 0 <==>
            exists i :: MissingBlankBeforeReturn(Split(content, '\n'), i)
  {
    IssuesNonEmptyIff(Split(content, '\n'));
    assert ReturnSpacingIssues(content) == ReturnIssuesFrom(Split(content, '\n'), 1);
  }

  // ----- Long lines -----

  /** `{ lineNumber, length, content }` for one over-long line. */
  datatype LongLine = LongLine(lineNumber: nat, length: nat, content: string)

  /** Line `n` (1-based) of `lines` exists and its `length`, in UTF-16
      code units, exceeds `max`. */
  predicate IsLong(lines: seq<string>, max: nat, n: int) {
    1 <= n <= |lines| && Utf16Length(lines[n - 1]) > max
  }

  /** `e` faithfully describes an over-long line of `lines`. */
  predicate DescribesLongLine(lines: seq<string>, max: nat, e: LongLine) {
    && IsLong(lines, max, e.lineNumber)
    && e.length == Utf16Length(lines[e.lineNumber - 1])
    && e.content == Trim(lines[e.lineNumber - 1])
  }

  /** `r` lists the over-long lines after line `i`, in order. */
  ghost predicate ListsLongLinesAfter(lines: seq<string>, max: nat, i: nat, r: seq<LongLine>) {
    && (forall k :: 0 <= k < |r| ==> DescribesLongLine(lines, max, r[k]) && r[k].lineNumber > i)
    && (forall n :: i < n && IsLong(lines, max, n) ==> exists k :: 0 <= k < |r| && r[k].lineNumber == n)
    && (forall a, b :: 0 <= a < b < |r| ==> r[a].lineNumber < r[b].lineNumber)
  }

  function LongLinesFrom(lines: seq<string>, max: nat, i: nat): (r: seq<LongLine>)
    ensures ListsLongLinesAfter(lines, max, i, r)
    decreases |lines| - i
  {
    if i >= |lines| then []
    else
      var rest := LongLinesFrom(lines, max, i + 1);
      if Utf16Length(lines[i]) > max then
        ConsLongLine(lines, max, i, rest);
        [LongLine(i + 1, Utf16Length(lines[i]), Trim(lines[i]))] + rest
      else
        assert forall n :: i < n && IsLong(lines, max, n) ==> n > i + 1;
        rest
  }

  lemma ConsLongLine(lines: seq<string>, max: nat, i: nat, rest: seq<LongLine>)
    requires i < |lines| && Utf16Length(lines[i]) > max
    requires ListsLongLinesAfter(lines, max, i + 1, rest)
    ensures ListsLongLinesAfter(lines, max, i, [LongLine(i + 1, Utf16Length(lines[i]), Trim(lines[i]))] + rest)
  {
    var e := LongLine(i + 1, Utf16Length(lines[i]), Trim(lines[i]));
    ConsDescribes(lines, max, i, e, rest);
    ConsOrdered(i, e, rest);
    ConsComplete(lines, max, i, e, rest);
  }

  lemma ConsDescribes(lines: seq<string>, max: nat, i: nat, e: LongLine, rest: seq<LongLine>)
    requires DescribesLongLine(lines, max, e) && e.lineNumber == i + 1
    requires forall k :: 0 <= k < |rest| ==> DescribesLongLine(lines, max, rest[k]) && rest[k].lineNumber > i + 1
    ensures forall k :: 0 <= k < |[e] + rest| ==> DescribesLongLine(lines, max, ([e] + rest)[k]) && ([e] + rest)[k].lineNumber > i
  {
    var r := [e] + rest;
    forall k | 0 <= k < |r| ensures DescribesLongLine(lines, max, r[k]) && r[k].lineNumber > i {
      if k > 0 {
        assert r[k] == rest[k - 1];
      }
    }
  }

  lemma ConsOrdered(i: nat, e: LongLine, rest: seq<LongLine>)
    requires e.lineNumber == i + 1
    requires forall k :: 0 <= k < |rest| ==> rest[k].lineNumber > i + 1
    requires forall a, b :: 0 <= a < b < |rest| ==> rest[a].lineNumber < rest[b].lineNumber
    ensures forall a, b :: 0 <= a < b < |[e] + rest| ==> ([e] + rest)[a].lineNumber < ([e] + rest)[b].lineNumber
  {
    var r := [e] + rest;
    forall a, b | 0 <= a < b < |r| ensures r[a].lineNumber < r[b].lineNumber {
      assert r[b] == rest[b - 1];
      if a > 0 {
        assert r[a] == rest[a - 1];
      }
    }
  }

  lemma ConsComplete(lines: seq<string>, max: nat, i: nat, e: LongLine, rest: seq<LongLine>)
    requires e.lineNumber == i + 1
    requires forall n :: i + 1 < n && IsLong(lines, max, n) ==> exists k :: 0 <= k < |rest| && rest[k].lineNumber == n
    ensures forall n :: i < n && IsLong(lines, max, n) ==> exists k :: 0 <= k < |[e] + rest| && ([e] + rest)[k].lineNumber == n
  {
    var r := [e] + rest;
    forall n | i < n && IsLong(lines, max, n) ensures exists k :: 0 <= k < |r| && r[k].lineNumber == n {
      if n == i + 1 {
        assert r[0].lineNumber == n;
      } else {
        var k :| 0 <= k < |rest| && rest[k].lineNumber == n;
        assert r[k + 1].lineNumber == n;
      }
    }
  }

  /** The over-long lines of `content`: one entry per line longer than
      `max`, numbered from 1, in file order, and nothing else. */
  function LongLines(content: string, max: nat): (r: seq<LongLine>)
    ensures ListsLongLinesAfter(Split(content, '\n'), max, 0, r)
  {
    LongLinesFrom(Split(content, '\n'), max, 0)
  }

  /** The entries name distinct lines, so their number is the number of
      over-long lines. */
  lemma LongLineCountIsLineCount(content: string, max: nat)
    ensures |LongLines(content, max)| == |set n | 1 <= n <= |Split(content, '\n')| && IsLong(Split(content, '\n'), max, n)|
  {
    var lines := Split(content, '\n');
    var r := LongLines(content, max);
    var numbers := set k | 0 <= k < |r| :: r[k].lineNumber;
    var long := set n | 1 <= n <= |lines| && IsLong(lines, max, n);
    assert numbers == long;
    DistinctImageSize(r);
  }

  lemma {:induction false} DistinctImageSize(r: seq<LongLine>)
    requires forall a, b :: 0 <= a < b < |r| ==> r[a].lineNumber < r[b].lineNumber
    ensures |set k | 0 <= k < |r| :: r[k].lineNumber| == |r|
    decreases |r|
  {
    if |r| > 0 {
      var init := r[..|r| - 1];
      DistinctImageSize(init);
      var s := set k | 0 <= k < |init| :: init[k].lineNumber;
      assert (set k | 0 <= k < |r| :: r[k].lineNumber) == s + {r[|r| - 1].lineNumber};
      assert r[|r| - 1].lineNumber !in s;
    }
  }

  // ----- Barrel exports -----

  /** `s[i..j+1]` is a brace group `{...}`: at least one character between
      the braces, none of them `}`. */
  predicate GroupAt(s: string, i: int, j: int) {
    0 <= i && i + 1 < j < |s| && s[i] == '{' && s[j] == '}' && '}' !in s[i + 1..j]
  }

  predicate HasGroupAt(s: string, i: int) {
    exists j :: i + 1 < j < |s| && GroupAt(s, i, j)
  }

  function GroupFrom(s: string, i: nat): (r: Option<(nat, nat)>)
    ensures r.Some? ==> i <= r.value.0 && GroupAt(s, r.value.0, r.value.1)
    ensures forall a :: i <= a < |s| && (r.None? || a < r.value.0) ==> !HasGroupAt(s, a)
    decreases |s| - i
  {
    if i >= |s| then None
    else if s[i] == '{' && '}' in s[i + 1..] && IndexOf(s[i + 1..], '}') > 0 then
      Some((i, i + 1 + IndexOf(s[i + 1..], '}')))
    else
      assert !HasGroupAt(s, i) by {
        if s[i] == '{' && '}' in s[i + 1..] {
          assert s[i + 1] == '}';
          forall j | i + 1 < j < |s| ensures !GroupAt(s, i, j) {
            assert s[i + 1..j][0] == '}';
          }
        } else if s[i] == '{' {
          forall j | i + 1 < j < |s| ensures !GroupAt(s, i, j) {
            assert s[j] == s[i + 1..][j - i - 1];
          }
        }
      }
      GroupFrom(s, i + 1)
  }

  /** `s.match(/{([^}]+)}/)?.[1]`: the text inside the leftmost brace group. */
  function BraceGroup(s: string): (r: Option<string>)
    ensures r.None? <==> forall i :: 0 <= i < |s| ==> !HasGroupAt(s, i)
    ensures r.Some? ==> |r.value| > 0 && '}' !in r.value && Contains(s, "{" + r.value + "}")
    ensures r.Some? ==> exists i, j :: GroupAt(s, i, j) && r.value == s[i + 1..j] &&
                                      forall a :: 0 <= a < i ==> !HasGroupAt(s, a)
  {
    match GroupFrom(s, 0)
    case None => None
    case Some((i, j)) =>
      assert s[i..j + 1] == "{" + s[i + 1..j] + "}";
      assert OccursAt(s, "{" + s[i + 1..j] + "}", i);
      assert HasGroupAt(s, i);
      Some(s[i + 1..j])
  }

  /** The names of `a, b, c`: the comma-separated pieces that are not blank. */
  function NonBlankPieces(pieces: seq<string>): (r: seq<string>)
    ensures forall k :: 0 <= k < |r| ==> Trim(r[k]) != "" && r[k] in pieces
    ensures forall p :: p in pieces && Trim(p) != "" ==> p in r
    ensures |r| <= |pieces|
  {
    hide Trim;
    if |pieces| == 0 then []
    else
      assert pieces == [pieces[0]] + pieces[1..];
      (if Trim(pieces[0]) != "" then [pieces[0]] else []) + NonBlankPieces(pieces[1..])
  }

  /** Each non-blank piece is kept as often as it occurs, each blank one
      never. */
  lemma {:induction false} NonBlankPiecesCounts(pieces: seq<string>)
    ensures forall p :: multiset(NonBlankPieces(pieces))[p] == if Trim(p) != "" then multiset(pieces)[p] else 0
    decreases |pieces|
  {
    hide Trim;
    if |pieces| > 0 {
      NonBlankPiecesCounts(pieces[1..]);
      assert pieces == [pieces[0]] + pieces[1..];
      var head := if Trim(pieces[0]) != "" then [pieces[0]] else [];
      assert NonBlankPieces(pieces) == head + NonBlankPieces(pieces[1..]);
      assert multiset(pieces) == multiset([pieces[0]]) + multiset(pieces[1..]);
    }
  }

  /** Number of identifiers inside a brace group, as
      `group.trim().split(',').filter(s => s.trim()).length`. */
  function IdentifierCount(group: string): nat
  {
    var ids := Trim(group);
    if ids == "" then 0 else |NonBlankPieces(Split(ids, ','))|
  }

  /** What the export-from statements of one file re-export. */
  datatype BarrelExports = BarrelExports(wildcard: bool, identifiers: nat)

  /** The identifiers one non-wildcard statement contributes. */
  function StatementIdentifiers(m: string): nat {
    match BraceGroup(m)
    case None => 0
    case Some(g) => IdentifierCount(g)
  }

  /** What one statement adds to the identifier count: nothing for a
      wildcard statement, its brace group's names otherwise. */
  function Named(m: string): nat {
    if '*' in m then 0 else StatementIdentifiers(m)
  }

  /** The names the non-wildcard statements re-export, summed from the
      last statement back. */
  function NamedIdentifiers(matches: seq<string>): nat {
    if |matches| == 0 then 0 else NamedIdentifiers(matches[..|matches| - 1]) + Named(matches[|matches| - 1])
  }

  /** Summing from the front gives the same total. */
  lemma {:induction false} NamedIdentifiersCons(m: string, ms: seq<string>)
    ensures NamedIdentifiers([m] + ms) == Named(m) + NamedIdentifiers(ms)
    decreases |ms|
  {
    hide Named;
    if |ms| > 0 {
      var init := ms[..|ms| - 1];
      NamedIdentifiersCons(m, init);
      assert ([m] + ms)[..|ms|] == [m] + init;
    } else {
      assert [m] + ms == [m];
      assert [m][..0] == [];
    }
  }

  /** The `forEach` over a file's export-from matches. */
  function ClassifyExports(matches: seq<string>): (r: BarrelExports)
    ensures r.wildcard <==> exists k :: 0 <= k < |matches| && '*' in matches[k]
  {
    if |matches| == 0 then BarrelExports(false, 0)
    else
      var rest := ClassifyExports(matches[1..]);
      assert rest.wildcard ==> exists k :: 1 <= k < |matches| && '*' in matches[k] by {
        if rest.wildcard {
          var k :| 0 <= k < |matches[1..]| && '*' in matches[1..][k];
          assert matches[k + 1] == matches[1..][k];
        }
      }
      if '*' in matches[0] then BarrelExports(true, rest.identifiers)
      else BarrelExports(rest.wildcard, StatementIdentifiers(matches[0]) + rest.identifiers)
  }

  /** The identifier count is exactly the sum over the file's non-wildcard
      statements. */
  lemma {:induction false} ClassifyExportsCountsNames(matches: seq<string>)
    ensures ClassifyExports(matches).identifiers == NamedIdentifiers(matches)
    decreases |matches|
  {
    hide StatementIdentifiers;
    if |matches| > 0 {
      ClassifyExportsCountsNames(matches[1..]);
      NamedIdentifiersCons(matches[0], matches[1..]);
      assert [matches[0]] + matches[1..] == matches;
    }
  }

  /** Every non-wildcard statement's names are part of the count. */
  lemma {:induction false} ClassifyExportsCountsEach(matches: seq<string>, k: nat)
    requires k < |matches| && '*' !in matches[k]
    ensures StatementIdentifiers(matches[k]) <= ClassifyExports(matches).identifiers
    decreases |matches|
  {
    hide StatementIdentifiers;
    if k > 0 {
      ClassifyExportsCountsEach(matches[1..], k - 1);
      assert matches[1..][k - 1] == matches[k];
    }
  }

  /** A file is flagged when it re-exports everything or more than one name. */
  predicate Offends(b: BarrelExports) {
    b.wildcard || b.identifiers > 1
  }

  /** The `(exports ...)` detail of a flagged file. */
  function ExportDetails(b: BarrelExports): string {
    var parts := (if b.wildcard then ["a wildcard (`*`) export"] else [])
                 + (if b.identifiers > 1 then [NatToString(b.identifiers) + " identifiers"] else []);
    Join(parts, " and ")
  }

  /** A file is flagged exactly when one of its statements re-exports
      everything or its other statements name more than one identifier
      between them. */
  lemma OffendsIff(matches: seq<string>)
    ensures Offends(ClassifyExports(matches)) <==>
              (exists k :: 0 <= k < |matches| && '*' in matches[k]) || NamedIdentifiers(matches) > 1
  {
    ClassifyExportsCountsNames(matches);
  }

  /** A wildcard re-export always flags its file, whatever else it exports. */
  lemma WildcardOffends(matches: seq<string>, k: nat)
    requires k < |matches| && '*' in matches[k]
    ensures Offends(ClassifyExports(matches))
  {
  }

  /** Two non-wildcard statements naming at least one identifier each flag
      the file. */
  lemma TwoNamedReexportsOffend(matches: seq<string>, a: nat, b: nat)
    requires a < b < |matches|
    requires '*' !in matches[a] && '*' !in matches[b]
    requires StatementIdentifiers(matches[a]) >= 1 && StatementIdentifiers(matches[b]) >= 1
    ensures Offends(ClassifyExports(matches))
  {
    SumCoversPair(matches, a, b);
  }

  lemma {:induction false} SumCoversPair(matches: seq<string>, a: nat, b: nat)
    requires a < b < |matches|
    requires '*' !in matches[a] && '*' !in matches[b]
    ensures ClassifyExports(matches).identifiers >= StatementIdentifiers(matches[a]) + StatementIdentifiers(matches[b])
    decreases |matches|
  {
    hide StatementIdentifiers;
    if a > 0 {
      SumCoversPair(matches[1..], a - 1, b - 1);
    } else {
      ClassifyExportsCountsEach(matches[1..], b - 1);
      assert matches[1..][b - 1] == matches[b];
    }
  }

  /** A plain identifier: non-empty, no whitespace, and none of the
      characters that delimit or widen a re-export. */
  predicate PlainIdentifier(name: string) {
    && |name| > 0
    && forall k :: 0 <= k < |name| ==> !IsWhitespace(name[k]) && name[k] !in ",{}*"
  }

  /** The statement `export { name } from 'from'`. */
  function NamedReexport(name: string, from: string): string {
    "export { " + name + " } from '" + from + "'"
  }

  /** A lone `export { name } from '...'` is a single re-export and is not
      flagged. */
  lemma SingleNamedReexportIsAllowed(name: string, from: string)
    requires PlainIdentifier(name) && '*' !in from
    ensures !Offends(ClassifyExports([NamedReexport(name, from)]))
  {
    var m := NamedReexport(name, from);
    NamedReexportGroup(name, from);
    PaddedIdentifier(name);
    assert StatementIdentifiers(m) == 1;
    NamedReexportHasNoWildcard(name, from);
    assert ClassifyExports([m]) == BarrelExports(false, 1);
  }

  lemma NamedReexportHasNoWildcard(name: string, from: string)
    requires PlainIdentifier(name) && '*' !in from
    ensures '*' !in NamedReexport(name, from)
  {
    var m := NamedReexport(name, from);
    forall k | 0 <= k < |m| ensures m[k] != '*' {
      if k < 9 {
        assert m[k] == "export { "[k];
      } else if k < 9 + |name| {
        assert m[k] == name[k - 9];
      } else if k < 18 + |name| {
        assert m[k] == " } from '"[k - 9 - |name|];
      } else if k < 18 + |name| + |from| {
        assert m[k] == from[k - 18 - |name|];
      }
    }
  }

  lemma NamedReexportGroup(name: string, from: string)
    requires PlainIdentifier(name)
    ensures BraceGroup(NamedReexport(name, from)) == Some(" " + name + " ")
  {
    hide GroupFrom, IndexOf;
    var m := NamedReexport(name, from);
    var j := 10 + |name|;
    assert m[..9] == "export { " && m[9..9 + |name|] == name;
    assert m[7] == '{' && m[j] == '}';
    assert m[8..j] == " " + name + " " by {
      assert m[8..j] == m[8..9] + m[9..9 + |name|] + m[9 + |name|..j];
      assert m[8..9] == " " && m[9 + |name|..j] == " ";
    }
    assert '}' !in " " + name + " ";
    GroupFromAt(m, 7, j);
    assert forall p :: 0 <= p < 7 ==> m[p] == "export { "[p];
    GroupFromSkips(m, 0, 7);
  }

  lemma PaddedIdentifier(name: string)
    requires PlainIdentifier(name)
    ensures IdentifierCount(" " + name + " ") == 1
  {
    var g := " " + name + " ";
    assert g[1..] == name + " ";
    assert LeadingWhitespace(g[1..]) == 0;
    assert LeadingWhitespace(g) == 1;
    var t := g[1..];
    assert t[..|t| - 1] == name;
    assert TrailingWhitespace(name) == 0;
    assert TrailingWhitespace(t) == 1;
    assert Trim(g) == name;
    assert ',' !in name;
    assert Split(name, ',') == [name];
    assert LeadingWhitespace(name) == 0;
    assert Trim(name) == name;
    assert NonBlankPieces([name]) == [name];
  }

  /** The scan finds a group that starts right where it is. */
  lemma GroupFromAt(s: string, i: nat, j: nat)
    requires GroupAt(s, i, j)
    ensures GroupFrom(s, i) == Some((i, j))
  {
    var t := s[i + 1..];
    assert t[j - i - 1] == s[j];
    var k := IndexOf(t, '}');
    assert k <= j - i - 1;
    assert s[i + 1..j] == t[..j - i - 1];
  }

  /** Positions without `{` are passed over. */
  lemma {:induction false} GroupFromSkips(s: string, k: nat, i: nat)
    requires k <= i <= |s|
    requires forall p :: k <= p < i ==> s[p] != '{'
    ensures GroupFrom(s, k) == GroupFrom(s, i)
    decreases i - k
  {
    if k < i {
      GroupFromSkips(s, k + 1, i);
    }
  }

  // ----- Translation files -----

  /** A value of a parsed translation object, as far as
      `value.includes('{{count}}')` can tell: a string, an array, or
      anything else, on which `includes` throws the given `TypeError`. */
  datatype JsonValue = JString(s: string) | JArray(items: seq<JsonValue>) | JOther(typeError: string)

  /** A translation file after `JSON.parse` and `Object.keys`: either the
      exception either of them throws, or the key/value pairs in key order. */
  datatype TranslationDoc = Unparsable(error: string) | Parsed(entries: seq<(string, JsonValue)>)

  /** `value.includes('{{count}}')` for a string or an array. */
  predicate HasCountPlaceholder(v: JsonValue)
    requires !v.JOther?
  {
    match v
    case JString(s) => Contains(s, "{{count}}")
    case JArray(items) => JString("{{count}}") in items
  }

  /** The plural-key rule is broken by `key` with value `v`. */
  predicate PluralViolation(key: string, v: JsonValue) {
    !v.JOther? && HasCountPlaceholder(v) && !EndsWith(key, "_plural")
  }

  /** Position of the first value on which `includes` throws, if any. */
  function FirstThrowing(es: seq<(string, JsonValue)>, k: nat): (r: Option<nat>)
    ensures r.Some? ==> k <= r.value < |es| && es[r.value].1.JOther?
    ensures forall i :: k <= i < |es| && (r.None? || i < r.value) ==> !es[i].1.JOther?
    decreases |es| - k
  {
    if k >= |es| then None
    else if es[k].1.JOther? then Some(k)
    else FirstThrowing(es, k + 1)
  }

  /** The index up to which the `forEach` over the keys runs. */
  function ScanEnd(es: seq<(string, JsonValue)>): (n: nat)
    ensures n <= |es|
    ensures forall i :: 0 <= i < n ==> !es[i].1.JOther?
    ensures n < |es| ==> es[n].1.JOther?
  {
    match FirstThrowing(es, 0)
    case None => |es|
    case Some(i) => i
  }

  function PluralIssuesFrom(es: seq<(string, JsonValue)>, k: nat, stop: nat): (r: seq<nat>)
    requires stop <= |es|
    ensures forall i :: i in r <==> k <= i < stop && PluralViolation(es[i].0, es[i].1)
    ensures forall a, b :: 0 <= a < b < |r| ==> r[a] < r[b]
    ensures forall a :: 0 <= a < |r| ==> k <= r[a] < stop
  {
    Positions((i: nat) => i < |es| && PluralViolation(es[i].0, es[i].1), k, stop)
  }

  function KeysAt(es: seq<(string, JsonValue)>, idx: seq<nat>): (r: seq<string>)
    requires forall a :: 0 <= a < |idx| ==> idx[a] < |es|
    ensures |r| == |idx| && forall a :: 0 <= a < |idx| ==> r[a] == es[idx[a]].0
  {
    if |idx| == 0 then [] else [es[idx[0]].0] + KeysAt(es, idx[1..])
  }

  function Keys(es: seq<(string, JsonValue)>): (r: seq<string>)
    ensures |r| == |es| && forall a :: 0 <= a < |es| ==> r[a] == es[a].0
  {
    if |es| == 0 then [] else [es[0].0] + Keys(es[1..])
  }

  /** `JSON.stringify(keys) !== JSON.stringify(sortedKeys)` with the
      `localeCompare` order `lt`. */
  function Unsorted(lt: (string, string) -> bool, keys: seq<string>): bool {
    Sorting.SortBy(keys, Sorting.NotAfter(lt)) != keys
  }

  /** The keys the `forEach` reports before it stops. */
  function PluralKeys(es: seq<(string, JsonValue)>): seq<string> {
    KeysAt(es, PluralIssuesFrom(es, 0, ScanEnd(es)))
  }

  /** The message of the exception that ends the `forEach`, if one does. */
  function ScanError(es: seq<(string, JsonValue)>): (r: Option<string>)
    ensures r.Some? <==> exists i :: 0 <= i < |es| && es[i].1.JOther?
    ensures r.Some? ==> exists i :: 0 <= i < |es| && es[i].1.JOther? && r.value == es[i].1.typeError &&
                                    forall j :: 0 <= j < i ==> !es[j].1.JOther?
  {
    match FirstThrowing(es, 0)
    case None => None
    case Some(i) => Some(es[i].1.typeError)
  }

  /** What one translation file contributes: whether its keys are out of
      order, the keys breaking the plural rule (in key order), and the
      message of the exception that cut the scan short, if any. */
  datatype TranslationScan = TranslationScan(unsorted: bool, pluralKeys: seq<string>, error: Option<string>)

  /** The body of the `try` in the translation check for one file; `lt` is
      the `localeCompare` order. Keys reported before a value that makes
      `includes` throw are kept. */
  function ScanTranslation(lt: (string, string) -> bool, doc: TranslationDoc): TranslationScan
  {
    match doc
    case Unparsable(e) => TranslationScan(false, [], Some(e))
    case Parsed(es) => TranslationScan(Unsorted(lt, Keys(es)), PluralKeys(es), ScanError(es))
  }

  /** No value before position `i` makes `includes` throw. */
  predicate RunsPast(es: seq<(string, JsonValue)>, i: int) {
    forall j :: 0 <= j < i && j < |es| ==> !es[j].1.JOther?
  }

  /** `idx` lists, in increasing order, exactly the positions whose key
      breaks the plural rule and that no earlier throwing value hides. */
  ghost predicate ReportedPositions(es: seq<(string, JsonValue)>, idx: seq<nat>) {
    && (forall a, b :: 0 <= a < b < |idx| ==> idx[a] < idx[b])
    && (forall a :: 0 <= a < |idx| ==> idx[a] < |es|)
    && (forall i :: i in idx <==> 0 <= i < |es| && PluralViolation(es[i].0, es[i].1) && RunsPast(es, i))
  }

  /** A key is reported exactly when its value mentions `{{count}}` and the
      key does not end in `_plural`, provided no earlier value made the scan
      throw; reported keys keep the object's key order. */
  lemma PluralKeysExact(es: seq<(string, JsonValue)>)
    ensures exists idx :: ReportedPositions(es, idx) && PluralKeys(es) == KeysAt(es, idx)
  {
    var idx := PluralIssuesFrom(es, 0, ScanEnd(es));
    forall i ensures i in idx <==> 0 <= i < |es| && PluralViolation(es[i].0, es[i].1) && RunsPast(es, i) {
      ReportedBeforeStop(es, i);
    }
    assert ReportedPositions(es, idx);
  }

  lemma ReportedBeforeStop(es: seq<(string, JsonValue)>, i: int)
    ensures i in PluralIssuesFrom(es, 0, ScanEnd(es)) <==>
            0 <= i < |es| && PluralViolation(es[i].0, es[i].1) && RunsPast(es, i)
  {
    hide HasCountPlaceholder, EndsWith;
    var stop := ScanEnd(es);
    if 0 <= i < |es| && PluralViolation(es[i].0, es[i].1) && RunsPast(es, i) {
      assert stop < |es| ==> es[stop].1.JOther?;
    }
  }

  /** Some key is reported exactly when some key breaks the plural rule
      before any value makes the scan throw. */
  lemma PluralKeysNonEmptyIff(es: seq<(string, JsonValue)>)
    ensures |PluralKeys(es)| > 0 <==>
            exists i :: 0 <= i < |es| && PluralViolation(es[i].0, es[i].1) && RunsPast(es, i)
  {
    var idx := PluralIssuesFrom(es, 0, ScanEnd(es));
    if |idx| > 0 {
      ReportedBeforeStop(es, idx[0]);
    } else {
      forall i | 0 <= i < |es| ensures !(PluralViolation(es[i].0, es[i].1) && RunsPast(es, i)) {
        ReportedBeforeStop(es, i);
      }
    }
  }

  /** Under a strict total collation a file is reported unsorted exactly when
      some key collates before a key preceding it. */
  lemma UnsortedIffKeyInversion(lt: (string, string) -> bool, es: seq<(string, JsonValue)>)
    requires Sorting.StrictTotalOrder(lt)
    ensures Unsorted(lt, Keys(es)) <==> exists i, j :: 0 <= i < j < |es| && lt(es[j].0, es[i].0)
  {
    var keys := Keys(es);
    Sorting.UnsortedIffInversion(keys, lt);
    assert forall i, j :: 0 <= i < j < |es| ==> keys[i] == es[i].0 && keys[j] == es[j].0;
  }
}

=== FILE: security_rules.dfy ===
/** `checkSecurityRules`: type-only imports, secrets in `console.log`, and
    inline scripts in HTML and EJS pages. */
module SecurityRules {
  import opened Text
  import opened FileTree
  import opened Tally
  import opened Results
  import opened Checks

  // The messages this group pushes.
  const NoTypeImports := "No type imports found. Consider using them."
  const TypeImportsUsed := "Using type imports for better type safety."
  const NoSecretLogs := "No sensitive data logging detected."
  const SecretLogsFound := " potential sensitive data logs."
  const SecureLogsAdvice := " Remove or secure these logs."
  const NoInlineScripts := "No inline scripts found."
  const InlineScriptsFound := " inline scripts."
  const ExternalFilesAdvice := " Move to external files.\n"

  predicate UsesTypeImports(v: Visit) {
    IsScript(Path(v)) && Contains(v.content, "import type ")
  }

  /** A script that calls `console.log(` and mentions a password, token or
      secret anywhere in the file. */
  predicate LogsSecrets(v: Visit) {
    IsScript(Path(v)) && Contains(v.content, "console.log(") &&
    (Contains(v.content, "password") || Contains(v.content, "token") || Contains(v.content, "secret"))
  }

  /** Warns when no script uses `import type`. */
  function TypeImportCheck(vs: seq<Visit>): (o: Outcome)
    ensures o.bucket == Warned <==> forall i :: 0 <= i < |vs| ==> !UsesTypeImports(vs[i])
    ensures o.bucket == Warned ==> o.message == NoTypeImports
    ensures o.bucket != Warned ==> o == Outcome(Passed, TypeImportsUsed)
  {
    SumPositiveIff(vs, Indicator(UsesTypeImports));
    Check(Sum(vs, Indicator(UsesTypeImports)) == 0, Warned, NoTypeImports, TypeImportsUsed)
  }

  /** `  - ${file}` per file. */
  function Bullets(files: seq<string>): (r: seq<string>)
    ensures |r| == |files| && forall k :: 0 <= k < |files| ==> r[k] == "  - " + files[k]
  {
    if |files| == 0 then [] else ["  - " + files[0]] + Bullets(files[1..])
  }

  /** Fails when some script may log a secret: the number of such files,
      then one bullet per file. */
  function SensitiveLogCheck(vs: seq<Visit>): (o: Outcome)
    ensures o.bucket == Failed <==> exists i :: 0 <= i < |vs| && LogsSecrets(vs[i])
    ensures o.bucket != Failed ==> o == Outcome(Passed, NoSecretLogs)
    ensures o.bucket == Failed ==>
              StartsWith(o.message, "Found " + Num(|Select(vs, LogsSecrets)|) + SecretLogsFound) &&
              EndsWith(o.message, "\n" + Lines(Bullets(FilesWhere(vs, LogsSecrets))))
  {
    var count := |Select(vs, LogsSecrets)|;
    SelectEmptyIff(vs, LogsSecrets);
    var head := "Found " + Num(count) + SecretLogsFound;
    assert (head + SecureLogsAdvice)[..|head|] == head;
    FileListCheck(count > 0, Failed, head + SecureLogsAdvice, Bullets(FilesWhere(vs, LogsSecrets)), NoSecretLogs)
  }

  // ----- Inline scripts -----

  /** A `<script>` block or `on...=` handler that counts as inline: it has
      no `src=` and is not an empty `<script></script>`. */
  predicate IsInline(s: string) {
    !Contains(s, "src=") && s != "<script></script>"
  }

  /** The `filter` over the matches, in order. */
  function InlineOnly(ss: seq<string>): (r: seq<string>)
    ensures |r| <= |ss|
    ensures forall s :: s in r <==> s in ss && IsInline(s)
  {
    if |ss| == 0 then []
    else (if IsInline(ss[0]) then [ss[0]] else []) + InlineOnly(ss[1..])
  }

  /** The inline script blocks and event handlers of a page. */
  function InlineScripts(m: Matchers, v: Visit): seq<string> {
    if IsMarkup(Path(v)) then InlineOnly(m.scriptBlocks(v.content) + m.eventHandlers(v.content)) else []
  }

  function InlineCount(m: Matchers, v: Visit): nat {
    |InlineScripts(m, v)|
  }

  function InlineCounts(m: Matchers): Visit -> nat {
    v => InlineCount(m, v)
  }

  /** A file counts exactly when it is a page with a script block or event
      handler that is inline. */
  lemma InlineCountPositiveIff(m: Matchers, v: Visit)
    ensures InlineCount(m, v) > 0 <==>
              IsMarkup(Path(v)) &&
              exists s :: s in m.scriptBlocks(v.content) + m.eventHandlers(v.content) && IsInline(s)
  {
    var r := InlineScripts(m, v);
    if |r| > 0 {
      assert r[0] in r;
    }
  }

  /** `\n  - ${file}: ${count} inline script(s)` per page, concatenated. */
  function InlineDetails(entries: seq<(string, nat)>): (r: string)
    ensures |entries| == 0 ==> r == ""
  {
    if |entries| == 0 then ""
    else "\n  - " + entries[0].0 + ": " + Num(entries[0].1) + " inline script(s)" + InlineDetails(entries[1..])
  }

  /** Warns when some page has an inline script, with the total and a
      per-page count. */
  function InlineScriptCheck(m: Matchers, vs: seq<Visit>): (o: Outcome)
    ensures o.bucket == Warned <==> exists i :: 0 <= i < |vs| && InlineCount(m, vs[i]) > 0
    ensures o.bucket != Warned ==> o == Outcome(Passed, NoInlineScripts)
    ensures o.bucket == Warned ==> StartsWith(o.message, "Found " + Num(Sum(vs, InlineCounts(m))) + InlineScriptsFound)
  {
    var total := Sum(vs, InlineCounts(m));
    SumPositiveIff(vs, InlineCounts(m));
    var head := "Found " + Num(total) + InlineScriptsFound;
    var rest := ExternalFilesAdvice + InlineDetails(PerFile(vs, Counted(InlineCounts(m))));
    assert (head + rest)[..|head|] == head;
    Check(total > 0, Warned, head + rest, NoInlineScripts)
  }

  /** The entries in push order. */
  function SecurityChecks(m: Matchers, vs: seq<Visit>): (os: seq<Outcome>)
    ensures |os| == 3
  {
    [TypeImportCheck(vs), SensitiveLogCheck(vs), InlineScriptCheck(m, vs)]
  }
}

=== FILE: sorting.dfy ===
/** `Array.prototype.sort` with a comparison function, modelled as a stable
    insertion sort over an ordering relation, together with the
    locale-independent view of `localeCompare` as a strict total order on
    strings. */
module Sorting {

  /** `lt(a, b)` means `a.localeCompare(b) < 0`. The model assumes the
      collation is a strict total order: `localeCompare` is 0 only for
      identical strings. */
  ghost predicate StrictTotalOrder(lt: (string, string) -> bool) {
    && (forall a :: !lt(a, a))
    && (forall a, b, c :: lt(a, b) && lt(b, c) ==> lt(a, c))
    && (forall a, b :: a != b ==> lt(a, b) || lt(b, a))
  }

  /** `lt(a, b)` means a comparator returns a negative number for `a, b`:
      irreflexive, transitive, and with transitive incomparability. */
  ghost predicate StrictWeakOrder<T(!new)>(lt: (T, T) -> bool) {
    && (forall a :: !lt(a, a))
    && (forall a, b, c :: lt(a, b) && lt(b, c) ==> lt(a, c))
    && (forall a, b, c :: lt(a, c) ==> lt(a, b) || lt(b, c))
  }

  /** `le(a, b)` means the comparator places `a` no later than `b`. */
  ghost predicate TotalPreorder<T(!new)>(le: (T, T) -> bool) {
    && (forall a, b :: le(a, b) || le(b, a))
    && (forall a, b, c :: le(a, b) && le(b, c) ==> le(a, c))
  }

  predicate SortedBy<T>(xs: seq<T>, le: (T, T) -> bool) {
    forall i, j :: 0 <= i < j < |xs| ==> le(xs[i], xs[j])
  }

  /** Inserts `x` before the first element it may precede, so that it stays
      ahead of the elements it compares equal to. */
  function Insert<T>(x: T, ys: seq<T>, le: (T, T) -> bool): (r: seq<T>)
    ensures multiset(r) == multiset(ys) + multiset{x}
    ensures |r| == |ys| + 1
  {
    if |ys| == 0 || le(x, ys[0]) then [x] + ys
    else
      assert ys == [ys[0]] + ys[1..];
      [ys[0]] + Insert(x, ys[1..], le)
  }

  lemma {:induction false} InsertSorted<T(!new)>(x: T, ys: seq<T>, le: (T, T) -> bool)
    requires TotalPreorder(le)
    requires SortedBy(ys, le)
    ensures SortedBy(Insert(x, ys, le), le)
    decreases |ys|
  {
    if |ys| == 0 || le(x, ys[0]) {
      var r := [x] + ys;
      forall i, j | 0 <= i < j < |r| ensures le(r[i], r[j]) {
        if i == 0 {
          assert le(ys[0], r[j]);
        }
      }
    } else {
      InsertSorted(x, ys[1..], le);
      var tail := Insert(x, ys[1..], le);
      var r := [ys[0]] + tail;
      assert le(ys[0], x);
      forall j | 0 <= j < |tail| ensures le(ys[0], tail[j]) {
        assert tail[j] in multiset(tail);
        assert tail[j] in multiset(ys[1..]) || tail[j] == x;
        if tail[j] != x {
          var k :| 0 <= k < |ys[1..]| && ys[1..][k] == tail[j];
          assert ys[k + 1] == tail[j];
        }
      }
      forall i, j | 0 <= i < j < |r| ensures le(r[i], r[j]) {
        if i == 0 {
          assert r[j] == tail[j - 1];
        } else {
          assert r[i] == tail[i - 1] && r[j] == tail[j - 1];
        }
      }
    }
  }

  /** The stable sorted copy `[...xs].sort(cmp)`. It is a permutation for
      any comparator, and sorted when the comparator orders consistently. */
  function SortBy<T(!new)>(xs: seq<T>, le: (T, T) -> bool): (r: seq<T>)
    ensures multiset(r) == multiset(xs)
    ensures TotalPreorder(le) ==> SortedBy(r, le)
    ensures SortedBy(xs, le) ==> r == xs
  {
    if |xs| == 0 then []
    else
      var rest := SortBy(xs[1..], le);
      InsertSortedWhenPreorder(xs[0], rest, le);
      assert xs == [xs[0]] + xs[1..];
      assert SortedBy(xs, le) ==> SortedBy(xs[1..], le);
      Insert(xs[0], rest, le)
  }

  lemma InsertSortedWhenPreorder<T(!new)>(x: T, ys: seq<T>, le: (T, T) -> bool)
    ensures TotalPreorder(le) && SortedBy(ys, le) ==> SortedBy(Insert(x, ys, le), le)
  {
    if TotalPreorder(le) && SortedBy(ys, le) {
      InsertSorted(x, ys, le);
    }
  }

  /** A list equals its sorted copy exactly when it is already sorted: the
      comparison `JSON.stringify(keys) !== JSON.stringify(sortedKeys)`
      detects an out-of-order pair and nothing else. */
  lemma SortedCopyUnchangedIffSorted<T(!new)>(xs: seq<T>, le: (T, T) -> bool)
    requires TotalPreorder(le)
    ensures SortBy(xs, le) == xs <==> SortedBy(xs, le)
  {
  }

  /** The placement order a comparator induces: `a` may stay ahead of `b`
      unless the comparator puts `b` strictly first. */
  function NotAfter<T>(lt: (T, T) -> bool): (le: (T, T) -> bool)
  {
    (a: T, b: T) => !lt(b, a)
  }

  lemma NotAfterIsTotalPreorder<T(!new)>(lt: (T, T) -> bool)
    requires StrictWeakOrder(lt)
    ensures TotalPreorder(NotAfter(lt))
  {
  }

  /** A strict total order on strings is in particular a strict weak order. */
  lemma {:induction false} TotalIsWeak(lt: (string, string) -> bool)
    requires StrictTotalOrder(lt)
    ensures StrictWeakOrder(lt)
  {
    forall a, b, c | lt(a, c) ensures lt(a, b) || lt(b, c) {
      if b != a && b != c && !lt(a, b) {
        assert lt(b, a);
      }
    }
  }

  /** Under a strict total order a key list is out of order exactly when some
      later key collates strictly before an earlier one. */
  lemma UnsortedIffInversion(keys: seq<string>, lt: (string, string) -> bool)
    requires StrictTotalOrder(lt)
    ensures SortBy(keys, NotAfter(lt)) != keys <==>
            exists i, j :: 0 <= i < j < |keys| && lt(keys[j], keys[i])
  {
    TotalIsWeak(lt);
    NotAfterIsTotalPreorder(lt);
    SortedCopyUnchangedIffSorted(keys, NotAfter(lt));
  }
}

=== FILE: state_rules.dfy ===
/** `checkStateManagementRules`: Redux among the merged dependencies. */
module StateRules {
  import opened Wrappers
  import opened Results
  import opened Manifest

  // The messages this group pushes.
  const NoRedux := "No Redux dependencies found."
  const ReduxDetected := "Redux detected. Global state should be avoided."

  /** The group's entries, or `None` when `JSON.parse` throws on
      `package.json`: nothing catches that exception, so the run stops. A
      missing manifest adds nothing. */
  function StateChecks(manifest: ManifestFile): (r: Option<seq<Outcome>>)
    ensures r.None? <==> manifest.Malformed?
    ensures manifest.NoManifest? ==> r == Some([])
    ensures manifest.Present? ==> r.Some? && |r.value| == 1
    ensures manifest.Present? ==> (r.value[0].bucket == Failed <==> UsesRedux(manifest.pkg))
    ensures manifest.Present? && r.value[0].bucket != Failed ==> r.value[0] == Outcome(Passed, NoRedux)
  {
    match manifest
    case NoManifest => Some([])
    case Malformed => None
    case Present(pkg) =>
      Some([Check(UsesRedux(pkg), Failed, ReduxDetected, NoRedux)])
  }

  /** The check fails exactly when a Redux package has a truthy version in
      `devDependencies`, or is absent there and truthy in `dependencies`. */
  lemma StateFailsIff(pkg: PackageJson)
    ensures StateChecks(Present(pkg)).value[0].bucket == Failed <==>
            exists name :: name in ["react-redux", "@reduxjs/toolkit"] &&
              (if name in pkg.devDependencies then pkg.devDependencies[name] != ""
               else Declares(pkg.dependencies, name))
  {
    UsesReduxIff(pkg);
  }
}

=== FILE: style_rules.dfy ===
/** `checkStyleRules`: CSS Modules, hardcoded colours, `!important`, and
    the blank-line-before-`return` check that `checkCodeStyleRules` repeats. */
module StyleRules {
  import opened Text
  import opened Wrappers
  import opened FileTree
  import opened Tally
  import opened Results
  import opened Checks
  import Scanners

  // The messages this group pushes.
  const CssModulesUsed := "CSS Modules are being used."
  const NoCssModules := "No CSS Modules found. Should be using CSS Modules."
  const HardcodedColorsFound := " hardcoded colors. Use design tokens/variables."
  const NoHardcodedColors := "No hardcoded colors found."
  const ImportantsFound := " !important declarations. Consider refactoring CSS specificity.\n"
  const NoImportants := "No !important declarations found. Good CSS specificity."
  const MissingBlankLines := "Found missing blank lines before return statements in these files:\n"
  const ProperReturnSpacing := "Found proper spacing before return statements."

  predicate IsModuleSheet(v: Visit) {
    IsCssModule(Path(v))
  }

  /** Passes when some file is a `.module.css` or `.module.scss` sheet. */
  function CssModuleCheck(vs: seq<Visit>): (o: Outcome)
    ensures o.bucket == Passed <==> exists i :: 0 <= i < |vs| && IsCssModule(Path(vs[i]))
    ensures o.bucket == Passed ==> o.message == CssModulesUsed
    ensures o.bucket != Passed ==> o == Outcome(Failed, NoCssModules)
  {
    var count := Sum(vs, Indicator(IsModuleSheet));
    SumPositiveIff(vs, Indicator(IsModuleSheet));
    Check(count == 0, Failed, NoCssModules, CssModulesUsed)
  }

  /** Colour literals in style sheets and React sources. */
  function ColorCount(m: Matchers, v: Visit): nat {
    if IsStyleSheet(Path(v)) || IsReactSource(Path(v)) then m.colors(v.content) else 0
  }

  function Colors(m: Matchers): Visit -> nat {
    v => ColorCount(m, v)
  }

  /** Fails when some style sheet or React source holds a colour literal,
      listing those files. */
  function HardcodedColorCheck(m: Matchers, vs: seq<Visit>): (o: Outcome)
    ensures o.bucket == Failed <==> exists i :: 0 <= i < |vs| && ColorCount(m, vs[i]) > 0
    ensures o.bucket != Failed ==> o == Outcome(Passed, NoHardcodedColors)
    ensures o.bucket == Failed ==>
              StartsWith(o.message, "Found " + Num(Sum(vs, Colors(m)))) &&
              EndsWith(o.message, "\n" + Lines(FilesWhere(vs, Contributes(Colors(m)))))
  {
    ListCheck(vs, Colors(m), Failed, "Found ", HardcodedColorsFound, NoHardcodedColors)
  }

  /** `!important` declarations in a style sheet. */
  function ImportantCount(v: Visit): nat {
    if IsStyleSheet(Path(v)) then CountOccurrences(v.content, "!important") else 0
  }

  /** Warns when some style sheet declares `!important`, with a per-file
      count. */
  function ImportantCheck(vs: seq<Visit>): (o: Outcome)
    ensures o.bucket == Warned <==>
              exists i :: 0 <= i < |vs| && IsStyleSheet(Path(vs[i])) && Contains(vs[i].content, "!important")
    ensures o.bucket != Warned ==> o == Outcome(Passed, NoImportants)
    ensures o.bucket == Warned ==> StartsWith(o.message, "Found " + Num(Sum(vs, ImportantCount)) + ImportantsFound)
    ensures o.bucket == Warned && DistinctPaths(vs) ==>
              forall i :: 0 <= i < |vs| && ImportantCount(vs[i]) > 0 ==>
                Contains(o.message, DetailLine(Path(vs[i]), ImportantCount(vs[i]), "declarations"))
  {
    var total := Sum(vs, ImportantCount);
    SumPositiveIff(vs, ImportantCount);
    var head := "Found " + Num(total) + ImportantsFound;
    CountDetailsNameEachFile(vs, ImportantCount, "declarations", head, "");
    assert head + CountDetails(vs, ImportantCount, "declarations") + "" == head + CountDetails(vs, ImportantCount, "declarations");
    Check(total > 0, Warned, head + CountDetails(vs, ImportantCount, "declarations"), NoImportants)
  }

  // ----- Blank line before `return` -----

  /** A script with a `return` line right below a non-blank line. */
  predicate HasReturnIssue(v: Visit) {
    IsScript(Path(v)) && |Scanners.ReturnSpacingIssues(v.content)| > 0
  }

  /** The flagged line numbers of a script file, when there are any. */
  function ReturnIssues(v: Visit): (r: Option<seq<nat>>)
    ensures r.Some? <==> HasReturnIssue(v)
  {
    if HasReturnIssue(v) then Some(Scanners.ReturnSpacingIssues(v.content)) else None
  }

  function NumList(ns: seq<nat>): (r: seq<string>)
    ensures |r| == |ns| && forall k :: 0 <= k < |ns| ==> r[k] == Num(ns[k])
  {
    if |ns| == 0 then [] else [Num(ns[0])] + NumList(ns[1..])
  }

  /** `  ${file}:\n    Lines: ${lines.join(', ')}`: the entry of one file. */
  function IssueLine(file: string, ns: seq<nat>): string {
    "  " + file + ":\n    Lines: " + Join(NumList(ns), ", ")
  }

  /** The entries of the per-file map, in map order. */
  function IssueLines(m: seq<(string, seq<nat>)>): seq<string> {
    seq(|m|, k requires 0 <= k < |m| => IssueLine(m[k].0, m[k].1))
  }

  /** Warns when some script has a `return` line right below a non-blank
      line, naming each such file with its line numbers. */
  function ReturnSpacingCheck(vs: seq<Visit>): (o: Outcome)
    ensures o.bucket == Warned <==> exists i :: 0 <= i < |vs| && HasReturnIssue(vs[i])
    ensures o.bucket != Warned ==> o == Outcome(Passed, ProperReturnSpacing)
    ensures o.bucket == Warned ==> StartsWith(o.message, MissingBlankLines)
  {
    hide IssueLines, Lines, HasReturnIssue;
    var issues := PerFile(vs, ReturnIssues);
    PerFileEmptyIff(vs, ReturnIssues);
    assert (MissingBlankLines + Lines(IssueLines(issues)))[..|MissingBlankLines|] == MissingBlankLines;
    Check(|issues| > 0, Warned,
          MissingBlankLines + Lines(IssueLines(issues)), ProperReturnSpacing)
  }

  /** When no two visits share a path, the warning has the entry of every
      script with a `return` right below a non-blank line, listing exactly
      the numbers of those lines. */
  lemma ReturnSpacingCheckNamesEachFile(vs: seq<Visit>)
    ensures ReturnSpacingCheck(vs).bucket == Warned && DistinctPaths(vs) ==>
              forall i :: 0 <= i < |vs| && HasReturnIssue(vs[i]) ==>
                Contains(ReturnSpacingCheck(vs).message, IssueLine(Path(vs[i]), Scanners.ReturnSpacingIssues(vs[i].content)))
  {
    hide IssueLine, HasReturnIssue, Scanners.ReturnSpacingIssues;
    var issues := PerFile(vs, ReturnIssues);
    var ls := IssueLines(issues);
    if ReturnSpacingCheck(vs).bucket == Warned && DistinctPaths(vs) {
      assert ReturnSpacingCheck(vs).message == MissingBlankLines + Lines(ls);
      forall i | 0 <= i < |vs| && HasReturnIssue(vs[i])
        ensures Contains(MissingBlankLines + Lines(ls) + "", IssueLine(Path(vs[i]), Scanners.ReturnSpacingIssues(vs[i].content)))
      {
        assert ReturnIssues(vs[i]) == Some(Scanners.ReturnSpacingIssues(vs[i].content));
        PerFileHolds(vs, ReturnIssues, i);
        var k :| 0 <= k < |issues| && issues[k] == (Path(vs[i]), Scanners.ReturnSpacingIssues(vs[i].content));
        assert ls[k] == IssueLine(Path(vs[i]), Scanners.ReturnSpacingIssues(vs[i].content));
        JoinContains(ls, "\n", k);
        ContainsWithin(MissingBlankLines, Lines(ls), "", ls[k]);
      }
      assert MissingBlankLines + Lines(ls) + "" == MissingBlankLines + Lines(ls);
    }
  }

  /** The entries in push order. */
  function StyleChecks(m: Matchers, vs: seq<Visit>): (os: seq<Outcome>)
    ensures |os| == 4
  {
    [CssModuleCheck(vs), HardcodedColorCheck(m, vs), ImportantCheck(vs), ReturnSpacingCheck(vs)]
  }
}

=== FILE: styles_import.dfy ===
/** `check-athena-styles-import.js`: when the project depends on athena-ui
    31 or later, some source file must import the library's style sheet,
    else the script exits with 1. */
module StylesImport {
  import opened Text
  import opened Wrappers
  import opened FileTree
  import Manifest

  const PackageName := "@simpplr/athena-ui"
  const ImportStatement := "import '@simpplr/athena-ui/style';"

  // ----- Version lookup and normalisation -----

  predicate IsVersionChar(c: char) {
    IsDigit(c) || c == '.'
  }

  predicate AllVersionChars(s: string) {
    forall k :: 0 <= k < |s| ==> IsVersionChar(s[k])
  }

  /** `version.replace(/[^0-9.]/g, '')`: the digits and dots of `v`, in order. */
  function Normalize(v: string): (r: string)
    ensures AllVersionChars(r)
    ensures |r| <= |v|
    ensures AllVersionChars(v) ==> r == v
    ensures forall k :: 0 <= k < |r| ==> r[k] in v
  {
    if |v| == 0 then ""
    else
      var rest := Normalize(v[1..]);
      assert forall k :: 0 <= k < |rest| ==> rest[k] in v;
      if IsVersionChar(v[0]) then [v[0]] + rest else rest
  }

  /** Normalising twice changes nothing. */
  lemma NormalizeIdempotent(v: string)
    ensures Normalize(Normalize(v)) == Normalize(v)
  {
  }

  /** Normalisation only deletes: every digit and dot of the input is kept,
      as often as it occurs, and nothing else is. */
  lemma {:induction false} NormalizeKeepsExactlyVersionChars(v: string)
    ensures forall c :: multiset(Normalize(v))[c] == if IsVersionChar(c) then multiset(v)[c] else 0
    decreases |v|
  {
    if |v| > 0 {
      NormalizeKeepsExactlyVersionChars(v[1..]);
      assert v == [v[0]] + v[1..];
      assert multiset(v) == multiset([v[0]]) + multiset(v[1..]);
    }
  }

  /** `getAthenaUiVersion()` once `package.json` has been read: the first
      truthy declaration, normalised. */
  function AthenaVersion(pkg: Manifest.PackageJson): Option<string> {
    match Manifest.DeclaredVersion(pkg, PackageName)
    case None => None
    case Some(v) => Some(Normalize(v))
  }

  // ----- The version gate -----

  /** The text before the first `.` (all of it when there is none): the
      first element of `version.split('.')`. */
  function MajorPiece(v: string): (r: string)
    ensures StartsWith(v, r) && '.' !in r
    ensures |r| < |v| ==> v[|r|] == '.'
  {
    var parts := Split(v, '.');
    SplitFirstPiece(v, '.');
    parts[0]
  }

  /** `isVersionGte31(version)` on a normalised version: `Number` of the
      text before the first dot, with the empty text as 0, is at least 31. */
  predicate IsVersionGte31(v: string)
    requires AllVersionChars(v)
  {
    var piece := MajorPiece(v);
    assert AllDigits(piece) by {
      forall k | 0 <= k < |piece| ensures IsDigit(piece[k]) {
        assert piece[k] == v[k];
      }
    }
    ParseDecimal(piece) >= 31
  }

  /** The gate reads exactly the digits before the first dot: for a
      version `m.rest`, it is open iff `m` is at least 31. */
  lemma GateReadsMajor(m: string, rest: string)
    requires AllDigits(m) && AllVersionChars(rest)
    ensures AllVersionChars(m + "." + rest)
    ensures IsVersionGte31(m + "." + rest) <==> ParseDecimal(m) >= 31
  {
    var v := m + "." + rest;
    var r := MajorPiece(v);
    assert v[|m|] == '.' && v[..|m|] == m;
  }

  /** A version without a dot is all major. */
  lemma GateReadsWholeVersion(m: string)
    requires AllDigits(m)
    ensures IsVersionGte31(m) <==> ParseDecimal(m) >= 31
  {
    var r := MajorPiece(m);
  }

  /** A leading dot or no digits before the first dot means major 0, so
      the gate stays closed. */
  lemma EmptyMajorIsBelow31(v: string)
    requires AllVersionChars(v) && (|v| == 0 || v[0] == '.')
    ensures !IsVersionGte31(v)
  {
  }

  // ----- The import search -----

  /** How `findImportStatement` ends: it returns true or false, or it throws
      because a listing or a `statSync` failed on the way. */
  datatype SearchOutcome = Found | NotFound | Crashed

  predicate IsSourceName(name: string) {
    EndsWith(name, ".js") || EndsWith(name, ".ts") || EndsWith(name, ".jsx") || EndsWith(name, ".tsx")
  }

  /** Directories the search never enters. */
  predicate IsSkippedDir(name: string) {
    name == "node_modules" || name == "dist"
  }

  /** `findImportStatement(dir)` over a directory's listing. */
  function SearchListing(l: Listing): SearchOutcome
    decreases l
  {
    match l
    case Unlistable => Crashed
    case Listed(es) => SearchEntries(es, 0)
  }

  /** The `for` loop from entry `k` on; it stops at the first hit. A
      regular file is read only when its name has a source extension. */
  function SearchEntries(es: seq<Node>, k: nat): SearchOutcome
    decreases es, |es| - k
  {
    if k >= |es| then NotFound
    else match es[k]
      case Unstatable(_) => Crashed
      case Special(_) => SearchEntries(es, k + 1)
      case File(name, content, _) =>
        if IsSourceName(name) && Contains(content, ImportStatement) then Found
        else SearchEntries(es, k + 1)
      case Dir(name, l) =>
        if IsSkippedDir(name) then SearchEntries(es, k + 1)
        else match SearchListing(l)
          case Found => Found
          case Crashed => Crashed
          case NotFound => SearchEntries(es, k + 1)
  }

  /** Some source file outside `node_modules` and `dist` directories holds
      the import, found without the search. */
  predicate ListingHasImport(l: Listing)
    decreases l
  {
    l.Listed? && exists i :: 0 <= i < |l.entries| && NodeHasImport(l.entries[i])
  }

  predicate NodeHasImport(n: Node)
    decreases n
  {
    match n
    case File(name, content, _) => IsSourceName(name) && Contains(content, ImportStatement)
    case Dir(name, l) => !IsSkippedDir(name) && ListingHasImport(l)
    case _ => false
  }

  /** Nothing the search can reach fails: every listing succeeds and every
      entry can be stat'ed. */
  predicate ListingSound(l: Listing)
    decreases l
  {
    l.Listed? && forall i :: 0 <= i < |l.entries| ==> NodeSound(l.entries[i])
  }

  predicate NodeSound(n: Node)
    decreases n
  {
    match n
    case Unstatable(_) => false
    case Dir(name, l) => IsSkippedDir(name) || ListingSound(l)
    case _ => true
  }

  /** A reported hit is a real one, whatever else the tree holds. */
  lemma {:induction false} FoundIsSound(l: Listing)
    ensures SearchListing(l) == Found ==> ListingHasImport(l)
    decreases l
  {
    if l.Listed? {
      FoundEntriesIsSound(l.entries, 0);
    }
  }

  lemma {:induction false} FoundEntriesIsSound(es: seq<Node>, k: nat)
    ensures SearchEntries(es, k) == Found ==> exists i :: k <= i < |es| && NodeHasImport(es[i])
    decreases es, |es| - k
  {
    if k < |es| {
      FoundEntriesIsSound(es, k + 1);
      if es[k].Dir? && !IsSkippedDir(es[k].name) {
        FoundIsSound(es[k].listing);
      }
    }
  }

  /** On a tree where nothing fails, the search finds the import exactly
      when some source file outside `node_modules` and `dist` holds it. */
  lemma {:induction false} SearchExact(l: Listing)
    requires ListingSound(l)
    ensures SearchListing(l) != Crashed
    ensures SearchListing(l) == Found <==> ListingHasImport(l)
    decreases l
  {
    SearchEntriesExact(l.entries, 0);
  }

  lemma {:induction false} SearchEntriesExact(es: seq<Node>, k: nat)
    requires forall i :: 0 <= i < |es| ==> NodeSound(es[i])
    ensures SearchEntries(es, k) != Crashed
    ensures SearchEntries(es, k) == Found <==> exists i :: k <= i < |es| && NodeHasImport(es[i])
    decreases es, |es| - k
  {
    if k < |es| {
      SearchEntriesExact(es, k + 1);
      if es[k].Dir? && !IsSkippedDir(es[k].name) {
        SearchExact(es[k].listing);
      }
      if exists i :: k <= i < |es| && NodeHasImport(es[i]) {
        var i :| k <= i < |es| && NodeHasImport(es[i]);
        if i > k {
          assert k + 1 <= i;
        }
      }
    }
  }

  // ----- The exit decision -----

  /** The script's exit status: a missing or malformed `package.json` ends
      it with 1; no version, or one that normalises to nothing, passes; a
      version below 31 passes; otherwise it passes only when the search
      finds the import. `tree` is the working directory's listing. */
  function ExitCode(manifest: Manifest.ManifestFile, tree: Listing): nat
  {
    match manifest
    case NoManifest => 1
    case Malformed => 1
    case Present(pkg) =>
      match AthenaVersion(pkg)
      case None => 0
      case Some(v) =>
        if v == "" then 0
        else if IsVersionGte31(v) && SearchListing(tree) != Found then 1
        else 0
  }

  /** With a readable `package.json`, the script fails exactly when the
      normalised version is non-empty, its major is at least 31, and the
      search does not find the import. */
  lemma ExitFailsIff(pkg: Manifest.PackageJson, tree: Listing)
    ensures ExitCode(Manifest.Present(pkg), tree) == 1 <==>
            exists v :: AthenaVersion(pkg) == Some(v) && v != "" && IsVersionGte31(v) &&
                        SearchListing(tree) != Found
    ensures ExitCode(Manifest.Present(pkg), tree) in {0, 1}
  {
  }

  /** On a tree the search can walk without failing, the script fails
      exactly when the gate is open and no source file holds the import. */
  lemma ExitOnSoundTree(pkg: Manifest.PackageJson, tree: Listing)
    requires ListingSound(tree)
    ensures ExitCode(Manifest.Present(pkg), tree) == 1 <==>
            exists v :: AthenaVersion(pkg) == Some(v) && v != "" && IsVersionGte31(v) &&
                        !ListingHasImport(tree)
  {
    SearchExact(tree);
  }

  /** A project that does not depend on athena-ui passes. */
  lemma NoDependencyPasses(pkg: Manifest.PackageJson, tree: Listing)
    requires forall i :: 0 <= i < 3 ==> !Manifest.Declares(Manifest.Sections(pkg)[i], PackageName)
    ensures ExitCode(Manifest.Present(pkg), tree) == 0
  {
  }
}

=== FILE: tally.dfy ===
/** The accumulators a rule group keeps while walking: a running total, a
    `Set` of file paths, and a `Map` from file path to a per-file value,
    each fed by the callback once per visited file, in walk order. */
module Tally {
  import opened Wrappers
  import opened FileTree

  /** `total += f(file)` over the visited files. */
  function Sum(vs: seq<Visit>, f: Visit -> nat): nat
  {
    if |vs| == 0 then 0 else Sum(vs[..|vs| - 1], f) + f(vs[|vs| - 1])
  }

  /** The total is positive exactly when some file contributes. */
  lemma {:induction false} SumPositiveIff(vs: seq<Visit>, f: Visit -> nat)
    ensures Sum(vs, f) > 0 <==> exists i :: 0 <= i < |vs| && f(vs[i]) > 0
    decreases |vs|
  {
    if |vs| > 0 {
      var init := vs[..|vs| - 1];
      SumPositiveIff(init, f);
      if exists i :: 0 <= i < |init| && f(init[i]) > 0 {
        var i :| 0 <= i < |init| && f(init[i]) > 0;
        assert vs[i] == init[i];
      }
      if exists i :: 0 <= i < |vs| && f(vs[i]) > 0 {
        var i :| 0 <= i < |vs| && f(vs[i]) > 0;
        if i < |init| {
          assert init[i] == vs[i];
        }
      }
    }
  }

  /** Appending a file adds its contribution. */
  lemma SumSnoc(vs: seq<Visit>, v: Visit, f: Visit -> nat)
    ensures Sum(vs + [v], f) == Sum(vs, f) + f(v)
  {
    assert (vs + [v])[..|vs|] == vs;
  }

  /** The total over a concatenation of walks is the sum of the totals. */
  lemma {:induction false} SumConcat(a: seq<Visit>, b: seq<Visit>, f: Visit -> nat)
    ensures Sum(a + b, f) == Sum(a, f) + Sum(b, f)
    decreases |b|
  {
    if |b| == 0 {
      assert a + b == a;
    } else {
      var init := b[..|b| - 1];
      SumConcat(a, init, f);
      assert (a + b)[..|a + b| - 1] == a + init;
    }
  }

  /** `set.add(x)` on an insertion-ordered set. */
  function SetAdd(s: seq<string>, x: string): seq<string> {
    if x in s then s else s + [x]
  }

  predicate Distinct<T(==)>(s: seq<T>) {
    forall a, b :: 0 <= a < b < |s| ==> s[a] != s[b]
  }

  /** No two visits share a path, as in a walk of a real file system. */
  predicate DistinctPaths(vs: seq<Visit>) {
    forall a, b :: 0 <= a < b < |vs| ==> Path(vs[a]) != Path(vs[b])
  }

  /** The paths of the visited files for which `hit` holds, each once, in
      the order of their first hit: the `Set` a group fills with
      `locations.add(relativePath)`. */
  function FilesWhere(vs: seq<Visit>, hit: Visit -> bool): (r: seq<string>)
    ensures Distinct(r)
    ensures forall p :: p in r <==> exists i :: 0 <= i < |vs| && hit(vs[i]) && Path(vs[i]) == p
  {
    if |vs| == 0 then []
    else
      var init := vs[..|vs| - 1];
      var last := vs[|vs| - 1];
      var s := FilesWhere(init, hit);
      assert forall i :: 0 <= i < |init| ==> vs[i] == init[i];
      if hit(last) then SetAdd(s, Path(last)) else s
  }

  /** Two tests that agree on every visited file collect the same paths. */
  lemma {:induction false} FilesWhereAgree(vs: seq<Visit>, f: Visit -> bool, g: Visit -> bool)
    requires forall i :: 0 <= i < |vs| ==> f(vs[i]) == g(vs[i])
    ensures FilesWhere(vs, f) == FilesWhere(vs, g)
    decreases |vs|
  {
    if |vs| > 0 {
      var init := vs[..|vs| - 1];
      assert forall i :: 0 <= i < |init| ==> init[i] == vs[i];
      FilesWhereAgree(init, f, g);
    }
  }

  /** The keys of an insertion-ordered map, in order. */
  function KeysOf<V>(m: seq<(string, V)>): (r: seq<string>)
    ensures |r| == |m| && forall i :: 0 <= i < |m| ==> r[i] == m[i].0
  {
    if |m| == 0 then [] else [m[0].0] + KeysOf(m[1..])
  }

  /** `map.set(key, value)` on an insertion-ordered map: an existing key
      keeps its place and takes the new value. */
  function MapSet<V>(m: seq<(string, V)>, k: string, v: V): (r: seq<(string, V)>)
    ensures forall key :: key in KeysOf(r) <==> key == k || key in KeysOf(m)
  {
    if |m| == 0 then [(k, v)]
    else if m[0].0 == k then
      var r := [(k, v)] + m[1..];
      assert KeysOf(r) == KeysOf(m);
      r
    else
      var rest := MapSet(m[1..], k, v);
      assert KeysOf([m[0]] + rest) == [m[0].0] + KeysOf(rest);
      assert KeysOf(m) == [m[0].0] + KeysOf(m[1..]);
      [m[0]] + rest
  }

  /** Setting a key never duplicates one, and every entry afterwards is the
      new one or was there before. */
  lemma {:induction false} MapSetEntries<V>(m: seq<(string, V)>, k: string, v: V)
    ensures DistinctKeys(m) ==> DistinctKeys(MapSet(m, k, v))
    ensures forall j :: 0 <= j < |MapSet(m, k, v)| ==> MapSet(m, k, v)[j] == (k, v) || MapSet(m, k, v)[j] in m
    decreases |m|
  {
    var r := MapSet(m, k, v);
    if |m| > 0 {
      if m[0].0 == k {
        assert forall j :: 1 <= j < |r| ==> r[j] == m[j];
      } else {
        var rest := MapSet(m[1..], k, v);
        MapSetEntries(m[1..], k, v);
        assert r == [m[0]] + rest;
        assert forall j :: 1 <= j < |r| ==> r[j] == rest[j - 1];
        assert forall j :: 0 <= j < |m[1..]| ==> m[1..][j] == m[j + 1];
        if DistinctKeys(m) {
          assert DistinctKeys(m[1..]);
          assert m[0].0 !in KeysOf(m[1..]) by {
            forall j | 0 <= j < |m[1..]| ensures KeysOf(m[1..])[j] != m[0].0 {
              assert m[1..][j] == m[j + 1];
            }
          }
          forall a, b | 0 <= a < b < |r| ensures r[a].0 != r[b].0 {
            if a == 0 {
              assert r[b].0 == KeysOf(rest)[b - 1];
            }
          }
        }
      }
    }
  }

  /** No key occurs twice. */
  predicate DistinctKeys<V>(m: seq<(string, V)>) {
    forall a, b :: 0 <= a < b < |m| ==> m[a].0 != m[b].0
  }

  /** The `Map` a group fills with `map.set(relativePath, value)` for the
      files where `entry` yields a value. */
  function PerFile<V>(vs: seq<Visit>, entry: Visit -> Option<V>): (r: seq<(string, V)>)
    ensures forall p :: p in KeysOf(r) <==> exists i :: 0 <= i < |vs| && entry(vs[i]).Some? && Path(vs[i]) == p
  {
    if |vs| == 0 then []
    else
      var init := vs[..|vs| - 1];
      var last := vs[|vs| - 1];
      var m := PerFile(init, entry);
      assert forall i :: 0 <= i < |init| ==> vs[i] == init[i];
      match entry(last)
      case None => m
      case Some(x) => MapSet(m, Path(last), x)
  }

  /** Each file has at most one entry in the map. */
  lemma {:induction false} PerFileKeysDistinct<V>(vs: seq<Visit>, entry: Visit -> Option<V>)
    ensures DistinctKeys(PerFile(vs, entry))
    decreases |vs|
  {
    if |vs| > 0 {
      var init := vs[..|vs| - 1];
      PerFileKeysDistinct(init, entry);
      var last := vs[|vs| - 1];
      if entry(last).Some? {
        MapSetEntries(PerFile(init, entry), Path(last), entry(last).value);
      }
    }
  }

  /** Every entry holds the value some visited file with that path yielded. */
  lemma {:induction false} PerFileEntriesAreReal<V>(vs: seq<Visit>, entry: Visit -> Option<V>)
    ensures forall j :: 0 <= j < |PerFile(vs, entry)| ==>
              exists i :: 0 <= i < |vs| && Path(vs[i]) == PerFile(vs, entry)[j].0 && entry(vs[i]) == Some(PerFile(vs, entry)[j].1)
    decreases |vs|
  {
    hide Path;
    if |vs| > 0 {
      var init := vs[..|vs| - 1];
      var last := vs[|vs| - 1];
      var m := PerFile(init, entry);
      PerFileEntriesAreReal(init, entry);
      if entry(last).Some? {
        MapSetEntries(m, Path(last), entry(last).value);
      }
      var r := PerFile(vs, entry);
      assert r == if entry(last).Some? then MapSet(m, Path(last), entry(last).value) else m;
      forall j | 0 <= j < |r|
        ensures exists i :: 0 <= i < |vs| && Path(vs[i]) == r[j].0 && entry(vs[i]) == Some(r[j].1)
      {
        if entry(last).Some? && r[j] == (Path(last), entry(last).value) {
          assert Path(vs[|vs| - 1]) == r[j].0 && entry(vs[|vs| - 1]) == Some(r[j].1);
        } else {
          assert r[j] in m;
          var k :| 0 <= k < |m| && m[k] == r[j];
          var i :| 0 <= i < |init| && Path(init[i]) == m[k].0 && entry(init[i]) == Some(m[k].1);
          assert vs[i] == init[i];
        }
      }
    } else {
      assert PerFile(vs, entry) == [];
    }
  }

  /** When no two visits share a path, each file that yields a value is in
      the map with that value. */
  lemma PerFileHolds<V>(vs: seq<Visit>, entry: Visit -> Option<V>, i: nat)
    requires DistinctPaths(vs) && i < |vs| && entry(vs[i]).Some?
    ensures (Path(vs[i]), entry(vs[i]).value) in PerFile(vs, entry)
  {
    PerFileEntriesAreReal(vs, entry);
    var r := PerFile(vs, entry);
    assert Path(vs[i]) in KeysOf(r);
    var j :| 0 <= j < |r| && KeysOf(r)[j] == Path(vs[i]);
    var i' :| 0 <= i' < |vs| && Path(vs[i']) == r[j].0 && entry(vs[i']) == Some(r[j].1);
    assert i' == i;
    assert r[j] == (Path(vs[i]), entry(vs[i]).value);
  }

  /** The map is empty exactly when no file yields a value. */
  lemma PerFileEmptyIff<V>(vs: seq<Visit>, entry: Visit -> Option<V>)
    ensures |PerFile(vs, entry)| == 0 <==> forall i :: 0 <= i < |vs| ==> entry(vs[i]).None?
  {
    var r := PerFile(vs, entry);
    if |r| > 0 {
      assert KeysOf(r)[0] in KeysOf(r);
    }
    if exists i :: 0 <= i < |vs| && entry(vs[i]).Some? {
      var i :| 0 <= i < |vs| && entry(vs[i]).Some?;
      assert Path(vs[i]) in KeysOf(r);
    }
  }

  /** The set is empty exactly when no file hits. */
  lemma FilesWhereEmptyIff(vs: seq<Visit>, hit: Visit -> bool)
    ensures |FilesWhere(vs, hit)| == 0 <==> forall i :: 0 <= i < |vs| ==> !hit(vs[i])
  {
    var r := FilesWhere(vs, hit);
    if |r| > 0 {
      assert r[0] in r;
    }
    if exists i :: 0 <= i < |vs| && hit(vs[i]) {
      var i :| 0 <= i < |vs| && hit(vs[i]);
      assert Path(vs[i]) in r;
    }
  }

  /** The visited files for which `keep` holds, in order: an array a group
      fills with `push`. */
  function Select(vs: seq<Visit>, keep: Visit -> bool): (r: seq<Visit>)
    ensures |r| <= |vs|
    ensures forall v :: v in r <==> v in vs && keep(v)
  {
    if |vs| == 0 then []
    else (if keep(vs[0]) then [vs[0]] else []) + Select(vs[1..], keep)
  }

  /** The selection is empty exactly when no file is kept. */
  lemma SelectEmptyIff(vs: seq<Visit>, keep: Visit -> bool)
    ensures |Select(vs, keep)| == 0 <==> forall i :: 0 <= i < |vs| ==> !keep(vs[i])
  {
    var r := Select(vs, keep);
    if |r| > 0 {
      assert r[0] in r;
    }
    if exists i :: 0 <= i < |vs| && keep(vs[i]) {
      var i :| 0 <= i < |vs| && keep(vs[i]);
      assert vs[i] in r;
    }
  }
}

=== FILE: testing_rules.dfy ===
/** `checkTestingRules`: `.toBeInTheDocument()` and assertions against
    translation keys in test files. */
module TestingRules {
  import opened Text
  import opened FileTree
  import opened Tally
  import opened Results
  import opened Checks

  predicate UsesToBeInTheDocument(v: Visit) {
    IsTest(Path(v)) && Contains(v.content, ".toBeInTheDocument()")
  }

  predicate AssertsTranslationKey(m: Matchers, v: Visit) {
    IsTest(Path(v)) && m.translationKeyAssertion(v.content)
  }

  function TranslationKeyAssertions(m: Matchers): Visit -> bool {
    v => AssertsTranslationKey(m, v)
  }

  /** `Files:\n- a\n- b`: the file set as a bulleted list. */
  function FileBullets(files: seq<string>): string {
    "Files:\n- " + Join(files, "\n- ")
  }

  const DocumentAssertionHeadline := "Found .toBeInTheDocument() in tests. Prefer .toBeVisible().\n"
  const NoDocumentAssertions := "No .toBeInTheDocument() usage found."

  /** Warns when some test file uses `.toBeInTheDocument()`, listing those
      files. */
  function DocumentAssertionCheck(vs: seq<Visit>): (o: Outcome)
    ensures o.bucket == Warned <==> exists i :: 0 <= i < |vs| && UsesToBeInTheDocument(vs[i])
    ensures o.bucket != Warned ==> o == Outcome(Passed, NoDocumentAssertions)
    ensures o.bucket == Warned ==> o.message == DocumentAssertionHeadline + FileBullets(FilesWhere(vs, UsesToBeInTheDocument))
  {
    var files := FilesWhere(vs, UsesToBeInTheDocument);
    FilesWhereEmptyIff(vs, UsesToBeInTheDocument);
    Check(|files| > 0, Warned, DocumentAssertionHeadline + FileBullets(files), NoDocumentAssertions)
  }

  const KeyAssertionHeadline := "Found tests asserting against translation keys. Assert against rendered text instead.\n"
  const NoKeyAssertions := "No tests found asserting against translation keys."

  /** Warns when some test file asserts against a `t(...)` call, listing
      those files. */
  function TranslationKeyCheck(m: Matchers, vs: seq<Visit>): (o: Outcome)
    ensures o.bucket == Warned <==> exists i :: 0 <= i < |vs| && AssertsTranslationKey(m, vs[i])
    ensures o.bucket != Warned ==> o == Outcome(Passed, NoKeyAssertions)
    ensures o.bucket == Warned ==> o.message == KeyAssertionHeadline + FileBullets(FilesWhere(vs, TranslationKeyAssertions(m)))
  {
    var files := FilesWhere(vs, TranslationKeyAssertions(m));
    FilesWhereEmptyIff(vs, TranslationKeyAssertions(m));
    Check(|files| > 0, Warned, KeyAssertionHeadline + FileBullets(files), NoKeyAssertions)
  }

  /** The entries in push order. */
  function TestingChecks(m: Matchers, vs: seq<Visit>): (os: seq<Outcome>)
    ensures |os| == 2
  {
    [DocumentAssertionCheck(vs), TranslationKeyCheck(m, vs)]
  }

  /** Only test files are read: a project without them passes both checks,
      whatever its other files contain. */
  lemma WithoutTestsPasses(m: Matchers, vs: seq<Visit>)
    requires forall i :: 0 <= i < |vs| ==> !IsTest(Path(vs[i]))
    ensures DocumentAssertionCheck(vs).bucket == Passed
    ensures TranslationKeyCheck(m, vs).bucket == Passed
  {
  }
}

=== FILE: text.dfy ===
/** String helpers with the JavaScript semantics the scripts rely on:
    `trim`, `startsWith`/`endsWith`/`includes`, `split` on one character,
    `join`, literal global-match counting, and decimal rendering and
    parsing of natural numbers. */
module Text {

  /** The characters `String.prototype.trim` removes: the WhiteSpace and
      LineTerminator productions of ECMA-262. */
  predicate IsWhitespace(c: char) {
    || c == ' ' || c == '\t' || c == '\n' || c == '\r' || c == '\U{B}' || c == '\U{C}'
    || c == '\U{A0}' || c == '\U{1680}' || ('\U{2000}' <= c <= '\U{200A}')
    || c == '\U{2028}' || c == '\U{2029}' || c == '\U{202F}' || c == '\U{205F}'
    || c == '\U{3000}' || c == '\U{FEFF}'
  }

  /** The characters that `.` in a JavaScript regular expression does not match. */
  predicate IsLineTerminator(c: char) {
    c == '\n' || c == '\r' || c == '\U{2028}' || c == '\U{2029}'
  }

  predicate IsDigit(c: char) {
    '0' <= c <= '9'
  }

  predicate AllWhitespace(s: string) {
    forall i :: 0 <= i < |s| ==> IsWhitespace(s[i])
  }

  predicate AllDigits(s: string) {
    forall i :: 0 <= i < |s| ==> IsDigit(s[i])
  }

  predicate NoLineTerminator(s: string) {
    forall i :: 0 <= i < |s| ==> !IsLineTerminator(s[i])
  }

  predicate StartsWith(s: string, prefix: string) {
    |prefix| <= |s| && s[..|prefix|] == prefix
  }

  predicate EndsWith(s: string, suffix: string) {
    |suffix| <= |s| && s[|s| - |suffix|..] == suffix
  }

  /** `p` occurs in `s` starting at position `i`. */
  predicate OccursAt(s: string, p: string, i: int) {
    0 <= i <= |s| - |p| && s[i..i + |p|] == p
  }

  /** `s.includes(p)`: `p` occurs in `s` at some position. */
  predicate Contains(s: string, p: string) {
    exists i :: 0 <= i <= |s| - |p| && OccursAt(s, p, i)
  }

  /** Number of leading whitespace characters of `s`. */
  function LeadingWhitespace(s: string): (n: nat)
    ensures n <= |s|
    ensures forall i :: 0 <= i < n ==> IsWhitespace(s[i])
    ensures n == |s| || !IsWhitespace(s[n])
  {
    if |s| == 0 || !IsWhitespace(s[0]) then 0 else 1 + LeadingWhitespace(s[1..])
  }

  /** Number of trailing whitespace characters of `s`. */
  function TrailingWhitespace(s: string): (n: nat)
    ensures n <= |s|
    ensures forall i :: |s| - n <= i < |s| ==> IsWhitespace(s[i])
    ensures n == |s| || !IsWhitespace(s[|s| - 1 - n])
  {
    if |s| == 0 || !IsWhitespace(s[|s| - 1]) then 0 else 1 + TrailingWhitespace(s[..|s| - 1])
  }

  /** `s.trim()`: the longest infix of `s` that neither starts nor ends with
      whitespace, obtained by cutting whitespace from both ends. */
  function Trim(s: string): (r: string)
    ensures r == [] || (!IsWhitespace(r[0]) && !IsWhitespace(r[|r| - 1]))
    ensures r == [] <==> AllWhitespace(s)
  {
    hide IsWhitespace;
    var a := LeadingWhitespace(s);
    var t := s[a..];
    var b := a + |t| - TrailingWhitespace(t);
    assert t[..|t| - TrailingWhitespace(t)] == s[a..b];
    assert AllWhitespace(s[..a]);
    assert AllWhitespace(s[b..]) by {
      forall i | 0 <= i < |s| - b ensures IsWhitespace(s[b..][i]) {
        assert s[b..][i] == t[|t| - TrailingWhitespace(t) + i];
      }
    }
    assert AllWhitespace(s) ==> a == |s|;
    s[a..b]
  }

  /** `s.trim()` is the infix of `s` left after cutting a whitespace prefix
      and a whitespace suffix. */
  lemma TrimCutsWhitespaceEnds(s: string)
    ensures exists a, b :: 0 <= a <= b <= |s| && Trim(s) == s[a..b] && AllWhitespace(s[..a]) && AllWhitespace(s[b..])
  {
    hide IsWhitespace;
    var a := LeadingWhitespace(s);
    var t := s[a..];
    var b := a + |t| - TrailingWhitespace(t);
    assert t[..|t| - TrailingWhitespace(t)] == s[a..b];
    assert AllWhitespace(s[b..]) by {
      forall i | 0 <= i < |s| - b ensures IsWhitespace(s[b..][i]) {
        assert s[b..][i] == t[|t| - TrailingWhitespace(t) + i];
      }
    }
  }

  /** Trimming is idempotent. */
  lemma TrimIdempotent(s: string)
    ensures Trim(Trim(s)) == Trim(s)
  {
    var r := Trim(s);
    if r != [] {
      assert LeadingWhitespace(r) == 0;
      assert TrailingWhitespace(r) == 0;
    }
  }

  /** Position of the first `c` in `s`. */
  function IndexOf(s: string, c: char): (i: nat)
    requires c in s
    ensures i < |s| && s[i] == c && c !in s[..i]
  {
    if s[0] == c then 0 else 1 + IndexOf(s[1..], c)
  }

  /** The UTF-16 code units JavaScript stores for a character: a surrogate
      pair for one outside the Basic Multilingual Plane, one unit
      otherwise. */
  function CodeUnits(c: char): nat {
    if c >= '\U{10000}' then 2 else 1
  }

  /** `s.length`: the number of UTF-16 code units of `s`. */
  function Utf16Length(s: string): (n: nat)
    ensures |s| <= n <= 2 * |s|
  {
    if |s| == 0 then 0 else Utf16Length(s[..|s| - 1]) + CodeUnits(s[|s| - 1])
  }

  /** `s.length` is the number of characters exactly when every character
      lies in the Basic Multilingual Plane. */
  lemma {:induction false} Utf16LengthIsCharCountIff(s: string)
    ensures Utf16Length(s) == |s| <==> forall k :: 0 <= k < |s| ==> s[k] < '\U{10000}'
    decreases |s|
  {
    if |s| > 0 {
      var init := s[..|s| - 1];
      Utf16LengthIsCharCountIff(init);
      assert forall k :: 0 <= k < |init| ==> init[k] == s[k];
    }
  }

  /** `(a + b).length == a.length + b.length`. */
  lemma {:induction false} Utf16LengthConcat(a: string, b: string)
    ensures Utf16Length(a + b) == Utf16Length(a) + Utf16Length(b)
    decreases |b|
  {
    if |b| == 0 {
      assert a + b == a;
    } else {
      var init := b[..|b| - 1];
      Utf16LengthConcat(a, init);
      assert (a + b)[..|a + b| - 1] == a + init;
    }
  }

  /** `parts.join(sep)`. */
  function Join(parts: seq<string>, sep: string): (r: string)
    ensures |parts| == 1 ==> r == parts[0]
  {
    if |parts| == 0 then ""
    else if |parts| == 1 then parts[0]
    else parts[0] + sep + Join(parts[1..], sep)
  }

  /** What occurs in a part of a concatenation occurs in the whole. */
  lemma ContainsWithin(a: string, b: string, c: string, p: string)
    requires Contains(b, p)
    ensures Contains(a + b + c, p)
  {
    var i :| 0 <= i <= |b| - |p| && OccursAt(b, p, i);
    assert (a + b + c)[|a| + i..|a| + i + |p|] == b[i..i + |p|];
    assert OccursAt(a + b + c, p, |a| + i);
  }

  /** Every part occurs in the joined text. */
  lemma {:induction false} JoinContains(parts: seq<string>, sep: string, k: nat)
    requires k < |parts|
    ensures Contains(Join(parts, sep), parts[k])
    decreases k
  {
    if |parts| == 1 {
      assert OccursAt(parts[0], parts[0], 0);
    } else if k == 0 {
      assert (parts[0] + sep + Join(parts[1..], sep))[..|parts[0]|] == parts[0];
      assert OccursAt(Join(parts, sep), parts[0], 0);
    } else {
      JoinContains(parts[1..], sep, k - 1);
      ContainsWithin(parts[0] + sep, Join(parts[1..], sep), "", parts[k]);
      assert parts[0] + sep + Join(parts[1..], sep) + "" == Join(parts, sep);
    }
  }

  /** `s.split(sep)` for a one-character separator: the maximal
      separator-free pieces between separators, including empty ones. */
  function Split(s: string, sep: char): (parts: seq<string>)
    ensures |parts| >= 1
    ensures forall i :: 0 <= i < |parts| ==> sep !in parts[i]
    ensures Join(parts, [sep]) == s
    decreases |s|
  {
    if sep !in s then [s]
    else
      var i := IndexOf(s, sep);
      var rest := Split(s[i + 1..], sep);
      assert s == s[..i] + [sep] + s[i + 1..];
      [s[..i]] + rest
  }

  /** The first piece of `s.split(sep)` is the text before the first
      separator, or all of `s` when there is none. */
  lemma SplitFirstPiece(s: string, sep: char)
    ensures StartsWith(s, Split(s, sep)[0])
    ensures |Split(s, sep)[0]| < |s| ==> s[|Split(s, sep)[0]|] == sep
  {
  }

  /** Splitting undoes joining, as long as no piece contains the separator. */
  lemma {:induction false} SplitJoin(parts: seq<string>, sep: char)
    requires |parts| >= 1
    requires forall i :: 0 <= i < |parts| ==> sep !in parts[i]
    ensures Split(Join(parts, [sep]), sep) == parts
    decreases |parts|
  {
    if |parts| == 1 {
      assert Join(parts, [sep]) == parts[0];
    } else {
      var s := Join(parts, [sep]);
      var tail := Join(parts[1..], [sep]);
      assert s == parts[0] + [sep] + tail;
      assert s[|parts[0]|] == sep;
      assert s[..|parts[0]|] == parts[0];
      assert sep in s;
      var i := IndexOf(s, sep);
      assert forall k :: 0 <= k < |parts[0]| ==> s[k] == parts[0][k];
      assert i == |parts[0]|;
      assert s[i + 1..] == tail;
      SplitJoin(parts[1..], sep);
    }
  }

  /** `(s.match(/p/g) || []).length` for a literal `p`: leftmost,
      non-overlapping occurrences. */
  function CountOccurrences(s: string, p: string): (n: nat)
    requires |p| > 0
    ensures n > 0 <==> Contains(s, p)
    decreases |s|
  {
    if |s| < |p| then 0
    else if s[..|p|] == p then
      assert OccursAt(s, p, 0);
      1 + CountOccurrences(s[|p|..], p)
    else
      var rest := CountOccurrences(s[1..], p);
      assert Contains(s[1..], p) ==> Contains(s, p) by {
        if Contains(s[1..], p) {
          var i :| 0 <= i <= |s[1..]| - |p| && OccursAt(s[1..], p, i);
          assert s[1..][i..i + |p|] == p;
          assert s[i + 1..i + 1 + |p|] == p;
          assert OccursAt(s, p, i + 1);
        }
      }
      assert Contains(s, p) ==> Contains(s[1..], p) by {
        if Contains(s, p) {
          var i :| 0 <= i <= |s| - |p| && OccursAt(s, p, i);
          assert s[i..i + |p|] == p;
          assert i != 0;
          assert s[1..][i - 1..i - 1 + |p|] == p;
          assert OccursAt(s[1..], p, i - 1);
        }
      }
      rest
  }

  /** `s.replace(/x/g, y)` for single characters. */
  function ReplaceChar(s: string, x: char, y: char): (r: string)
    ensures |r| == |s|
    ensures forall i :: 0 <= i < |s| ==> r[i] == (if s[i] == x then y else s[i])
  {
    if |s| == 0 then [] else [if s[0] == x then y else s[0]] + ReplaceChar(s[1..], x, y)
  }

  function DigitChar(d: nat): (c: char)
    requires d < 10
    ensures IsDigit(c)
  {
    (48 + d) as char
  }

  function DigitValue(c: char): (d: nat)
    requires IsDigit(c)
    ensures d < 10 && DigitChar(d) == c
  {
    c as int - 48
  }

  /** The decimal value of a digit string (`Number` / `parseInt(_, 10)` on it,
      without floating-point rounding); the empty string is 0, as `Number('')`. */
  function ParseDecimal(s: string): nat
    requires AllDigits(s)
  {
    if |s| == 0 then 0 else 10 * ParseDecimal(s[..|s| - 1]) + DigitValue(s[|s| - 1])
  }

  /** `String(n)` for a natural number: its shortest decimal rendering. */
  function NatToString(n: nat): (r: string)
    ensures |r| >= 1 && AllDigits(r)
    ensures r[0] == '0' ==> n == 0
    ensures ParseDecimal(r) == n
  {
    if n < 10 then [DigitChar(n)]
    else
      var hi := NatToString(n / 10);
      var r := hi + [DigitChar(n % 10)];
      assert r[..|r| - 1] == hi;
      r
  }
}

=== FILE: translation_rules.dfy ===
/** `checkTranslationRules`: key order and plural keys in translation
    files, and template-literal concatenation of `t(...)` calls. */
module TranslationRules {
  import opened Text
  import opened Wrappers
  import opened FileTree
  import opened Tally
  import opened Results
  import opened Checks
  import Sorting
  import Scanners

  // The messages this group pushes.
  const ReadErrorPrefix := "Error reading translation file: "
  const AllSorted := "All translation files are sorted alphabetically."
  const NotSortedHeading := "Translation files are not sorted alphabetically:\n- "
  const PluralsOk := "Plural keys follow the `_plural` convention."
  const PluralHeading := "Keys with '{{count}}' must end in '_plural':\n"
  const NoConcatenation := "No translation string concatenation detected."
  const ConcatenationsFound := " translation concatenations. Use interpolation."

  /** A file under a `translations` directory below the top level, or any
      file named `web.json`. */
  predicate IsTranslationPath(v: Visit) {
    Contains(Path(v), "/translations/") || BaseName(v) == "web.json"
  }

  /** What the `try` block yields for a translation file; `lt` is the
      `localeCompare` order. */
  function Scan(m: Matchers, lt: (string, string) -> bool, v: Visit): Scanners.TranslationScan {
    Scanners.ScanTranslation(lt, m.parseJson(v.content))
  }

  predicate IsUnsorted(m: Matchers, lt: (string, string) -> bool, v: Visit) {
    IsTranslationPath(v) && Scan(m, lt, v).unsorted
  }

  function Unsorted(m: Matchers, lt: (string, string) -> bool): Visit -> bool {
    v => IsUnsorted(m, lt, v)
  }

  predicate ScanFails(m: Matchers, lt: (string, string) -> bool, v: Visit) {
    IsTranslationPath(v) && Scan(m, lt, v).error.Some?
  }

  // ----- Warnings pushed during the walk -----

  /** `Error reading translation file: ${file}\n${message}` for each
      translation file whose parse or scan threw, in walk order. */
  function ErrorWarnings(m: Matchers, lt: (string, string) -> bool, vs: seq<Visit>): (os: seq<Outcome>)
    ensures AllIn(os, Warned)
    ensures |os| == 0 <==> forall i :: 0 <= i < |vs| ==> !ScanFails(m, lt, vs[i])
  {
    hide Scan, IsTranslationPath, Path;
    if |vs| == 0 then []
    else
      var rest := ErrorWarnings(m, lt, vs[1..]);
      assert forall i :: 1 <= i < |vs| ==> vs[i] == vs[1..][i - 1];
      var s := Scan(m, lt, vs[0]);
      if IsTranslationPath(vs[0]) && s.error.Some? then
        [Outcome(Warned, ReadErrorPrefix + Path(vs[0]) + "\n" + s.error.value)] + rest
      else rest
  }

  function Fails(m: Matchers, lt: (string, string) -> bool): Visit -> bool {
    v => ScanFails(m, lt, v)
  }

  /** One warning per failing translation file, in walk order: the k-th
      warning names the k-th failing file and carries its error text. */
  lemma {:induction false} ErrorWarningsNameFailingFiles(m: Matchers, lt: (string, string) -> bool, vs: seq<Visit>)
    ensures var fs := Select(vs, Fails(m, lt));
            |ErrorWarnings(m, lt, vs)| == |fs| &&
            forall k :: 0 <= k < |fs| ==>
              ScanFails(m, lt, fs[k]) &&
              ErrorWarnings(m, lt, vs)[k] ==
                Outcome(Warned, ReadErrorPrefix + Path(fs[k]) + "\n" + Scan(m, lt, fs[k]).error.value)
    decreases |vs|
  {
    hide Scan, IsTranslationPath, Path;
    if |vs| > 0 {
      ErrorWarningsNameFailingFiles(m, lt, vs[1..]);
      var os := ErrorWarnings(m, lt, vs);
      var rest := ErrorWarnings(m, lt, vs[1..]);
      var fs := Select(vs, Fails(m, lt));
      var tail := Select(vs[1..], Fails(m, lt));
      assert Fails(m, lt)(vs[0]) == ScanFails(m, lt, vs[0]);
      if ScanFails(m, lt, vs[0]) {
        assert fs == [vs[0]] + tail;
        assert os == [Outcome(Warned, ReadErrorPrefix + Path(vs[0]) + "\n" + Scan(m, lt, vs[0]).error.value)] + rest;
      } else {
        assert fs == tail;
        assert os == rest;
      }
    }
  }

  // ----- Key order -----

  /** `unsortedFiles`: the paths of the visits, in order. */
  function PathsOf(ws: seq<Visit>): (r: seq<string>)
    ensures |r| == |ws| && forall k :: 0 <= k < |ws| ==> r[k] == Path(ws[k])
  {
    if |ws| == 0 then [] else [Path(ws[0])] + PathsOf(ws[1..])
  }

  /** Warns when some translation file has its keys out of order, listing
      those files in walk order. */
  function UnsortedCheck(m: Matchers, lt: (string, string) -> bool, vs: seq<Visit>): (o: Outcome)
    ensures o.bucket == Warned <==> exists i :: 0 <= i < |vs| && IsUnsorted(m, lt, vs[i])
    ensures o.bucket != Warned ==> o == Outcome(Passed, AllSorted)
    ensures o.bucket == Warned ==>
              o.message == NotSortedHeading +
                           Join(PathsOf(Select(vs, Unsorted(m, lt))), "\n- ")
  {
    var files := PathsOf(Select(vs, Unsorted(m, lt)));
    SelectEmptyIff(vs, Unsorted(m, lt));
    Check(|files| > 0, Warned, NotSortedHeading + Join(files, "\n- "), AllSorted)
  }

  /** Under a strict total collation, a translation file is listed exactly
      when it parses and some key collates before a key that precedes it. */
  lemma UnsortedFileIff(m: Matchers, lt: (string, string) -> bool, v: Visit)
    requires Sorting.StrictTotalOrder(lt)
    ensures IsUnsorted(m, lt, v) <==>
              IsTranslationPath(v) && m.parseJson(v.content).Parsed? &&
              exists i, j :: 0 <= i < j < |m.parseJson(v.content).entries| &&
                lt(m.parseJson(v.content).entries[j].0, m.parseJson(v.content).entries[i].0)
  {
    hide Scanners.Unsorted, Sorting.StrictTotalOrder;
    var doc := m.parseJson(v.content);
    if doc.Parsed? {
      Scanners.UnsortedIffKeyInversion(lt, doc.entries);
    }
  }

  // ----- Plural keys -----

  /** The keys a translation file reports, when it reports any. */
  function PluralEntry(m: Matchers, lt: (string, string) -> bool, v: Visit): Option<seq<string>> {
    if IsTranslationPath(v) && |Scan(m, lt, v).pluralKeys| > 0 then Some(Scan(m, lt, v).pluralKeys) else None
  }

  function PluralEntries(m: Matchers, lt: (string, string) -> bool): Visit -> Option<seq<string>> {
    v => PluralEntry(m, lt, v)
  }

  /** `  ${file}:\n    Keys: ${keys.join(', ')}`: the line of one file. */
  function PluralLine(file: string, keys: seq<string>): string {
    "  " + file + ":\n    Keys: " + Join(keys, ", ")
  }

  /** The lines of the per-file map, in map order. */
  function PluralLines(entries: seq<(string, seq<string>)>): seq<string> {
    seq(|entries|, k requires 0 <= k < |entries| => PluralLine(entries[k].0, entries[k].1))
  }

  /** When no two visits share a path, a message that embeds the lines
      names every reporting file with the keys it reports. */
  lemma PluralLinesNameEachFile(m: Matchers, lt: (string, string) -> bool, vs: seq<Visit>, head: string)
    ensures DistinctPaths(vs) ==>
              forall i :: 0 <= i < |vs| && PluralEntry(m, lt, vs[i]).Some? ==>
                Contains(head + Lines(PluralLines(PerFile(vs, PluralEntries(m, lt)))) + "",
                         PluralLine(Path(vs[i]), PluralEntry(m, lt, vs[i]).value))
  {
    hide PluralEntry;
    var issues := PerFile(vs, PluralEntries(m, lt));
    var ls := PluralLines(issues);
    forall i | DistinctPaths(vs) && 0 <= i < |vs| && PluralEntry(m, lt, vs[i]).Some?
      ensures Contains(head + Lines(ls) + "", PluralLine(Path(vs[i]), PluralEntry(m, lt, vs[i]).value))
    {
      PerFileHolds(vs, PluralEntries(m, lt), i);
      var k :| 0 <= k < |issues| && issues[k] == (Path(vs[i]), PluralEntry(m, lt, vs[i]).value);
      assert ls[k] == PluralLine(Path(vs[i]), PluralEntry(m, lt, vs[i]).value);
      JoinContains(ls, "\n", k);
      ContainsWithin(head, Lines(ls), "", ls[k]);
    }
  }

  /** Warns when some translation file has a key whose value mentions
      `{{count}}` but whose name does not end in `_plural`. */
  function PluralCheck(m: Matchers, lt: (string, string) -> bool, vs: seq<Visit>): (o: Outcome)
    ensures o.bucket == Warned <==> exists i :: 0 <= i < |vs| && PluralEntry(m, lt, vs[i]).Some?
    ensures o.bucket != Warned ==> o == Outcome(Passed, PluralsOk)
    ensures o.bucket == Warned ==>
              StartsWith(o.message, PluralHeading)
    ensures o.bucket == Warned && DistinctPaths(vs) ==>
              forall i :: 0 <= i < |vs| && PluralEntry(m, lt, vs[i]).Some? ==>
                Contains(o.message, PluralLine(Path(vs[i]), PluralEntry(m, lt, vs[i]).value))
  {
    hide PluralLine, PluralLines, Lines, PluralEntry;
    var issues := PerFile(vs, PluralEntries(m, lt));
    PerFileEmptyIff(vs, PluralEntries(m, lt));
    var head := PluralHeading;
    assert (head + Lines(PluralLines(issues)))[..|head|] == head;
    PluralLinesNameEachFile(m, lt, vs, head);
    assert head + Lines(PluralLines(issues)) + "" == head + Lines(PluralLines(issues));
    Check(|issues| > 0, Warned, head + Lines(PluralLines(issues)), PluralsOk)
  }

  /** A parsed translation file reports a plural problem exactly when some
      key breaks the rule before any value makes the scan throw. */
  lemma PluralEntryIff(m: Matchers, lt: (string, string) -> bool, v: Visit)
    ensures PluralEntry(m, lt, v).Some? <==>
              IsTranslationPath(v) && m.parseJson(v.content).Parsed? &&
              exists i :: 0 <= i < |m.parseJson(v.content).entries| &&
                Scanners.PluralViolation(m.parseJson(v.content).entries[i].0, m.parseJson(v.content).entries[i].1) &&
                Scanners.RunsPast(m.parseJson(v.content).entries, i)
  {
    if m.parseJson(v.content).Parsed? {
      Scanners.PluralKeysNonEmptyIff(m.parseJson(v.content).entries);
    }
  }

  // ----- Concatenation -----

  function ConcatenationCount(m: Matchers, v: Visit): nat {
    if IsReactSource(Path(v)) then m.concatenations(v.content) else 0
  }

  function Concatenations(m: Matchers): Visit -> nat {
    v => ConcatenationCount(m, v)
  }

  /** Warns when some React source builds a template literal around a
      `t(...)` call, with the total count. */
  function ConcatenationCheck(m: Matchers, vs: seq<Visit>): (o: Outcome)
    ensures o.bucket == Warned <==> exists i :: 0 <= i < |vs| && ConcatenationCount(m, vs[i]) > 0
    ensures o.bucket != Warned ==> o == Outcome(Passed, NoConcatenation)
    ensures o.bucket == Warned ==>
              o.message == "Found " + Num(Sum(vs, Concatenations(m))) + ConcatenationsFound
  {
    var total := Sum(vs, Concatenations(m));
    SumPositiveIff(vs, Concatenations(m));
    Check(total > 0, Warned, "Found " + Num(total) + ConcatenationsFound, NoConcatenation)
  }

  /** The entries in push order: the read errors, pushed while walking,
      come before the three checks. */
  function TranslationChecks(m: Matchers, lt: (string, string) -> bool, vs: seq<Visit>): (os: seq<Outcome>)
    ensures |os| >= 3
    ensures os[|os| - 3..] == [UnsortedCheck(m, lt, vs), PluralCheck(m, lt, vs), ConcatenationCheck(m, vs)]
    ensures os[..|os| - 3] == ErrorWarnings(m, lt, vs)
  {
    ErrorWarnings(m, lt, vs) + [UnsortedCheck(m, lt, vs), PluralCheck(m, lt, vs), ConcatenationCheck(m, vs)]
  }

  /** A translation file that is not valid JSON adds one error warning and
      is neither unsorted nor a source of plural problems. */
  lemma UnparsableFileOnlyWarns(m: Matchers, lt: (string, string) -> bool, v: Visit)
    requires IsTranslationPath(v) && m.parseJson(v.content).Unparsable?
    ensures ScanFails(m, lt, v) && !IsUnsorted(m, lt, v) && PluralEntry(m, lt, v).None?
    ensures ErrorWarnings(m, lt, [v]) ==
              [Outcome(Warned, ReadErrorPrefix + Path(v) + "\n" + m.parseJson(v.content).error)]
  {
  }
}

=== FILE: typescript_rules.dfy ===
/** `checkTypeScriptRules`: `any`, enums, default exports and wildcard
    barrels in `.ts` and `.tsx` files. */
module TypeScriptRules {
  import opened Text
  import opened FileTree
  import opened Tally
  import opened Results
  import opened Checks

  // The messages this group pushes.
  const NoAnyUses := "No uses of \"any\" found."
  const AnyUsesFound := " uses of 'any'."
  const AvoidAny := " Avoid using 'any'."
  const NoEnums := "No enums found."
  const EnumsFound := " enums."
  const UseAsConst := " Use 'as const' instead."
  const NoDefaultExports := "No default exports found."
  const DefaultExportsFound := " default exports."
  const UseNamedExports := " Use named exports."
  const NoBarrels := "No barrel exports found."
  const BarrelsFound := " barrel exports."
  const BarrelsFoundAdvice := BarrelsFound + " Avoid barrel exports."

  predicate UsesAny(v: Visit) {
    IsTypeScript(Path(v)) && Contains(v.content, ": any")
  }

  predicate DeclaresEnum(m: Matchers, v: Visit) {
    IsTypeScript(Path(v)) && m.enumDeclaration(v.content)
  }

  function Enums(m: Matchers): Visit -> bool {
    v => DeclaresEnum(m, v)
  }

  /** `/export default/` is a plain substring search. */
  predicate ExportsDefault(v: Visit) {
    IsTypeScript(Path(v)) && Contains(v.content, "export default")
  }

  /** A file named `index.ts` or `index.tsx` (`/^index\.tsx?$/` on the base
      name). */
  predicate IsIndex(v: Visit) {
    BaseName(v) == "index.ts" || BaseName(v) == "index.tsx"
  }

  /** The `export * from` statements of an index file. */
  function WildcardCount(v: Visit): nat {
    if IsTypeScript(Path(v)) && IsIndex(v) && Contains(v.content, "export * from")
    then CountOccurrences(v.content, "export * from")
    else 0
  }

  /** Fails when some TypeScript file mentions `: any`; the count is the
      number of such files, which are listed one per line. */
  function AnyCheck(vs: seq<Visit>): (o: Outcome)
    ensures o.bucket == Failed <==> exists i :: 0 <= i < |vs| && UsesAny(vs[i])
    ensures o.bucket != Failed ==> o == Outcome(Passed, NoAnyUses)
    ensures o.bucket == Failed ==>
              StartsWith(o.message, "Found " + Num(|Select(vs, UsesAny)|) + AnyUsesFound) &&
              EndsWith(o.message, "\n" + Lines(FilesWhere(vs, UsesAny)))
  {
    var count := |Select(vs, UsesAny)|;
    SelectEmptyIff(vs, UsesAny);
    var head := "Found " + Num(count) + AnyUsesFound;
    assert (head + AvoidAny)[..|head|] == head;
    FileListCheck(count > 0, Failed, head + AvoidAny, FilesWhere(vs, UsesAny), NoAnyUses)
  }

  /** Fails when some TypeScript file declares an enum. */
  function EnumCheck(m: Matchers, vs: seq<Visit>): (o: Outcome)
    ensures o.bucket == Failed <==> exists i :: 0 <= i < |vs| && DeclaresEnum(m, vs[i])
    ensures o.bucket != Failed ==> o == Outcome(Passed, NoEnums)
    ensures o.bucket == Failed ==>
              StartsWith(o.message, "Found " + Num(|Select(vs, Enums(m))|) + EnumsFound) &&
              EndsWith(o.message, "\n" + Lines(FilesWhere(vs, Enums(m))))
  {
    var count := |Select(vs, Enums(m))|;
    SelectEmptyIff(vs, Enums(m));
    var head := "Found " + Num(count) + EnumsFound;
    assert (head + UseAsConst)[..|head|] == head;
    FileListCheck(count > 0, Failed, head + UseAsConst, FilesWhere(vs, Enums(m)), NoEnums)
  }

  /** Fails when some TypeScript file contains `export default`. */
  function DefaultExportCheck(vs: seq<Visit>): (o: Outcome)
    ensures o.bucket == Failed <==> exists i :: 0 <= i < |vs| && ExportsDefault(vs[i])
    ensures o.bucket != Failed ==> o == Outcome(Passed, NoDefaultExports)
    ensures o.bucket == Failed ==>
              StartsWith(o.message, "Found " + Num(|Select(vs, ExportsDefault)|) + DefaultExportsFound) &&
              EndsWith(o.message, "\n" + Lines(FilesWhere(vs, ExportsDefault)))
  {
    var count := |Select(vs, ExportsDefault)|;
    SelectEmptyIff(vs, ExportsDefault);
    var head := "Found " + Num(count) + DefaultExportsFound;
    assert (head + UseNamedExports)[..|head|] == head;
    FileListCheck(count > 0, Failed, head + UseNamedExports, FilesWhere(vs, ExportsDefault), NoDefaultExports)
  }

  /** Fails when some index file re-exports with `export * from`; the count
      is the number of such statements over all index files. */
  function BarrelCheck(vs: seq<Visit>): (o: Outcome)
    ensures o.bucket == Failed <==> exists i :: 0 <= i < |vs| && WildcardCount(vs[i]) > 0
    ensures o.bucket != Failed ==> o == Outcome(Passed, NoBarrels)
    ensures o.bucket == Failed ==>
              StartsWith(o.message, "Found " + Num(Sum(vs, WildcardCount)) + BarrelsFound) &&
              EndsWith(o.message, "\n" + Lines(FilesWhere(vs, Contributes(WildcardCount))))
  {
    ListCheck(vs, WildcardCount, Failed, "Found ", BarrelsFoundAdvice, NoBarrels)
  }

  /** The entries in push order. */
  function TypeScriptChecks(m: Matchers, vs: seq<Visit>): (os: seq<Outcome>)
    ensures |os| == 4
  {
    [AnyCheck(vs), EnumCheck(m, vs), DefaultExportCheck(vs), BarrelCheck(vs)]
  }
}

=== FILE: ui_versions.dfy ===
/** `check-athena-ui-versions.js` once the repositories' `package.json`
    files have been fetched: the per-repository status line, the list of
    repositories using athena-ui, the version distribution, the split at
    major version 31, the HTML badge colour, and the order of the report. */
module UiVersions {
  import opened Text
  import opened Wrappers
  import opened Sorting
  import Manifest

  const PackageName := "@simpplr/athena-ui"

  /** What the contents API gave for a repository's `package.json`: a 404 or
      an answer without `content`, a decoded and parsed manifest, or another
      failure (a non-404 HTTP error, invalid JSON). */
  datatype RepoData = NoPackageJson | Package(pkg: Manifest.PackageJson) | Failure(message: string)

  datatype Repo = Repo(name: string, url: string, data: RepoData)

  /** How `checkAthenaUIVersion` ends for one repository. */
  datatype VersionCheck = Absent | Version(v: string) | Errored(message: string)

  /** `checkAthenaUIVersion(repoName)`: the first truthy declaration, `null`
      when there is none or no `package.json`, and a rejection otherwise.
      The `catch` turns every failure whose message mentions `404` into
      `null`, not only the HTTP 404 the request already resolved to `null`. */
  function CheckVersion(data: RepoData): (r: VersionCheck)
    ensures r.Version? ==> r.v != ""
    ensures r.Errored? <==> data.Failure? && !Contains(data.message, "404")
    ensures r.Errored? ==> r.message == data.message
    ensures data.NoPackageJson? ==> r.Absent?
  {
    match data
    case NoPackageJson => Absent
    case Failure(m) => if Contains(m, "404") then Absent else Errored(m)
    case Package(pkg) =>
      match Manifest.DeclaredVersion(pkg, PackageName)
      case None => Absent
      case Some(v) => Version(v)
  }

  /** The version reported for a parsed manifest is the one the first
      declaring section holds, as in the styles-import script. */
  lemma CheckVersionIsFirstDeclared(pkg: Manifest.PackageJson)
    ensures CheckVersion(Package(pkg)).Absent? <==>
            forall i :: 0 <= i < 3 ==> !Manifest.Declares(Manifest.Sections(pkg)[i], PackageName)
    ensures CheckVersion(Package(pkg)).Version? ==>
            exists i :: Manifest.FirstDeclaring(pkg, PackageName, i) &&
                        CheckVersion(Package(pkg)).v == Manifest.Sections(pkg)[i][PackageName]
  {
  }

  // ----- Major version -----

  /** Index of the first ASCII digit of `s`, or `|s|`. */
  function FirstDigit(s: string): (i: nat)
    ensures i <= |s|
    ensures forall k :: 0 <= k < i ==> !IsDigit(s[k])
    ensures i < |s| ==> IsDigit(s[i])
  {
    if |s| == 0 || IsDigit(s[0]) then 0 else 1 + FirstDigit(s[1..])
  }

  /** End of the run of digits that starts at `i`. */
  function RunEnd(s: string, i: nat): (j: nat)
    requires i <= |s|
    ensures i <= j <= |s|
    ensures forall k :: i <= k < j ==> IsDigit(s[k])
    ensures j < |s| ==> !IsDigit(s[j])
    decreases |s| - i
  {
    if i < |s| && IsDigit(s[i]) then RunEnd(s, i + 1) else i
  }

  /** `const match = version.match(/\d+/); match ? parseInt(match[0], 10) : 0`:
      the value of the first maximal run of digits, or 0 when there is none. */
  function Major(s: string): (r: nat)
    ensures (forall k :: 0 <= k < |s| ==> !IsDigit(s[k])) ==> r == 0
  {
    var i := FirstDigit(s);
    if i == |s| then 0
    else
      var j := RunEnd(s, i);
      assert AllDigits(s[i..j]) by {
        forall k | 0 <= k < j - i ensures IsDigit(s[i..j][k]) {
          assert s[i..j][k] == s[i + k];
        }
      }
      ParseDecimal(s[i..j])
  }

  /** A range prefix without digits is skipped and the major is read up to
      the first non-digit: `^31.2.0` and `~31` have major 31. */
  lemma {:induction false} MajorReadsFirstRun(prefix: string, m: string, rest: string)
    requires forall k :: 0 <= k < |prefix| ==> !IsDigit(prefix[k])
    requires |m| > 0 && AllDigits(m)
    requires |rest| == 0 || !IsDigit(rest[0])
    ensures Major(prefix + m + rest) == ParseDecimal(m)
  {
    var s := prefix + m + rest;
    var end := |prefix| + |m|;
    assert forall k :: 0 <= k < |prefix| ==> s[k] == prefix[k];
    assert forall k :: |prefix| <= k < end ==> s[k] == m[k - |prefix|];
    assert end < |s| ==> s[end] == rest[0];
    assert IsDigit(s[|prefix|]) by {
      assert s[|prefix|] == m[0];
    }
    var i := FirstDigit(s);
    assert i == |prefix|;
    var j := RunEnd(s, i);
    assert j == end;
    assert s[i..j] == m;
  }

  // ----- Console indicator and HTML badge -----

  datatype Color = Red | Yellow | Green

  /** The tick or cross and its colour on the console line of one
      repository. */
  datatype Indicator = Indicator(mark: string, color: Color)

  function IndicatorFor(version: Option<string>): (r: Indicator)
    ensures version.None? <==> r == Indicator("✗", Red)
    ensures version.Some? ==> r.mark == "✓" && (r.color == Green <==> Major(version.value) >= 31)
  {
    match version
    case None => Indicator("✗", Red)
    case Some(v) => if Major(v) >= 31 then Indicator("✓", Green) else Indicator("✓", Yellow)
  }

  /** The `version-…` class of a version badge in the HTML report. */
  function Badge(version: string): (c: Color)
    ensures c == Green <==> Major(version) >= 31
    ensures c == Yellow <==> 0 < Major(version) < 31
    ensures c == Red <==> Major(version) == 0
  {
    if Major(version) >= 31 then Green else if Major(version) > 0 then Yellow else Red
  }

  /** The console and the HTML report agree on every version with a non-zero
      major; a version whose major is 0 (no digits at all, say) is a yellow
      tick on the console but a red badge in the report. */
  lemma IndicatorAgreesWithBadge(v: string)
    requires v != ""
    ensures Major(v) > 0 ==> IndicatorFor(Some(v)).color == Badge(v)
    ensures Major(v) == 0 ==> IndicatorFor(Some(v)).color == Yellow && Badge(v) == Red
  {
  }

  // ----- Results -----

  /** One element of `results`. */
  datatype Entry = Entry(name: string, version: string, url: string)

  /** `results`: the repositories whose check gave a truthy version, in
      repository order. */
  function Collect(repos: seq<Repo>): (rs: seq<Entry>)
    ensures |rs| <= |repos|
    ensures forall k :: 0 <= k < |rs| ==> rs[k].version != ""
  {
    if |repos| == 0 then []
    else
      var rest := Collect(repos[1..]);
      assert forall i :: 1 <= i < |repos| ==> repos[i] == repos[1..][i - 1];
      var head := repos[0];
      match CheckVersion(head.data)
      case Version(v) => [Entry(head.name, v, head.url)] + rest
      case _ => rest
  }

  /** The repositories whose check gives a version, in repository order. */
  function Versioned(repos: seq<Repo>): seq<Repo> {
    if |repos| == 0 then []
    else (if CheckVersion(repos[0].data).Version? then [repos[0]] else []) + Versioned(repos[1..])
  }

  /** One result per versioned repository, in order: the k-th result carries
      the name, URL and version of the k-th repository that has one. */
  lemma {:induction false} CollectFollowsVersioned(repos: seq<Repo>)
    ensures var vr := Versioned(repos);
            |Collect(repos)| == |vr| &&
            forall k :: 0 <= k < |vr| ==>
              CheckVersion(vr[k].data).Version? &&
              Collect(repos)[k] == Entry(vr[k].name, CheckVersion(vr[k].data).v, vr[k].url)
    decreases |repos|
  {
    if |repos| > 0 {
      CollectStep(repos);
      VersionedStep(repos);
      CollectFollowsVersioned(repos[1..]);
      hide Collect, Versioned, CheckVersion, Contains;
      var rs, rt := Collect(repos), Collect(repos[1..]);
      var vr, tail := Versioned(repos), Versioned(repos[1..]);
      if CheckVersion(repos[0].data).Version? {
        forall k | 1 <= k < |vr|
          ensures CheckVersion(vr[k].data).Version? &&
                  rs[k] == Entry(vr[k].name, CheckVersion(vr[k].data).v, vr[k].url)
        {
          assert vr[k] == tail[k - 1] && rs[k] == rt[k - 1];
        }
      }
    }
  }

  /** The results are exactly the versioned repositories, each with its
      version, name and URL. */
  lemma {:induction false} CollectMembers(repos: seq<Repo>)
    ensures forall e :: e in Collect(repos) <==>
              exists i :: 0 <= i < |repos| && CheckVersion(repos[i].data) == Version(e.version) &&
                          e.name == repos[i].name && e.url == repos[i].url
    decreases |repos|
  {
    if |repos| > 0 {
      CollectStep(repos);
      CollectMembers(repos[1..]);
      hide Collect, CheckVersion, Contains;
      var rs, rt, head := Collect(repos), Collect(repos[1..]), repos[0];
      forall e
        ensures e in rs <==>
                exists i :: 0 <= i < |repos| && CheckVersion(repos[i].data) == Version(e.version) &&
                            e.name == repos[i].name && e.url == repos[i].url
      {
        var fromHead := CheckVersion(head.data) == Version(e.version) && e.name == head.name && e.url == head.url;
        assert e in rs <==> fromHead || e in rt;
        assert forall i :: 1 <= i < |repos| ==> repos[i] == repos[1..][i - 1];
      }
    }
  }

  /** One step of `Collect`. */
  lemma CollectStep(repos: seq<Repo>)
    requires |repos| > 0
    ensures CheckVersion(repos[0].data).Version? ==>
              Collect(repos) == [Entry(repos[0].name, CheckVersion(repos[0].data).v, repos[0].url)] + Collect(repos[1..])
    ensures !CheckVersion(repos[0].data).Version? ==> Collect(repos) == Collect(repos[1..])
  {
    hide Contains;
  }

  /** One step of `Versioned`. */
  lemma VersionedStep(repos: seq<Repo>)
    requires |repos| > 0
    ensures CheckVersion(repos[0].data).Version? ==> Versioned(repos) == [repos[0]] + Versioned(repos[1..])
    ensures !CheckVersion(repos[0].data).Version? ==> Versioned(repos) == Versioned(repos[1..])
  {
    hide Contains;
  }

  /** The repositories the report lists without athena-ui: those no result
      is named after. */
  function WithoutAthena(repos: seq<Repo>, rs: seq<Entry>): (r: seq<Repo>)
    ensures forall x :: x in r <==> x in repos && forall k :: 0 <= k < |rs| ==> rs[k].name != x.name
  {
    if |repos| == 0 then []
    else
      (if forall k :: 0 <= k < |rs| ==> rs[k].name != repos[0].name then [repos[0]] else [])
      + WithoutAthena(repos[1..], rs)
  }

  /** With distinct repository names, the two lists of the report split the
      repositories: every repository is in exactly one of them. */
  lemma {:induction false} ReportSplitsRepos(repos: seq<Repo>)
    requires forall a, b :: 0 <= a < b < |repos| ==> repos[a].name != repos[b].name
    ensures forall i :: 0 <= i < |repos| ==>
              (repos[i] in WithoutAthena(repos, Collect(repos)) <==> !CheckVersion(repos[i].data).Version?)
  {
    var rs := Collect(repos);
    CollectMembers(repos);
    forall i | 0 <= i < |repos|
      ensures repos[i] in WithoutAthena(repos, rs) <==> !CheckVersion(repos[i].data).Version?
    {
      var x := repos[i];
      if CheckVersion(x.data).Version? {
        var e := Entry(x.name, CheckVersion(x.data).v, x.url);
        assert e in rs;
        var k :| 0 <= k < |rs| && rs[k] == e;
        assert rs[k].name == x.name;
      } else {
        forall k | 0 <= k < |rs| ensures rs[k].name != x.name {
          assert rs[k] in rs;
        }
      }
    }
  }

  // ----- Version distribution -----

  /** The number of results with exactly version `v`. */
  function CountOf(rs: seq<Entry>, v: string): nat {
    if |rs| == 0 then 0 else (if rs[0].version == v then 1 else 0) + CountOf(rs[1..], v)
  }

  /** The value `versionCounts[v]` holds, 0 when the key is absent. */
  function Lookup(m: seq<(string, nat)>, v: string): nat {
    if |m| == 0 then 0 else if m[0].0 == v then m[0].1 else Lookup(m[1..], v)
  }

  function CountSum(m: seq<(string, nat)>): nat {
    if |m| == 0 then 0 else m[0].1 + CountSum(m[1..])
  }

  /** The keys of `versionCounts` in insertion order. */
  function Versions(m: seq<(string, nat)>): (r: seq<string>)
    ensures |r| == |m| && forall k :: 0 <= k < |m| ==> r[k] == m[k].0
  {
    if |m| == 0 then [] else [m[0].0] + Versions(m[1..])
  }

  /** `versionCounts[v] = (versionCounts[v] || 0) + 1`. */
  function Bump(m: seq<(string, nat)>, v: string): (r: seq<(string, nat)>)
    ensures Lookup(r, v) == Lookup(m, v) + 1
    ensures forall w :: w != v ==> Lookup(r, w) == Lookup(m, w)
    ensures CountSum(r) == CountSum(m) + 1
  {
    if |m| == 0 then [(v, 1)]
    else if m[0].0 == v then [(v, m[0].1 + 1)] + m[1..]
    else [m[0]] + Bump(m[1..], v)
  }

  /** Bumping adds `v` to the keys if it is new and keeps them distinct. */
  lemma {:induction false} BumpKeys(m: seq<(string, nat)>, v: string)
    ensures forall w :: w in Versions(Bump(m, v)) <==> w == v || w in Versions(m)
    ensures Distinct(Versions(m)) ==> Distinct(Versions(Bump(m, v)))
    decreases |m|
  {
    if |m| > 0 {
      assert Versions(m) == [m[0].0] + Versions(m[1..]);
      var r := Bump(m, v);
      if m[0].0 == v {
        assert Versions(r) == [v] + Versions(m[1..]);
      } else {
        BumpKeys(m[1..], v);
        assert Versions(r) == [m[0].0] + Versions(Bump(m[1..], v));
        if Distinct(Versions(m)) {
          assert Distinct(Versions(m[1..])) by {
            forall a, b | 0 <= a < b < |m| - 1 ensures Versions(m[1..])[a] != Versions(m[1..])[b] {
              assert Versions(m)[a + 1] != Versions(m)[b + 1];
            }
          }
          assert m[0].0 !in Versions(m[1..]) by {
            forall b | 0 <= b < |m| - 1 ensures Versions(m[1..])[b] != m[0].0 {
              assert Versions(m)[0] != Versions(m)[b + 1];
            }
          }
        }
      }
    }
  }

  predicate Distinct(s: seq<string>) {
    forall a, b :: 0 <= a < b < |s| ==> s[a] != s[b]
  }

  /** `versionCounts` after the results have been pushed in order. */
  function VersionCounts(rs: seq<Entry>): seq<(string, nat)>
  {
    if |rs| == 0 then [] else Bump(VersionCounts(rs[..|rs| - 1]), rs[|rs| - 1].version)
  }

  lemma CountOfSnoc(rs: seq<Entry>, e: Entry, v: string)
    ensures CountOf(rs + [e], v) == CountOf(rs, v) + (if e.version == v then 1 else 0)
  {
    if |rs| > 0 {
      assert (rs + [e])[1..] == rs[1..] + [e];
      CountOfSnoc(rs[1..], e, v);
    }
  }

  /** Each version maps to the number of results carrying it, and the
      counts add up to the number of results. */
  lemma {:induction false} VersionCountsCount(rs: seq<Entry>)
    ensures forall v :: Lookup(VersionCounts(rs), v) == CountOf(rs, v)
    ensures CountSum(VersionCounts(rs)) == |rs|
    decreases |rs|
  {
    if |rs| > 0 {
      var init, last := rs[..|rs| - 1], rs[|rs| - 1];
      VersionCountsCount(init);
      assert rs == init + [last];
      forall v ensures Lookup(VersionCounts(rs), v) == CountOf(rs, v) {
        CountOfSnoc(init, last, v);
      }
    }
  }

  /** Some result carries version `v`. */
  predicate HasVersion(rs: seq<Entry>, v: string) {
    exists k :: 0 <= k < |rs| && rs[k].version == v
  }

  /** The keys are distinct and are exactly the versions that occur. */
  lemma {:induction false} VersionCountsKeys(rs: seq<Entry>)
    ensures forall v :: v in Versions(VersionCounts(rs)) <==> exists k :: 0 <= k < |rs| && rs[k].version == v
    ensures Distinct(Versions(VersionCounts(rs)))
    decreases |rs|
  {
    if |rs| > 0 {
      var init, last := rs[..|rs| - 1], rs[|rs| - 1];
      VersionCountsKeys(init);
      BumpKeys(VersionCounts(init), last.version);
      forall v ensures HasVersion(rs, v) <==> v == last.version || HasVersion(init, v) {
        assert forall k :: 0 <= k < |init| ==> init[k] == rs[k];
      }
    }
  }

  /** Each version maps to the number of results carrying it; the keys are
      distinct and are exactly the versions that occur; the counts add up
      to the number of results. */
  lemma VersionCountsExact(rs: seq<Entry>)
    ensures forall v :: Lookup(VersionCounts(rs), v) == CountOf(rs, v)
    ensures forall v :: v in Versions(VersionCounts(rs)) <==> exists k :: 0 <= k < |rs| && rs[k].version == v
    ensures Distinct(Versions(VersionCounts(rs)))
    ensures CountSum(VersionCounts(rs)) == |rs|
  {
    VersionCountsCount(rs);
    VersionCountsKeys(rs);
  }

  // ----- The split at 31 -----

  function CountBelow31(rs: seq<Entry>): nat {
    if |rs| == 0 then 0 else (if Major(rs[0].version) < 31 then 1 else 0) + CountBelow31(rs[1..])
  }

  function CountFrom31(rs: seq<Entry>): nat {
    if |rs| == 0 then 0 else (if Major(rs[0].version) >= 31 then 1 else 0) + CountFrom31(rs[1..])
  }

  /** `lessThan31` and `greaterOrEqual31`: every result has a truthy
      version, so each is counted on exactly one side. */
  lemma {:induction false} SplitCoversResults(rs: seq<Entry>)
    requires forall k :: 0 <= k < |rs| ==> rs[k].version != ""
    ensures CountBelow31(rs) + CountFrom31(rs) == |rs|
    decreases |rs|
  {
    if |rs| > 0 {
      SplitCoversResults(rs[1..]);
    }
  }

  // ----- Report order -----

  /** The comparator of `results.sort`: by version, then by name. */
  function ByVersionThenName(lt: (string, string) -> bool): (before: (Entry, Entry) -> bool)
  {
    (a: Entry, b: Entry) => if a.version != b.version then lt(a.version, b.version) else lt(a.name, b.name)
  }

  /** Ordering by version and then name is a strict weak order when the
      collation is a strict total order. */
  lemma {:induction false} ByVersionThenNameIsWeak(lt: (string, string) -> bool)
    requires StrictTotalOrder(lt)
    ensures StrictWeakOrder(ByVersionThenName(lt))
  {
    var before := ByVersionThenName(lt);
    forall a ensures !before(a, a) {
      assert !lt(a.name, a.name);
    }
    forall a, b, c | before(a, b) && before(b, c) ensures before(a, c) {
      if a.version == b.version && b.version == c.version {
      } else if a.version == b.version {
      } else if b.version == c.version {
      } else {
        assert lt(a.version, b.version) && lt(b.version, c.version);
      }
    }
    forall a, b, c | before(a, c) ensures before(a, b) || before(b, c) {
      if !before(a, b) {
        assert b.version != a.version ==> lt(b.version, a.version);
        assert b.version == a.version ==> b.name == a.name || lt(b.name, a.name);
      }
    }
  }

  /** The sorted `results`. */
  function SortResults(rs: seq<Entry>, lt: (string, string) -> bool): (r: seq<Entry>)
    ensures multiset(r) == multiset(rs)
  {
    SortBy(rs, NotAfter(ByVersionThenName(lt)))
  }

  /** After sorting, versions never decrease and, within one version, names
      never decrease; the list holds the same results as before. */
  lemma SortedByVersionThenName(rs: seq<Entry>, lt: (string, string) -> bool)
    requires StrictTotalOrder(lt)
    ensures multiset(SortResults(rs, lt)) == multiset(rs)
    ensures forall i, j :: 0 <= i < j < |SortResults(rs, lt)| ==>
              var a := SortResults(rs, lt)[i];
              var b := SortResults(rs, lt)[j];
              !lt(b.version, a.version) && (a.version == b.version ==> !lt(b.name, a.name))
  {
    ByVersionThenNameIsWeak(lt);
    NotAfterIsTotalPreorder(ByVersionThenName(lt));
    var r := SortResults(rs, lt);
    assert SortedBy(r, NotAfter(ByVersionThenName(lt)));
    forall i, j | 0 <= i < j < |r|
      ensures !lt(r[j].version, r[i].version) && (r[i].version == r[j].version ==> !lt(r[j].name, r[i].name))
    {
      assert NotAfter(ByVersionThenName(lt))(r[i], r[j]);
    }
  }

  /** The report's summary of the sorted results still covers every result. */
  lemma SummaryCoversSortedResults(repos: seq<Repo>, lt: (string, string) -> bool)
    ensures CountBelow31(SortResults(Collect(repos), lt)) + CountFrom31(SortResults(Collect(repos), lt))
            == |Collect(repos)|
  {
    var rs := Collect(repos);
    var sorted := SortResults(rs, lt);
    assert |sorted| == |rs| by {
      assert |multiset(sorted)| == |multiset(rs)|;
    }
    forall k | 0 <= k < |sorted| ensures sorted[k].version != "" {
      assert sorted[k] in multiset(rs);
    }
    SplitCoversResults(sorted);
  }

  // ----- Distribution order -----

  /** The comparator of the distribution's `sort`: by version. */
  function ByVersion(lt: (string, string) -> bool): (before: ((string, nat), (string, nat)) -> bool)
  {
    (a: (string, nat), b: (string, nat)) => lt(a.0, b.0)
  }

  lemma {:induction false} ByVersionIsWeak(lt: (string, string) -> bool)
    requires StrictTotalOrder(lt)
    ensures StrictWeakOrder(ByVersion(lt))
  {
    TotalIsWeak(lt);
    var before := ByVersion(lt);
    forall a ensures !before(a, a) {
      assert !lt(a.0, a.0);
    }
    forall a, b, c | before(a, b) && before(b, c) ensures before(a, c) {
      assert lt(a.0, b.0) && lt(b.0, c.0);
    }
    forall a, b, c | before(a, c) ensures before(a, b) || before(b, c) {
      assert lt(a.0, c.0);
      assert lt(a.0, b.0) || lt(b.0, c.0);
    }
  }

  /** `Object.entries(versionCounts).sort(...)`: the distribution lines in
      print order. */
  function Distribution(rs: seq<Entry>, lt: (string, string) -> bool): (d: seq<(string, nat)>)
    ensures multiset(d) == multiset(VersionCounts(rs))
  {
    SortBy(VersionCounts(rs), NotAfter(ByVersion(lt)))
  }

  /** An element occurring twice sits at two positions. */
  lemma {:induction false} TwoCopies(s: seq<(string, nat)>, x: (string, nat))
    requires multiset(s)[x] >= 2
    ensures exists a, b :: 0 <= a < b < |s| && s[a] == x && s[b] == x
    decreases |s|
  {
    assert s == [s[0]] + s[1..];
    if s[0] == x {
      assert x in multiset(s[1..]);
      var b :| 0 <= b < |s[1..]| && s[1..][b] == x;
      assert s[b + 1] == x;
    } else {
      TwoCopies(s[1..], x);
      var a, b :| 0 <= a < b < |s[1..]| && s[1..][a] == x && s[1..][b] == x;
      assert s[a + 1] == x && s[b + 1] == x;
    }
  }

  /** An element at two positions occurs twice. */
  lemma TwiceInMultiset(d: seq<(string, nat)>, i: nat, j: nat)
    requires i < j < |d| && d[i] == d[j]
    ensures multiset(d)[d[j]] >= 2
  {
    assert d == d[..j] + [d[j]] + d[j + 1..];
    assert d[..j][i] == d[j];
  }

  /** Distinct keys: two positions hold two keys. */
  lemma DistinctKeysDiffer(m: seq<(string, nat)>, a: nat, b: nat)
    requires Distinct(Versions(m)) && a < |m| && b < |m| && a != b
    ensures m[a].0 != m[b].0
  {
    hide Versions;
    var vs := Versions(m);
    assert vs[a] == m[a].0 && vs[b] == m[b].0;
    if a < b {
      assert vs[a] != vs[b];
    } else {
      assert vs[b] != vs[a];
    }
  }

  /** Reordering a list whose keys are distinct keeps them distinct. */
  lemma PermutedKeysDistinct(m: seq<(string, nat)>, d: seq<(string, nat)>)
    requires multiset(d) == multiset(m) && Distinct(Versions(m))
    ensures Distinct(Versions(d))
  {
    forall i, j | 0 <= i < j < |d| ensures Versions(d)[i] != Versions(d)[j] {
      if d[i].0 == d[j].0 {
        if d[i] == d[j] {
          TwiceInMultiset(d, i, j);
          TwoCopies(m, d[j]);
          var a, b :| 0 <= a < b < |m| && m[a] == d[j] && m[b] == d[j];
          DistinctKeysDiffer(m, a, b);
        } else {
          assert d[i] in multiset(d) && d[j] in multiset(d);
          var a :| 0 <= a < |m| && m[a] == d[i];
          var b :| 0 <= b < |m| && m[b] == d[j];
          DistinctKeysDiffer(m, a, b);
        }
      }
    }
  }

  /** With distinct keys, an entry holds the value its key looks up. */
  lemma {:induction false} LookupEntry(m: seq<(string, nat)>, k: nat)
    requires k < |m| && Distinct(Versions(m))
    ensures Lookup(m, m[k].0) == m[k].1
    decreases |m|
  {
    if k > 0 {
      assert Versions(m)[0] != Versions(m)[k];
      assert Distinct(Versions(m[1..])) by {
        forall a, b | 0 <= a < b < |m| - 1 ensures Versions(m[1..])[a] != Versions(m[1..])[b] {
          assert Versions(m)[a + 1] != Versions(m)[b + 1];
        }
      }
      LookupEntry(m[1..], k - 1);
    }
  }

  /** Keys sorted without inversions and distinct are strictly ascending. */
  lemma SortedDistinctAscending(d: seq<(string, nat)>, lt: (string, string) -> bool)
    requires SortedBy(d, NotAfter(ByVersion(lt))) && Distinct(Versions(d))
    requires StrictTotalOrder(lt)
    ensures forall i, j :: 0 <= i < j < |d| ==> lt(d[i].0, d[j].0)
  {
    forall i, j | 0 <= i < j < |d| ensures lt(d[i].0, d[j].0) {
      assert NotAfter(ByVersion(lt))(d[i], d[j]);
      assert Versions(d)[i] != Versions(d)[j];
    }
  }

  /** Reordering keeps every entry's value the count of its key. */
  lemma PermutedCounts(rs: seq<Entry>, m: seq<(string, nat)>, d: seq<(string, nat)>)
    requires multiset(d) == multiset(m) && Distinct(Versions(m))
    requires forall v :: Lookup(m, v) == CountOf(rs, v)
    ensures forall k :: 0 <= k < |d| ==> d[k].1 == CountOf(rs, d[k].0)
  {
    forall k | 0 <= k < |d| ensures d[k].1 == CountOf(rs, d[k].0) {
      assert d[k] in multiset(d);
      var a :| 0 <= a < |m| && m[a] == d[k];
      LookupEntry(m, a);
    }
  }

  /** Reordering keeps the set of keys. */
  lemma PermutedVersions(m: seq<(string, nat)>, d: seq<(string, nat)>)
    requires multiset(d) == multiset(m)
    ensures forall v :: v in Versions(d) <==> v in Versions(m)
  {
    forall v ensures v in Versions(d) <==> v in Versions(m) {
      if v in Versions(d) {
        var k :| 0 <= k < |d| && Versions(d)[k] == v;
        assert d[k] in multiset(d);
        var a :| 0 <= a < |m| && m[a] == d[k];
        assert Versions(m)[a] == v;
      }
      if v in Versions(m) {
        var a :| 0 <= a < |m| && Versions(m)[a] == v;
        assert m[a] in multiset(m);
        var k :| 0 <= k < |d| && d[k] == m[a];
        assert Versions(d)[k] == v;
      }
    }
  }

  /** The distribution prints each version that occurs exactly once, with
      the number of results carrying it, in strictly increasing collation
      order; the insertion order of `versionCounts` does not matter. */
  lemma DistributionAscending(rs: seq<Entry>, lt: (string, string) -> bool)
    requires StrictTotalOrder(lt)
    ensures forall i, j :: 0 <= i < j < |Distribution(rs, lt)| ==>
              lt(Distribution(rs, lt)[i].0, Distribution(rs, lt)[j].0)
    ensures forall k :: 0 <= k < |Distribution(rs, lt)| ==>
              Distribution(rs, lt)[k].1 == CountOf(rs, Distribution(rs, lt)[k].0)
    ensures forall v :: v in Versions(Distribution(rs, lt)) <==> exists k :: 0 <= k < |rs| && rs[k].version == v
  {
    var m := VersionCounts(rs);
    var d := Distribution(rs, lt);
    VersionCountsExact(rs);
    ByVersionIsWeak(lt);
    NotAfterIsTotalPreorder(ByVersion(lt));
    PermutedKeysDistinct(m, d);
    SortedDistinctAscending(d, lt);
    PermutedCounts(rs, m, d);
    PermutedVersions(m, d);
  }
}

=== FILE: wrappers.dfy ===
/** Optional values. */
module Wrappers {
  datatype Option<T> = None | Some(value: T)
}
